=== FILE: README.md ===
# Resource deployer: dependency tracking and invalidation

This project is a Dafny model of the core of the jPOS resource deployer.

The deployer copies the runtime resources of a Q2 installation (every
class-path entry under `META-INF/q2-runtime/`) to an output directory.
Resources that are not excluded are *filtered* on the way:

1. `${KEY}` markers are substituted from the configuration;
2. `@@KEY@@` markers are substituted next;
3. the result is run through a FreeMarker template.

For every filtered resource the deployer records which configuration keys
its render consumed. When the configuration files change, it computes
which keys now hold different values. It then re-renders exactly the
resources that consumed one of them.

The model covers:

- **Common**: Java's `String.trim`, `List.remove` and `Map.get`.
- **DependencyRegistry**: the dependency registry, a Guava multimap from
  resource to keys.
- **PropertyResolverSpi**: the shared invalidation rule
  `calculateAffectedResources`, with a reference definition
  (`AffectedResources`) and the source's loop proved equal to it.
- **ConfigFiles**: property files merged in list order, the last file
  winning.
- **SimpleResolver** and **SpringResolver**: the two property resolvers.
  - The simple resolver reads property files and answers the built-in
    keys `env:NAME` and `basedir`.
  - The Spring resolver reads an ordered list of property sources. It
    tracks and reloads only the `file:` sources.
- **Resolvers**: the resolver interface, dispatched over both
  implementations.
- **Markers**: the `OPEN(.*?)CLOSE` patterns.
  - A match is leftmost, with the shortest body free of line terminators.
  - Substitution of resolved keys keeps every unresolved marker verbatim.
  - The `find`/`appendReplacement` loop is proved to compute that
    substitution.
- **Resources**: resource names and file names, exclusion patterns, and
  the two marker stages.
- **Deployer**: the core `ResourceDeployer`. It covers:
  - the exclusion list;
  - installing one resource or all of them;
  - uninstalling;
  - the configuration watcher's reaction to a file event.
- **LegacyDeployer**: the older, self-contained `ResourceDeployer`. It
  reads a YAML file and property files itself, and polls file timestamps
  instead of using a resolver.

Everything outside the program is a parameter:

- the class-path catalog and its entries;
- files on disk with their modification times;
- JVM system properties;
- Spring's resource loader;
- Ant path matching;
- the FreeMarker engine.

The written output directory is a map from file name to contents.

Integers are unbounded. The model's only integers are lengths and the
`long` modification times, which are only compared. The one `int`
computation of the source that can overflow, the buffer size of a marker
stage, is listed under "Left out".

## Model

| member | source | states |
|---|---|---|
| Common.TrimEmptyIffBlank | jpos-deployer-core/src/main/java/com/vmantek/jpos/deployer/simple/SimplePropertyResolver.java:34 | `key.trim()` is non-empty exactly when the key holds a character above the space |
| Common.RemoveFirstSplits | jpos-deployer-core/src/main/java/com/vmantek/jpos/deployer/simple/SimplePropertyResolver.java:50-53 | `List.remove` removes the first occurrence and keeps everything before and after it, in order |
| DependencyRegistry.RemoveAll | jpos-deployer-core/src/main/java/com/vmantek/jpos/deployer/ResourceDeployer.java:279-282 | `removeAll` empties the resource's entry, leaves every other entry alone and keeps the multimap well formed |
| DependencyRegistry.PutAll | jpos-deployer-core/src/main/java/com/vmantek/jpos/deployer/ResourceDeployer.java:271-277 | `putAll` adds the keys to the resource's entry; an empty key set adds no entry; other entries are unchanged |
| DependencyRegistry.ReplaceForgetsStaleKeys | jpos-deployer-core/src/main/java/com/vmantek/jpos/deployer/ResourceDeployer.java:149-151 | clearing an entry before registering leaves exactly the new keys, whatever was recorded before |
| DependencyRegistry.ReplaceIdempotent | jpos-deployer-core/src/main/java/com/vmantek/jpos/deployer/ResourceDeployer.java:271-282 | clearing and registering the same keys twice gives the registry that doing it once gives |
| DependencyRegistry.Dependents | jpos-deployer-core/src/main/java/com/vmantek/jpos/deployer/spi/PropertyResolver.java:42-46 | the entries whose key collection contains a key are exactly the resources that recorded it |
| PropertyResolverSpi.CalculateAffectedResources | jpos-deployer-core/src/main/java/com/vmantek/jpos/deployer/spi/PropertyResolver.java:28-51 | the source's loop returns a resource exactly when it is registered and recorded a key that both snapshots hold with different values; this is the reference `AffectedResources` |
| PropertyResolverSpi.AffectedIsDependsOnDiffering | jpos-deployer-core/src/main/java/com/vmantek/jpos/deployer/spi/PropertyResolver.java:36-47 | the affected set is the union, over the differing keys, of the resources depending on each |
| PropertyResolverSpi.EqualConfigsAffectNothing | jpos-deployer-core/src/main/java/com/vmantek/jpos/deployer/spi/PropertyResolver.java:33-34 | equal snapshots affect no resource |
| PropertyResolverSpi.AdditionsAndRemovalsAffectNothing | jpos-deployer-core/src/main/java/com/vmantek/jpos/deployer/spi/PropertyResolver.java:37 | keys only added or only removed invalidate nothing: `entriesDiffering` holds only keys present on both sides |
| PropertyResolverSpi.AffectedAreRegistered | jpos-deployer-core/src/main/java/com/vmantek/jpos/deployer/spi/PropertyResolver.java:36-46 | only resources with an entry in the registry are reported |
| PropertyResolverSpi.MonotoneInRegistry | jpos-deployer-core/src/main/java/com/vmantek/jpos/deployer/spi/PropertyResolver.java:42-46 | recording more keys can only grow the affected set |
| PropertyResolverSpi.UntouchedResourceNotAffected | jpos-deployer-core/src/main/java/com/vmantek/jpos/deployer/spi/PropertyResolver.java:42-46 | a resource whose recorded keys all keep their values is never re-rendered |
| ConfigFiles.MergedKeys | jpos-deployer-core/src/main/java/com/vmantek/jpos/deployer/simple/SimplePropertyResolver.java:94-113 | the merged configuration holds a key exactly when some existing listed file defines it |
| ConfigFiles.MergedLastWins | jpos-deployer-core/src/main/java/com/vmantek/jpos/deployer/simple/SimplePropertyResolver.java:94-113 | a key's merged value is the one of the last listed file defining it |
| SimpleResolver.EnvKeyIff | jpos-deployer-core/src/main/java/com/vmantek/jpos/deployer/simple/SimplePropertyResolver.java:34 | an `env:` key names a system property exactly when a non-blank character follows the prefix |
| SimpleResolver.GetBuiltin | jpos-deployer-core/src/main/java/com/vmantek/jpos/deployer/simple/SimplePropertyResolver.java:32-43 | an `env:` key gives the system property after the prefix, `basedir` the output base, anything else nothing |
| SimpleResolver.NewSimple | jpos-deployer-core/src/main/java/com/vmantek/jpos/deployer/simple/SimplePropertyResolver.java:21-30 | a new resolver lists only `cfg/config.properties`, has an empty snapshot and keeps the output base |
| SimpleResolver.GetProperty | jpos-deployer-core/src/main/java/com/vmantek/jpos/deployer/simple/SimplePropertyResolver.java:61-69 | a built-in value wins; otherwise the snapshot's value, or nothing |
| SimpleResolver.MutableIff | jpos-deployer-core/src/main/java/com/vmantek/jpos/deployer/simple/SimplePropertyResolver.java:71-74 | a key is mutable exactly when it has no built-in value, so an `env:` key whose property is unset is mutable |
| SimpleResolver.AddConfigFile | jpos-deployer-core/src/main/java/com/vmantek/jpos/deployer/simple/SimplePropertyResolver.java:45-48 | the file is appended to the list; the snapshot is unchanged |
| SimpleResolver.RemoveConfigFile | jpos-deployer-core/src/main/java/com/vmantek/jpos/deployer/simple/SimplePropertyResolver.java:50-53 | an absent name changes nothing; a present name shortens the list by one |
| SimpleResolver.RemoveKeepsLaterCopy | jpos-deployer-core/src/main/java/com/vmantek/jpos/deployer/simple/SimplePropertyResolver.java:50-53 | removing a name listed twice keeps its later copy |
| SimpleResolver.PutAbsent | jpos-deployer-core/src/main/java/com/vmantek/jpos/deployer/simple/SimplePropertyResolver.java:105-109 | a file's keys are added only where the map has none yet |
| SimpleResolver.ReadConfigFiles | jpos-deployer-core/src/main/java/com/vmantek/jpos/deployer/simple/SimplePropertyResolver.java:94-113 | walking the list in reverse and keeping the first value gives the last-file-wins merge |
| SimpleResolver.Initialize | jpos-deployer-core/src/main/java/com/vmantek/jpos/deployer/simple/SimplePropertyResolver.java:55-59 | the snapshot becomes the fresh merge of the listed files |
| SimpleResolver.TrackedSources | jpos-deployer-core/src/main/java/com/vmantek/jpos/deployer/simple/SimplePropertyResolver.java:76-82 | the tracked sources are exactly the listed files |
| SimpleResolver.ScanPropertyChanges | jpos-deployer-core/src/main/java/com/vmantek/jpos/deployer/simple/SimplePropertyResolver.java:84-92 | reports the resources invalidated between the held snapshot and a fresh merge, which then becomes the snapshot |
| SimpleResolver.RescanIsQuiet | jpos-deployer-core/src/main/java/com/vmantek/jpos/deployer/simple/SimplePropertyResolver.java:84-92 | a second scan over unchanged files reports nothing |
| SpringResolver.SourceUriOfName | jpos-deployer-springboot/src/main/java/com/vmantek/jpos/deployer/springboot/SpringPropertyResolver.java:29 | the pattern gives back the URI of a name `applicationConfig: [URI]` when the URI has no `]` and no line terminator |
| SpringResolver.SourceUri | jpos-deployer-springboot/src/main/java/com/vmantek/jpos/deployer/springboot/SpringPropertyResolver.java:29 | the URI taken from a source name never holds a line terminator |
| SpringResolver.TrackedSource | jpos-deployer-springboot/src/main/java/com/vmantek/jpos/deployer/springboot/SpringPropertyResolver.java:112-128 | a source is tracked exactly when its name holds a URI starting with `file:`, and it is tracked under the absolute path of that URI |
| SpringResolver.TrackedIffMutable | jpos-deployer-springboot/src/main/java/com/vmantek/jpos/deployer/springboot/SpringPropertyResolver.java:98-128 | a source is tracked exactly when it is mutable, that is when its URI starts with `file:` |
| SpringResolver.TrackedSources | jpos-deployer-springboot/src/main/java/com/vmantek/jpos/deployer/springboot/SpringPropertyResolver.java:86-96 | the tracked sources are exactly the absolute paths of the sources' `file:` URIs |
| SpringResolver.Initialize | jpos-deployer-springboot/src/main/java/com/vmantek/jpos/deployer/springboot/SpringPropertyResolver.java:42-46 | the sources are kept and the tracked paths are exactly those of the mutable sources |
| SpringResolver.MutableIff | jpos-deployer-springboot/src/main/java/com/vmantek/jpos/deployer/springboot/SpringPropertyResolver.java:54-66 | a key is mutable exactly when the first source containing it is a `file:` source; an enumerable source contains its listed names, any other source the names it has a non-null value for; a key no source contains is immutable |
| SpringResolver.Holder | jpos-deployer-springboot/src/main/java/com/vmantek/jpos/deployer/springboot/SpringPropertyResolver.java:56-63 | the source that decides `isMutable` contains the key and no source before it does; with none, no source contains it |
| SpringResolver.FirstValue | jpos-deployer-springboot/src/main/java/com/vmantek/jpos/deployer/springboot/SpringPropertyResolver.java:48-52 | `getProperty` finds a value exactly when some source holds a non-null value for the key, and then it is the value of the first such source |
| SpringResolver.GetProperty | jpos-deployer-springboot/src/main/java/com/vmantek/jpos/deployer/springboot/SpringPropertyResolver.java:48-52 | a value exactly when some source holds a non-null one, and then the first such source's value |
| SpringResolver.FlattenedSpec | jpos-deployer-springboot/src/main/java/com/vmantek/jpos/deployer/springboot/SpringPropertyResolver.java:130-155 | the flattened view holds a key exactly when an enumerable source supplies it, with the first such source's value |
| SpringResolver.EnumerableViewsAgree | jpos-deployer-springboot/src/main/java/com/vmantek/jpos/deployer/springboot/SpringPropertyResolver.java:48-52 | when every source is enumerable, `getProperty` and `getProperties` agree on every key |
| SpringResolver.PutSupplied | jpos-deployer-springboot/src/main/java/com/vmantek/jpos/deployer/springboot/SpringPropertyResolver.java:139-151 | one source's names are added where absent, skipping null values |
| SpringResolver.GetProperties | jpos-deployer-springboot/src/main/java/com/vmantek/jpos/deployer/springboot/SpringPropertyResolver.java:130-155 | the loop over the sources computes the flattened view, earlier sources winning |
| SpringResolver.ReloadOne | jpos-deployer-springboot/src/main/java/com/vmantek/jpos/deployer/springboot/SpringPropertyResolver.java:166-193 | a source that is not a `file:` source is kept; a `file:` source is replaced under its own name by what the loader returns, kept when the load throws an `IOException`, and any other exception stops the walk |
| SpringResolver.ReloadPropertySources | jpos-deployer-springboot/src/main/java/com/vmantek/jpos/deployer/springboot/SpringPropertyResolver.java:157-196 | names and non-`file:` sources are kept; the walk finishes exactly when no load crashes, and then every source is reloaded; otherwise it names the source that crashed, every source before it is reloaded and every source from it on is untouched |
| SpringResolver.ScanPropertyChanges | jpos-deployer-springboot/src/main/java/com/vmantek/jpos/deployer/springboot/SpringPropertyResolver.java:68-84 | a completed reload reports the resources invalidated between the flattened views before and after; a crash reports nothing and leaves the sources as the walk left them when it stopped |
| SpringResolver.UnchangedFilesAffectNothing | jpos-deployer-springboot/src/main/java/com/vmantek/jpos/deployer/springboot/SpringPropertyResolver.java:68-84 | reloading files that did not change reports nothing |
| Resolvers.GetProperty | jpos-deployer-core/src/main/java/com/vmantek/jpos/deployer/spi/PropertyResolver.java:20 | dispatches `getProperty`: the simple resolver's built-in value, else its snapshot's value; for Spring the value of the first source holding a non-null one |
| Resolvers.Initialized | jpos-deployer-core/src/main/java/com/vmantek/jpos/deployer/spi/PropertyResolver.java:18 | initialising keeps the resolver kind; the simple resolver keeps its list and base and takes the fresh merge as snapshot; the Spring resolver keeps its sources and records its tracked paths |
| Resolvers.TrackedSources | jpos-deployer-core/src/main/java/com/vmantek/jpos/deployer/spi/PropertyResolver.java:26 | dispatches `getTrackedSources`: the simple resolver's listed files, the Spring resolver's `file:` paths |
| Resolvers.Initialize | jpos-deployer-core/src/main/java/com/vmantek/jpos/deployer/ResourceDeployer.java:105-108 | `init` leaves the resolver `Initialized` describes |
| Resolvers.ScanPropertyChanges | jpos-deployer-core/src/main/java/com/vmantek/jpos/deployer/spi/PropertyResolver.java:24 | only registered resources are reported; the simple resolver reports the reference affected set between its snapshot and the fresh merge, which becomes its snapshot; the Spring resolver's rescan is as `Resolvers.SpringRescanned` states |
| Resolvers.SpringRescanned | jpos-deployer-springboot/src/main/java/com/vmantek/jpos/deployer/springboot/SpringPropertyResolver.java:68-84 | a Spring rescan keeps the tracked files and the number of sources; a clean reload reloads every source and reports the reference affected set of the flattened views; a crash reports nothing and leaves the sources as the interrupted walk left them |
| Markers.MatchKeyIsShortest | jpos-deployer-core/src/main/java/com/vmantek/jpos/deployer/ResourceDeployer.java:49-50 | a captured key has no line terminator and no `CLOSE` starts inside it: `(.*?)` is the shortest match |
| Markers.JoinTokenize | jpos-deployer-core/src/main/java/com/vmantek/jpos/deployer/ResourceDeployer.java:247-263 | cutting a text into plain runs and matches loses nothing: joining them gives the text back |
| Markers.TokenizeKeysAreShortest | jpos-deployer-core/src/main/java/com/vmantek/jpos/deployer/ResourceDeployer.java:250-252 | every key `find` captures is a shortest body without line terminators |
| Markers.ResolvedIff | jpos-deployer-core/src/main/java/com/vmantek/jpos/deployer/ResourceDeployer.java:250-258 | a key is recorded exactly when some match captured it and the resolver has a value for it |
| Markers.FilterKeysIff | jpos-deployer-core/src/main/java/com/vmantek/jpos/deployer/ResourceDeployer.java:244-264 | a stage reports exactly the captured keys that resolve |
| Markers.UnresolvedKeptVerbatim | jpos-deployer-core/src/main/java/com/vmantek/jpos/deployer/ResourceDeployer.java:254-262 | markers that do not resolve are kept, so with nothing resolvable a stage returns its input and no keys |
| Markers.RenderFromIsRender | jpos-deployer-core/src/main/java/com/vmantek/jpos/deployer/ResourceDeployer.java:250-263 | the position-wise scan renders the same text and keys as substitution over the matches |
| Markers.ScanIsFilter | jpos-deployer-core/src/main/java/com/vmantek/jpos/deployer/ResourceDeployer.java:250-263 | the `find`/`appendReplacement` loop, run from the start, yields the stage's text and keys |
| Markers.FindAndReplace | jpos-deployer-core/src/main/java/com/vmantek/jpos/deployer/ResourceDeployer.java:250-259 | one iteration of the loop is one step of the scan |
| Markers.FilterResource | jpos-deployer-core/src/main/java/com/vmantek/jpos/deployer/ResourceDeployer.java:244-264 | `filterResource` returns the substituted text and the keys it resolved, as the reference stage defines them |
| Resources.ResourceToFilename | jpos-deployer-core/src/main/java/com/vmantek/jpos/deployer/ResourceDeployer.java:222-225 | the name minus its first 20 characters; a shorter name throws |
| Resources.FilenameRoundTrip | jpos-deployer-core/src/main/java/com/vmantek/jpos/deployer/ResourceDeployer.java:47 | file name and resource name under the prefix folder convert into each other and back |
| Resources.PrefixIsNotChecked | jpos-deployer-core/src/main/java/com/vmantek/jpos/deployer/ResourceDeployer.java:222-225 | a name outside the prefix folder is still mapped to a file name, so the prefix is never checked |
| Resources.IsResourceFilterable | jpos-deployer-core/src/main/java/com/vmantek/jpos/deployer/ResourceDeployer.java:215-220 | filterable exactly when no exclusion matches the file name; a short name throws unless the list is empty |
| Resources.StageKeysResolve | jpos-deployer-core/src/main/java/com/vmantek/jpos/deployer/ResourceDeployer.java:253-257 | every key a marker stage reports has a value |
| Resources.UnresolvedDocumentUnchanged | jpos-deployer-core/src/main/java/com/vmantek/jpos/deployer/ResourceDeployer.java:176-179 | a document with no resolvable marker passes both stages unchanged and consumes nothing |
| Resources.ClassifyAll | jpos-deployer-core/src/main/java/com/vmantek/jpos/deployer/ResourceDeployer.java:131-134 | succeeds exactly when every entry can be classified; then it lists exactly the filterable entries; otherwise it names an entry that threw |
| Deployer.NewDeployer | jpos-deployer-core/src/main/java/com/vmantek/jpos/deployer/ResourceDeployer.java:63-67 | a new deployer has the given resolver, no exclusions and an empty registry; the output directory keeps whatever it already holds |
| Deployer.AddFilterExclusion | jpos-deployer-core/src/main/java/com/vmantek/jpos/deployer/ResourceDeployer.java:91-98 | a pattern is appended; a non-pattern throws and changes nothing |
| Deployer.RemoveFilterExclusion | jpos-deployer-core/src/main/java/com/vmantek/jpos/deployer/ResourceDeployer.java:100-103 | an absent pattern changes nothing; a present one shortens the list by one |
| Deployer.AddThenRemove | jpos-deployer-core/src/main/java/com/vmantek/jpos/deployer/ResourceDeployer.java:91-103 | adding a new pattern and removing it restores the deployer |
| Deployer.SetFilterExclusions | jpos-deployer-core/src/main/java/com/vmantek/jpos/deployer/ResourceDeployer.java:85-89 | succeeds exactly when every string is a pattern, and the list then equals the given one; on failure the patterns before the bad one are kept |
| Deployer.SetupDefaultExclusions | jpos-deployer-core/src/main/java/com/vmantek/jpos/deployer/ResourceDeployer.java:110-119 | the exclusion list becomes exactly the six default patterns, in order; nothing else changes |
| Deployer.RenderFiltered | jpos-deployer-core/src/main/java/com/vmantek/jpos/deployer/ResourceDeployer.java:170-201 | an error exactly when the template does not parse, leaving an empty file; a rendered template's text is written; a template failing while processing leaves the text of the second marker stage; the consumed keys are exactly the stage keys plus, for a rendered template, the keys it read |
| Deployer.RecordedKeysIff | jpos-deployer-core/src/main/java/com/vmantek/jpos/deployer/ResourceDeployer.java:244-277 | a filtered install records a key exactly when the resolver calls it mutable and a stage captured and resolved it or the template read it |
| Deployer.RegisterResourceKeys | jpos-deployer-core/src/main/java/com/vmantek/jpos/deployer/ResourceDeployer.java:271-277 | only the keys the resolver calls mutable are added to the resource's entry; every other entry is kept |
| Deployer.RecordInstall | jpos-deployer-core/src/main/java/com/vmantek/jpos/deployer/ResourceDeployer.java:149-151 | an install changes only its own entry, which then holds the mutable keys its render consumed, or nothing |
| Deployer.InstallResourceAs | jpos-deployer-core/src/main/java/com/vmantek/jpos/deployer/ResourceDeployer.java:149-203 | a missing resource or short name throws; a non-filtered resource is copied verbatim; a filtered one is written as rendered; the registry changes as `RecordInstall` says |
| Deployer.InstallTwice | jpos-deployer-core/src/main/java/com/vmantek/jpos/deployer/ResourceDeployer.java:149-151 | installing a resource twice records what installing it once records |
| Deployer.Init | jpos-deployer-core/src/main/java/com/vmantek/jpos/deployer/ResourceDeployer.java:105-108 | `init` replaces the resolver by its initialised form and leaves the rest |
| Deployer.InstallAll | jpos-deployer-core/src/main/java/com/vmantek/jpos/deployer/ResourceDeployer.java:136-139 | installing every entry in order, when none throws, leaves the folded registry and output of the installs, and every entry exists with a file name |
| Deployer.RecordAllAt | jpos-deployer-core/src/main/java/com/vmantek/jpos/deployer/ResourceDeployer.java:136-139 | installing entries in order over an empty registry leaves each installed entry with its own recorded keys and nothing elsewhere |
| Deployer.InstallRuntimeResources | jpos-deployer-core/src/main/java/com/vmantek/jpos/deployer/ResourceDeployer.java:126-140 | the resolver is initialised; a completed full install leaves each entry with its keys, under its own classification, and no other entry; each entry's file holds what the last entry with that file name installs, and every other file is kept |
| Deployer.InstallResourceAsWritten | jpos-deployer-core/src/main/java/com/vmantek/jpos/deployer/ResourceDeployer.java:142-147 | as written, installing one resource empties every other entry of the registry |
| Deployer.SingleInstallLosesDependents | jpos-deployer-core/src/main/java/com/vmantek/jpos/deployer/ResourceDeployer.java:142-147 | after that, a resource affected by a changed key before the install is no longer affected |
| Deployer.InstallResource | jpos-deployer-core/src/main/java/com/vmantek/jpos/deployer/ResourceDeployer.java:142-147 | corrected: the resolver is initialised and every other entry stays as it was; on success the resource exists and its entry holds what its filtered or plain install records; only its own file is rewritten, with the copy or the render |
| Deployer.UninstallResource | jpos-deployer-core/src/main/java/com/vmantek/jpos/deployer/ResourceDeployer.java:205-213 | the output file goes and every other file stays; a short name throws; the registry is not touched |
| Deployer.UninstallIdempotent | jpos-deployer-core/src/main/java/com/vmantek/jpos/deployer/ResourceDeployer.java:205-213 | uninstalling twice is uninstalling once |
| Deployer.WatchedFiles | jpos-deployer-core/src/main/java/com/vmantek/jpos/deployer/ResourceDeployer.java:322-333 | the corrected watch: exactly the tracked sources that exist when it starts, a name with no directory part included (see "Findings") |
| Deployer.StartWatchAsWritten | jpos-deployer-core/src/main/java/com/vmantek/jpos/deployer/ResourceDeployer.java:322-333 | as written, the watch fails to start exactly when some existing tracked name has no directory part, whose `getParentFile()` is null; otherwise it watches `WatchedFiles` |
| Deployer.BareConfigNameStopsWatch | jpos-deployer-core/src/main/java/com/vmantek/jpos/deployer/ResourceDeployer.java:326-330 | a file resolver listing the existing `app.properties` never starts its watch as written, while the corrected watch covers the file |
| Deployer.Reinstall | jpos-deployer-core/src/main/java/com/vmantek/jpos/deployer/ResourceDeployer.java:365-369 | re-rendering the affected resources, filtered, leaves each with its fresh keys and every other entry unchanged; only their files are rewritten, each with the render of an affected resource of that file name |
| Deployer.OnFileEvent | jpos-deployer-core/src/main/java/com/vmantek/jpos/deployer/ResourceDeployer.java:322-370 | an event on a file outside the set watched since the watch started changes nothing; the exclusion list is always kept; otherwise only registered resources are re-rendered, for files exactly the reference affected set with the fresh merge as the new snapshot, for Spring as `Resolvers.SpringRescanned` states; no other entry or file changes |
| LegacyDeployer.NewLegacy | src/main/java/com/vmantek/tools/jpos/ResourceDeployer.java:52-58 | `newInstance` starts with no property files, exclusions, timestamps, configuration or registry; the output directory keeps whatever it already holds |
| LegacyDeployer.ReadConfigFiles | src/main/java/com/vmantek/tools/jpos/ResourceDeployer.java:258-276 | the forward loop gives the last-file-wins merge and stamps each existing listed file, so none counts as updated afterwards |
| LegacyDeployer.PutEvery | src/main/java/com/vmantek/tools/jpos/ResourceDeployer.java:266-271 | every property of a file overrides the configuration's value for that key |
| LegacyDeployer.ReadDeployerConfig | src/main/java/com/vmantek/tools/jpos/ResourceDeployer.java:230-256 | the file list comes from the YAML plus `CONFIG_FILE`; no `filter` section throws after the list is replaced; otherwise exclusions and configuration are replaced |
| LegacyDeployer.ListedConfigFiles | src/main/java/com/vmantek/tools/jpos/ResourceDeployer.java:240-248 | the YAML's `config-files`, in order, followed by the `CONFIG_FILE` system property when it is set |
| LegacyDeployer.StageKeys | src/main/java/com/vmantek/tools/jpos/ResourceDeployer.java:205-223 | a legacy install records a key exactly when it is in the configuration and a `${}` marker of the document, or an `@@` marker of the first stage's output, captured it |
| LegacyDeployer.RecordInstall | src/main/java/com/vmantek/tools/jpos/ResourceDeployer.java:125-172 | only a filtered install touches the registry, replacing its own entry with the stage keys |
| LegacyDeployer.InstallResourceAs | src/main/java/com/vmantek/tools/jpos/ResourceDeployer.java:125-172 | a missing resource or short name throws before anything changes; otherwise the file is copied or rendered |
| LegacyDeployer.AgreesWithCore | src/main/java/com/vmantek/tools/jpos/ResourceDeployer.java:150-152 | when the template reads only keys the stages resolved, the legacy and core deployers record the same registry |
| LegacyDeployer.CopyKeepsStaleEntry | src/main/java/com/vmantek/tools/jpos/ResourceDeployer.java:137-150 | a plain copy in the legacy keeps the old entry, so the resource stays affected; in the core it does not |
| LegacyDeployer.RecordAllAt | src/main/java/com/vmantek/tools/jpos/ResourceDeployer.java:95-98 | installing entries in order over an empty registry leaves each installed entry with its own stage keys |
| LegacyDeployer.InstallOne | src/main/java/com/vmantek/tools/jpos/ResourceDeployer.java:125-172 | an install changes only its own entry, as `RecordInstall` says, and the one file it writes, with the contents the resolver-based deployer writes over the merged map |
| LegacyDeployer.InstallAll | src/main/java/com/vmantek/tools/jpos/ResourceDeployer.java:95-98 | installing every entry in order, when none throws, leaves the folded registry and the folded output of the installs, and keeps the configuration |
| LegacyDeployer.InstallRuntimeResources | src/main/java/com/vmantek/tools/jpos/ResourceDeployer.java:84-99 | the exclusions and configuration are the ones just read from the YAML; a completed full install gives each entry its keys under its classification against those exclusions, keeps files no entry names, and leaves each other file with what the last entry naming it writes |
| LegacyDeployer.InstallResource | src/main/java/com/vmantek/tools/jpos/ResourceDeployer.java:107-112 | a single install re-reads the configuration and leaves every other entry as it was; on success its entry holds the stage keys of a filtered install or stays as it was after a plain copy, and its file gets the render or the copy |
| LegacyDeployer.Reinstall | src/main/java/com/vmantek/tools/jpos/ResourceDeployer.java:346-354 | re-rendering the affected resources leaves each with its fresh stage keys and every other entry unchanged; files no affected resource names are kept, and each affected file holds the render of an affected resource with that name |
| LegacyDeployer.Poll | src/main/java/com/vmantek/tools/jpos/ResourceDeployer.java:320-370 | with no file updated nothing changes; otherwise the configuration becomes the fresh merge, every existing listed file is stamped with its modification time even when a re-render throws, and exactly the reference affected set is re-rendered, with files no affected resource names kept; when no re-render throws, each affected file holds the render under the new configuration of an affected resource with that file name |
| LegacyDeployer.PollTwice | src/main/java/com/vmantek/tools/jpos/ResourceDeployer.java:326 | a second poll over the same files finds none updated, so it reports nothing and changes nothing |

## Left out

- The watcher threads: `startConfigMonitoring`, `stopConfigMonitoring`, the `running` flag, the sleeps, and the re-creation of the watch service after an error. One event, or one poll, is modelled; a start that throws is `Deployer.StartWatchAsWritten` returning no watch, which the retry repeats with the same tracked sources.
- Concurrency between the watcher and direct calls. The model is sequential.
- The watch service itself: directory registration, overflow events, `key.reset`. `Deployer.OnFileEvent` receives the path of one event.
- Creating directories and opening files, and their I/O failures. A failed `write` is logged and swallowed, and the file that `FileWriter` truncated stays empty; the output map does not model that failure.
- Java `Properties` parsing, YAML parsing and the class-path scan. Their results are inputs: a file's key map, a `DeployerYaml` value, the catalog and its entries.
- AntPathMatcher and FreeMarker are parameters. The model does not give their semantics.
- `appendReplacement` treats `$` and `\` in a value specially. The model inserts values literally.
- Spring's placeholder resolution inside values. Also the wait-and-retry loop (up to 20 tries, 200 ms apart) for a resource that does not exist yet.
- Spring resolves a `file:` URI to an absolute path. That is the `absPath` parameter.
- The `INSTANCE` singletons, `getResourcePrefix`, `getAvailableResources`, and the `ResourceDeployerX` interface. They hold no logic beyond returning a field or a parameter.
- The legacy `uninstallResource` (src/main/java/com/vmantek/tools/jpos/ResourceDeployer.java:114-123) is identical to the core one, which `Deployer.UninstallResource` models.
- `getResourceAsStream` returning null, and a YAML file that is not a map. Both make the legacy deployer throw a `NullPointerException` or a `ClassCastException`.
- LegacyDeployer.ReadDeployerConfig: a YAML without `config-files` gives the immutable empty list, and adding the `CONFIG_FILE` name to it throws. The model treats a missing list as an empty one and does not throw.
- Deployer.OnFileEvent: the keys each re-rendered resource then holds are stated by `Deployer.Reinstall`, not repeated here.
- Deployer.Reinstall: when two affected resources share a file name, the file holds the render of one of them; which one depends on the iteration order of the set, which is not modelled.
- LegacyDeployer.Reinstall: when two affected resources share a file name, the file holds the render of one of them; which one depends on the iteration order of the set, which is not modelled.
- LegacyDeployer.Poll: the same holds for the resources a poll re-renders; which of two sharing a file name wins is not modelled.
- SpringResolver.ReloadPropertySources: a null result from the loader (SpringPropertyResolver.java:186-187) would be stored as a source without a check; the model has no null source, so the loader's outcomes are a loaded source, an I/O error or an exception.
- The buffer of a marker stage is sized `s.length() * 2` (ResourceDeployer.java:248). That `int` product overflows for a document longer than 2^30 - 1 characters and throws `NegativeArraySizeException`; the model has unbounded strings and never throws there.
- A filtered resource is decoded with the platform's default charset (ResourceDeployer.java:174) while a plain copy is byte for byte (ResourceDeployer.java:163-169). The model holds each resource as one string, so the decoding is not modelled.
- Deployer.Init and Resolvers.Initialize: the Spring `initialize` could throw from `getFile`. It is modelled as total.

## Findings

| source | as written | input that shows it | evidently intended | confidence | as-written member | corrected member |
|---|---|---|---|---|---|---|
| jpos-deployer-core/src/main/java/com/vmantek/jpos/deployer/ResourceDeployer.java:326-330 | `dirs.add(file.getParentFile().toPath())` dereferences the parent of every existing tracked file | the simple resolver's list after `addConfigFile("app.properties")`, with that file present: `getParentFile()` is null, the start throws, the catch sleeps 5 s and the loop throws again, so no change is ever picked up | a name with no directory part is watched in the working directory | high, not executed | Deployer.StartWatchAsWritten, Deployer.BareConfigNameStopsWatch | Deployer.WatchedFiles |
| jpos-deployer-core/src/main/java/com/vmantek/jpos/deployer/ResourceDeployer.java:142-147 | `installResource(resource)` calls `resourceProps.clear()`, which empties the whole registry before installing one resource | a registry `{A: {k}}`; installing `B` drops `A`'s entry, so a later change of `k` no longer re-renders `A` | only `B`'s own entry is replaced, as `installResource(resource, filtered)` already does with `clearResourceKeys` | medium, not executed | Deployer.InstallResourceAsWritten, Deployer.SingleInstallLosesDependents | Deployer.InstallResource |

=== FILE: affected.dfy ===
/** The invalidation rule shared by every property resolver
    (`PropertyResolver.calculateAffectedResources`): a resource must be
    re-rendered when it consumed a key that both snapshots hold with
    different values. Keys that were only added or only removed do not
    invalidate anything. */
module PropertyResolverSpi {
  import opened DependencyRegistry

  type Config = map<string, string>

  /** A key of `MapDifference.entriesDiffering()`: present on both sides with
      different values. */
  predicate Differs(oldConfig: Config, newConfig: Config, k: string) {
    k in oldConfig && k in newConfig && oldConfig[k] != newConfig[k]
  }

  function DifferingKeys(oldConfig: Config, newConfig: Config): (d: set<string>)
    ensures forall k :: k in d <==> Differs(oldConfig, newConfig, k)
  {
    set k | k in oldConfig.Keys * newConfig.Keys && oldConfig[k] != newConfig[k]
  }

  /** Reference definition of the affected set. */
  function AffectedResources(oldConfig: Config, newConfig: Config, reg: Registry): set<string> {
    set r | r in reg.Keys && exists k | k in reg[r] :: Differs(oldConfig, newConfig, k)
  }

  /** `r` recorded one of `keys`. */
  predicate DependsOnAny(reg: Registry, r: string, keys: set<string>) {
    r in reg && exists k | k in keys :: k in reg[r]
  }

  lemma {:induction false} DependsOnAnyStep(reg: Registry, r: string, keys: set<string>, k: string)
    ensures DependsOnAny(reg, r, keys + {k}) <==> DependsOnAny(reg, r, keys) || r in Dependents(reg, k)
  {
    if DependsOnAny(reg, r, keys + {k}) && !(r in Dependents(reg, k)) {
      var k' :| k' in keys + {k} && k' in reg[r];
      assert k' in keys;
    }
  }

  /** The source's algorithm: nothing when the maps are equal; otherwise,
      for each differing key, add every registry entry whose key collection
      contains it. */
  method CalculateAffectedResources(oldConfig: Config, newConfig: Config, reg: Registry)
    returns (affected: set<string>)
    ensures forall r :: r in affected <==>
      (r in reg && exists k :: k in reg[r] && Differs(oldConfig, newConfig, k))
    ensures affected == AffectedResources(oldConfig, newConfig, reg)
  {
    var differing := DifferingKeys(oldConfig, newConfig);
    affected := {};
    if oldConfig != newConfig {
      if |differing| > 0 {
        var todo := differing;
        ghost var done: set<string> := {};
        while todo != {}
          invariant todo + done == differing && todo !! done
          invariant forall r :: r in affected <==> DependsOnAny(reg, r, done)
          decreases todo
        {
          var k :| k in todo;
          forall r
            ensures DependsOnAny(reg, r, done + {k}) <==> DependsOnAny(reg, r, done) || r in Dependents(reg, k)
          {
            DependsOnAnyStep(reg, r, done, k);
          }
          affected := affected + Dependents(reg, k);
          todo := todo - {k};
          done := done + {k};
        }
      }
    }
    if oldConfig == newConfig || |differing| == 0 {
      assert differing == {};
    }
    assert forall r :: r in affected <==> DependsOnAny(reg, r, differing);
    AffectedIsDependsOnDiffering(oldConfig, newConfig, reg);
  }

  lemma {:induction false} AffectedIsDependsOnDiffering(oldConfig: Config, newConfig: Config, reg: Registry)
    ensures forall r :: r in AffectedResources(oldConfig, newConfig, reg) <==>
      DependsOnAny(reg, r, DifferingKeys(oldConfig, newConfig))
    ensures forall r :: r in AffectedResources(oldConfig, newConfig, reg) <==>
      (r in reg && exists k :: k in reg[r] && Differs(oldConfig, newConfig, k))
  {
    var d := DifferingKeys(oldConfig, newConfig);
    forall r
      ensures r in AffectedResources(oldConfig, newConfig, reg) <==> DependsOnAny(reg, r, d)
    {
      if DependsOnAny(reg, r, d) {
        var k :| k in d && k in reg[r];
        assert Differs(oldConfig, newConfig, k);
      }
      if r in AffectedResources(oldConfig, newConfig, reg) {
        var k :| k in reg[r] && Differs(oldConfig, newConfig, k);
        assert k in d;
      }
    }
  }

  /** Equal snapshots invalidate nothing. */
  lemma EqualConfigsAffectNothing(config: Config, reg: Registry)
    ensures AffectedResources(config, config, reg) == {}
  {
  }

  /** Only keys held by both snapshots can invalidate: when every common key
      keeps its value, additions and removals alone return nothing. */
  lemma {:induction false} AdditionsAndRemovalsAffectNothing(oldConfig: Config, newConfig: Config, reg: Registry)
    requires forall k :: k in oldConfig && k in newConfig ==> oldConfig[k] == newConfig[k]
    ensures AffectedResources(oldConfig, newConfig, reg) == {}
  {
    forall r | r in reg
      ensures r !in AffectedResources(oldConfig, newConfig, reg)
    {
      assert forall k | k in reg[r] :: !Differs(oldConfig, newConfig, k);
    }
  }

  /** The affected set names registered resources only. */
  lemma AffectedAreRegistered(oldConfig: Config, newConfig: Config, reg: Registry)
    ensures AffectedResources(oldConfig, newConfig, reg) <= reg.Keys
  {
  }

  /** Recording more keys for resources can only grow the affected set. */
  lemma {:induction false} MonotoneInRegistry(oldConfig: Config, newConfig: Config, reg: Registry, reg': Registry)
    requires forall r :: KeysOf(reg, r) <= KeysOf(reg', r)
    ensures AffectedResources(oldConfig, newConfig, reg) <= AffectedResources(oldConfig, newConfig, reg')
  {
    forall r | r in AffectedResources(oldConfig, newConfig, reg)
      ensures r in AffectedResources(oldConfig, newConfig, reg')
    {
      var k :| k in reg[r] && Differs(oldConfig, newConfig, k);
      assert k in KeysOf(reg, r);
      assert k in KeysOf(reg', r);
    }
  }

  /** A resource whose recorded keys all keep their values is never affected. */
  lemma {:induction false} UntouchedResourceNotAffected(oldConfig: Config, newConfig: Config, reg: Registry, r: string)
    requires forall k :: k in KeysOf(reg, r) ==> !Differs(oldConfig, newConfig, k)
    ensures r !in AffectedResources(oldConfig, newConfig, reg)
  {
    if r in reg {
      forall k | k in reg[r]
        ensures !Differs(oldConfig, newConfig, k)
      {
        assert k in KeysOf(reg, r);
      }
    }
  }

  /** The example of the invalidation rule: `b` changes from "2" to "9", `c`
      is new; the resource that read `b` is affected, the one that read only
      `c` is not. */
  lemma ChangedKeyExample()
    ensures AffectedResources(map["a" := "1", "b" := "2"],
                              map["a" := "1", "b" := "9", "c" := "3"],
                              map["R" := {"b"}, "S" := {"c"}]) == {"R"}
  {
    var oldConfig := map["a" := "1", "b" := "2"];
    var newConfig := map["a" := "1", "b" := "9", "c" := "3"];
    var reg := map["R" := {"b"}, "S" := {"c"}];
    assert Differs(oldConfig, newConfig, "b");
    assert "R" in AffectedResources(oldConfig, newConfig, reg);
    assert !Differs(oldConfig, newConfig, "c");
  }
}

=== FILE: common.dfy ===
/** Small vocabulary shared by every part of the deployer model: optional
    values, Java's string predicates, and list removal as `java.util.List`
    performs it. */
module Common {

  /** A Java reference that may be null. */
  datatype Option<+T> = None | Some(value: T) {
    function GetOr(default: T): T {
      match this
      case Some(v) => v
      case None => default
    }
  }

  /** `Map.get`: the value for `k`, or null when `k` is absent. */
  function Get<K, V>(m: map<K, V>, k: K): (r: Option<V>)
    ensures r.Some? <==> k in m
    ensures r.Some? ==> r.value == m[k]
  {
    if k in m then Some(m[k]) else None
  }

  /** `String.startsWith`. */
  predicate StartsWith(s: string, prefix: string) {
    |prefix| <= |s| && s[..|prefix|] == prefix
  }

  /** The characters that `.` in a Java regular expression refuses to match
      when neither DOTALL nor UNIX_LINES is set. */
  predicate IsLineTerminator(c: char) {
    c == '\n' || c == '\r' || c == '\U{85}' || c == '\U{2028}' || c == '\U{2029}'
  }

  predicate NoLineTerminator(s: string) {
    forall i :: 0 <= i < |s| ==> !IsLineTerminator(s[i])
  }

  /** `String.trim` treats every character up to and including the space as
      blank. */
  predicate IsBlank(c: char) {
    c <= ' '
  }

  function TrimLeading(s: string): (r: string)
    ensures |r| <= |s|
    ensures r == s[|s| - |r|..]
    ensures |r| > 0 ==> !IsBlank(r[0])
    ensures forall i :: 0 <= i < |s| - |r| ==> IsBlank(s[i])
  {
    if |s| > 0 && IsBlank(s[0]) then TrimLeading(s[1..]) else s
  }

  function TrimTrailing(s: string): (r: string)
    ensures |r| <= |s|
    ensures r == s[..|r|]
    ensures |r| > 0 ==> !IsBlank(r[|r| - 1])
    ensures forall i :: |r| <= i < |s| ==> IsBlank(s[i])
  {
    if |s| > 0 && IsBlank(s[|s| - 1]) then TrimTrailing(s[..|s| - 1]) else s
  }

  /** `String.trim`: drops the blank characters at both ends. */
  function Trim(s: string): string {
    TrimTrailing(TrimLeading(s))
  }

  /** The number of characters `String.trim` keeps is positive exactly when
      the string holds a non-blank character. */
  lemma {:induction false} TrimEmptyIffBlank(s: string)
    ensures |Trim(s)| > 0 <==> exists i :: 0 <= i < |s| && !IsBlank(s[i])
  {
    var l := TrimLeading(s);
    var off := |s| - |l|;
    if |Trim(s)| > 0 {
      assert Trim(s) == l[..|Trim(s)|];
      assert s[off] == l[0];
    }
    if exists i :: 0 <= i < |s| && !IsBlank(s[i]) {
      var i :| 0 <= i < |s| && !IsBlank(s[i]);
      assert off <= i;
      assert l[i - off] == s[i];
    }
  }

  /** Map union is associative: overriding in two steps is overriding once
      with the combined map. */
  lemma MapUnionAssoc<K, V>(a: map<K, V>, b: map<K, V>, c: map<K, V>)
    ensures a + (b + c) == (a + b) + c
  {
  }

  /** `List.remove(Object)`: removes the first occurrence, if there is one. */
  function RemoveFirst<T(==)>(xs: seq<T>, x: T): (r: seq<T>)
    ensures x !in xs ==> r == xs
    ensures |r| == if x in xs then |xs| - 1 else |xs|
  {
    if |xs| == 0 then xs
    else if xs[0] == x then xs[1..]
    else [xs[0]] + RemoveFirst(xs[1..], x)
  }

  /** The element removed is the first occurrence: everything before it
      and everything after it is kept, in order. */
  lemma {:induction false} RemoveFirstSplits<T>(xs: seq<T>, x: T, i: nat)
    requires i < |xs| && xs[i] == x && x !in xs[..i]
    ensures RemoveFirst(xs, x) == xs[..i] + xs[i + 1..]
  {
    if i > 0 {
      assert xs[0] in xs[..i];
      assert xs[1..][..i - 1] == xs[1..i];
      assert x !in xs[1..][..i - 1];
      RemoveFirstSplits(xs[1..], x, i - 1);
      assert xs[..i] == [xs[0]] + xs[1..i];
    }
  }
}

=== FILE: config_files.dfy ===
/** Property files on disk, as both deployers read them: an ordered list of
    file names, of which the missing ones are skipped and, for every key,
    the file that comes last in the list wins. */
module ConfigFiles {
  import opened Common

  type Properties = map<string, string>

  /** A readable property file: its parsed contents and its modification
      time in milliseconds. */
  datatype ConfigFile = ConfigFile(props: Properties, lastModified: int)

  /** The files that exist, by name. */
  type FileSystem = map<string, ConfigFile>

  /** The properties a file contributes; nothing when it does not exist. */
  function PropsOf(fs: FileSystem, f: string): Properties {
    if f in fs then fs[f].props else map[]
  }

  /** File `f` exists and defines `k`. */
  predicate Defines(fs: FileSystem, f: string, k: string) {
    f in fs && k in fs[f].props
  }

  /** Reference definition of the merge: every file in list order, each one
      overriding the keys of those before it. */
  function Merged(fs: FileSystem, files: seq<string>): Properties
    decreases |files|
  {
    if |files| == 0 then map[]
    else Merged(fs, files[..|files| - 1]) + PropsOf(fs, files[|files| - 1])
  }

  /** The merge holds a key exactly when some existing file of the list
      defines it. */
  lemma {:induction false} MergedKeys(fs: FileSystem, files: seq<string>, k: string)
    ensures k in Merged(fs, files) <==> exists i :: 0 <= i < |files| && Defines(fs, files[i], k)
    decreases |files|
  {
    if |files| > 0 {
      var init := files[..|files| - 1];
      MergedKeys(fs, init, k);
      if k in Merged(fs, files) && k !in PropsOf(fs, files[|files| - 1]) {
        var i :| 0 <= i < |init| && Defines(fs, init[i], k);
        assert files[i] == init[i];
      }
      if exists i :: 0 <= i < |files| && Defines(fs, files[i], k) {
        var i :| 0 <= i < |files| && Defines(fs, files[i], k);
        if i < |init| {
          assert init[i] == files[i];
        }
      }
    }
  }

  /** The value of a key is the one of the last file that defines it. */
  lemma {:induction false} MergedLastWins(fs: FileSystem, files: seq<string>, k: string, i: nat)
    requires i < |files| && Defines(fs, files[i], k)
    requires forall j :: i < j < |files| ==> !Defines(fs, files[j], k)
    ensures k in Merged(fs, files) && Merged(fs, files)[k] == fs[files[i]].props[k]
    decreases |files|
  {
    var init := files[..|files| - 1];
    if i < |files| - 1 {
      assert !Defines(fs, files[|files| - 1], k);
      forall j | i < j < |init|
        ensures !Defines(fs, init[j], k)
      {
        assert init[j] == files[j];
      }
      MergedLastWins(fs, init, k, i);
    }
  }

  /** Putting a file in front of a list gives it the lowest precedence. */
  lemma {:induction false} MergedCons(fs: FileSystem, f: string, rest: seq<string>)
    ensures Merged(fs, [f] + rest) == PropsOf(fs, f) + Merged(fs, rest)
    decreases |rest|
  {
    if |rest| == 0 {
      assert [f] + rest == [f];
      assert [f][..0] == [];
    } else {
      var files := [f] + rest;
      var init := rest[..|rest| - 1];
      var last := PropsOf(fs, rest[|rest| - 1]);
      assert files[..|files| - 1] == [f] + init;
      assert files[|files| - 1] == rest[|rest| - 1];
      MergedCons(fs, f, init);
      assert Merged(fs, files) == (PropsOf(fs, f) + Merged(fs, init)) + last;
      MapUnionAssoc(PropsOf(fs, f), Merged(fs, init), last);
    }
  }
}

=== FILE: deployer.dfy ===
/** The `ResourceDeployer` of `jpos-deployer-core`: it renders every
    class-path resource under the prefix folder into the output directory.
    A filtered resource goes through the `${K}` stage, the `@@K@@` stage and
    the template engine. The deployer records the mutable keys each render
    consumed, so that a configuration change re-renders only the resources
    that read a changed key. */
module Deployer {
  import opened Common
  import opened Markers
  import opened DependencyRegistry
  import opened PropertyResolverSpi
  import opened Resources
  import opened Resolvers

  /** What the deployer reads and cannot change: the class-path resources
      by name with their contents, the entries listed under the prefix
      folder, the path matcher, the template engine, and the resolver's
      host. */
  datatype Platform = Platform(
    catalog: map<string, string>,
    entries: seq<string>,
    paths: PathMatcher,
    engine: TemplateEngine,
    host: Host)

  /** The deployer's state: the exclusion patterns, the dependency
      registry, the output directory by file name, and the resolver. */
  datatype Deployer = Deployer(
    exclusions: seq<string>,
    registry: Registry,
    output: map<string, string>,
    resolver: Resolver)

  /** The state after an operation, with the exception that ended it, if any. */
  datatype Outcome = Outcome(deployer: Deployer, error: Option<Error>)

  /** A new deployer over `resolver`: no exclusions until some are set
      and nothing recorded; `output` is what the output directory already
      holds, which the constructor leaves as it is. */
  function NewDeployer(resolver: Resolver, output: map<string, string>): (d: Deployer)
    ensures d.exclusions == [] && d.registry == map[] && d.output == output && d.resolver == resolver
  {
    Deployer([], map[], output, resolver)
  }

  // ---------------------------------------------------------------------
  // Exclusion list

  /** `setupDefaultExclusions`. */
  const DefaultExclusions := ["cfg/*.ks", "cfg/*.jks", "**/*.jpg", "**/*.gif", "**/*.png", "**/*.pdf"]

  function SetupDefaultExclusions(d: Deployer): (d': Deployer)
    ensures d'.exclusions == DefaultExclusions
    ensures d'.registry == d.registry && d'.output == d.output && d'.resolver == d.resolver
  {
    d.(exclusions := DefaultExclusions)
  }

  /** `addFilterExclusion`: a string the matcher does not accept as a
      pattern is refused and the list is left as it was. */
  function AddFilterExclusion(d: Deployer, pm: PathMatcher, pattern: string): (o: Outcome)
    ensures pm.isPattern(pattern) ==> o == Outcome(d.(exclusions := d.exclusions + [pattern]), None)
    ensures !pm.isPattern(pattern) ==> o == Outcome(d, Some(InvalidPattern(pattern)))
  {
    if !pm.isPattern(pattern) then Outcome(d, Some(InvalidPattern(pattern)))
    else Outcome(d.(exclusions := d.exclusions + [pattern]), None)
  }

  /** `removeFilterExclusion`: the first occurrence goes. */
  function RemoveFilterExclusion(d: Deployer, pattern: string): (d': Deployer)
    ensures pattern !in d.exclusions ==> d' == d
    ensures |d'.exclusions| == if pattern in d.exclusions then |d.exclusions| - 1 else |d.exclusions|
    ensures d'.registry == d.registry && d'.output == d.output && d'.resolver == d.resolver
  {
    d.(exclusions := RemoveFirst(d.exclusions, pattern))
  }

  /** Adding a pattern and removing it again restores the list, when the
      pattern was not in it before. */
  lemma {:induction false} AddThenRemove(d: Deployer, pm: PathMatcher, pattern: string)
    requires pm.isPattern(pattern) && pattern !in d.exclusions
    ensures RemoveFilterExclusion(AddFilterExclusion(d, pm, pattern).deployer, pattern) == d
  {
    var ex := d.exclusions + [pattern];
    assert ex[|d.exclusions|] == pattern;
    assert ex[..|d.exclusions|] == d.exclusions;
    RemoveFirstSplits(ex, pattern, |d.exclusions|);
    assert ex[|d.exclusions| + 1..] == [];
  }

  /** `setFilterExclusions`: the list is cleared and each pattern added in
      turn; the first invalid one throws, leaving the patterns before it. */
  method SetFilterExclusions(d: Deployer, pm: PathMatcher, patterns: seq<string>) returns (o: Outcome)
    ensures o.deployer.registry == d.registry && o.deployer.output == d.output && o.deployer.resolver == d.resolver
    ensures o.error.None? <==> forall i :: 0 <= i < |patterns| ==> pm.isPattern(patterns[i])
    ensures o.error.None? ==> o.deployer.exclusions == patterns
    ensures o.error.Some? ==>
      exists i :: (0 <= i < |patterns| && !pm.isPattern(patterns[i])
        && (forall j :: 0 <= j < i ==> pm.isPattern(patterns[j]))
        && o.deployer.exclusions == patterns[..i] && o.error == Some(InvalidPattern(patterns[i])))
  {
    var cur := d.(exclusions := []);
    var i := 0;
    while i < |patterns|
      invariant 0 <= i <= |patterns|
      invariant cur == d.(exclusions := patterns[..i])
      invariant forall j :: 0 <= j < i ==> pm.isPattern(patterns[j])
      decreases |patterns| - i
    {
      var step := AddFilterExclusion(cur, pm, patterns[i]);
      if step.error.Some? {
        return step;
      }
      assert patterns[..i + 1] == patterns[..i] + [patterns[i]];
      cur := step.deployer;
      i := i + 1;
    }
    assert patterns[..i] == patterns;
    o := Outcome(cur, None);
  }

  // ---------------------------------------------------------------------
  // Rendering and the registry

  /** What a render sees of the resolver: `getConfigProperty` and
      `isMutable`. */
  datatype View = View(lookup: string -> Option<string>, mutable: string -> bool)

  function ViewOf(r: Resolver, h: Host): (v: View)
    ensures forall k :: v.lookup(k) == GetProperty(r, h, k)
    ensures forall k :: v.mutable(k) == IsMutable(r, h, k)
  {
    View((k: string) => GetProperty(r, h, k), (k: string) => IsMutable(r, h, k))
  }

  /** `registerResourceKeys`: only keys the resolver calls mutable are
      kept. */
  function MutableOnly(v: View, keys: set<string>): (ks: set<string>)
    ensures forall k :: k in ks <==> k in keys && v.mutable(k)
  {
    set k | k in keys && v.mutable(k)
  }

  function RegisterResourceKeys(reg: Registry, v: View, r: string, keys: set<string>): (reg': Registry)
    ensures KeysOf(reg', r) == KeysOf(reg, r) + MutableOnly(v, keys)
    ensures forall o :: o != r ==> KeysOf(reg', o) == KeysOf(reg, o)
    ensures Wf(reg) ==> Wf(reg')
  {
    PutAll(reg, r, MutableOnly(v, keys))
  }

  /** What a filtered render produces: the text written to the output
      file, every key it consumed (before the mutability filter), and the
      exception that escapes, if any. */
  datatype Rendering = Rendering(text: string, consumed: set<string>, error: Option<Error>)

  /** The filtered render of resource `r`: the `${K}` stage, the `@@K@@`
      stage, then the template engine. Each stage consumes the keys it
      resolved; a template that renders consumes the keys it read and its
      text is written; one that fails while processing is logged, and the
      stage-2 text is written; one that does not parse throws, and the
      file, truncated when it was opened, stays empty. */
  function RenderFiltered(p: Platform, v: View, r: string): (res: Rendering)
    requires r in p.catalog
    ensures var st := Stages(p.catalog[r], v.lookup);
      var t := p.engine(r, st.1.text, v.lookup);
      && (res.error.Some? <==> t.ParseFailed?)
      && (res.error.Some? ==> res.error == Some(UnreadableTemplate(r)) && res.text == [])
      && (t.Rendered? ==> res.text == t.text)
      && (t.ProcessingFailed? ==> res.text == st.1.text)
      && (forall k :: k in res.consumed <==> k in st.0.keys || k in st.1.keys || (t.Rendered? && k in t.keys))
      && (forall k :: k in res.consumed ==> v.lookup(k).Some? || (t.Rendered? && k in t.keys))
  {
    var st := Stages(p.catalog[r], v.lookup);
    var stageKeys := st.0.keys + st.1.keys;
    assert forall k :: k in stageKeys ==> v.lookup(k).Some? by {
      forall k | k in stageKeys ensures v.lookup(k).Some? {
        if k in st.0.keys {
          StageKeysResolve(Brace, p.catalog[r], v.lookup, k);
        } else {
          StageKeysResolve(AtSign, st.0.text, v.lookup, k);
        }
      }
    }
    match p.engine(r, st.1.text, v.lookup)
    case Rendered(text, keys) => Rendering(text, stageKeys + keys, None)
    case ProcessingFailed => Rendering(st.1.text, stageKeys, None)
    case ParseFailed => Rendering([], stageKeys, Some(UnreadableTemplate(r)))
  }

  /** Reference definition of the keys an install of `r` records: none
      unless the resource exists, has a file name and is filtered;
      otherwise the mutable keys its render consumed. */
  function RecordedKeys(p: Platform, v: View, r: string, filtered: bool): set<string> {
    if r !in p.catalog || |r| < 20 || !filtered then {}
    else MutableOnly(v, RenderFiltered(p, v, r).consumed)
  }

  /** A filtered install records a key exactly when the resolver calls it
      mutable and either a stage captured it and found a value for it, or
      the template read it. */
  lemma RecordedKeysIff(p: Platform, v: View, r: string, k: string)
    requires r in p.catalog && |r| >= 20
    ensures var doc := p.catalog[r];
      var text1 := Filter(Brace, doc, v.lookup).text;
      var t := p.engine(r, Filter(AtSign, text1, v.lookup).text, v.lookup);
      k in RecordedKeys(p, v, r, true) <==>
        && v.mutable(k)
        && (|| (Ref(k) in Tokenize(Brace, doc, 0) && v.lookup(k).Some?)
            || (Ref(k) in Tokenize(AtSign, text1, 0) && v.lookup(k).Some?)
            || (t.Rendered? && k in t.keys))
  {
    var doc := p.catalog[r];
    FilterKeysIff(Brace, doc, v.lookup, k);
    FilterKeysIff(AtSign, Filter(Brace, doc, v.lookup).text, v.lookup, k);
  }

  /** The contents an install writes for a resource of the catalog: the
      resource itself, or its filtered render. */
  function Content(p: Platform, v: View, r: string, filtered: bool): string {
    if r !in p.catalog then []
    else if filtered then RenderFiltered(p, v, r).text
    else p.catalog[r]
  }

  /** What `installResource(resource, filtered)` does to the registry: the
      entry of `r` is cleared first, whatever happens next; what it holds
      afterwards is `RecordedKeys`, whatever it held before, and no other
      entry changes. The three registrations of a filtered render (one per
      stage, one for the template) are one union here. */
  function RecordInstall(reg: Registry, p: Platform, v: View, r: string, filtered: bool): (reg': Registry)
    ensures forall x :: x != r ==> KeysOf(reg', x) == KeysOf(reg, x)
    ensures KeysOf(reg', r) == RecordedKeys(p, v, r, filtered)
    ensures Wf(reg) ==> Wf(reg')
  {
    var cleared := RemoveAll(reg, r);
    if r in p.catalog && |r| >= 20 && filtered
    then RegisterResourceKeys(cleared, v, r, RenderFiltered(p, v, r).consumed)
    else cleared
  }

  /** `installResource(resource, filtered)`: a missing resource or a name
      too short for a file name throws; a non-filtered resource is copied
      as it is; a filtered one is written as rendered. */
  function InstallResourceAs(d: Deployer, p: Platform, v: View, r: string, filtered: bool): (o: Outcome)
    ensures o.deployer == d.(registry := RecordInstall(d.registry, p, v, r, filtered), output := o.deployer.output)
    ensures r !in p.catalog ==> o.error == Some(MissingResource(r)) && o.deployer.output == d.output
    ensures r in p.catalog && |r| < 20 ==> o.error == Some(BadResourceName(r)) && o.deployer.output == d.output
    ensures r in p.catalog && |r| >= 20 && !filtered ==>
      o.error.None? && o.deployer.output == d.output[r[20..] := p.catalog[r]]
    ensures r in p.catalog && |r| >= 20 && filtered ==>
      var res := RenderFiltered(p, v, r);
      o.error == res.error && o.deployer.output == d.output[r[20..] := res.text]
  {
    var reg := RecordInstall(d.registry, p, v, r, filtered);
    if r !in p.catalog then Outcome(d.(registry := reg), Some(MissingResource(r)))
    else match ResourceToFilename(r)
      case None => Outcome(d.(registry := reg), Some(BadResourceName(r)))
      case Some(f) =>
        assert f == r[20..];
        if !filtered then Outcome(d.(registry := reg, output := d.output[f := p.catalog[r]]), None)
        else
          var res := RenderFiltered(p, v, r);
          Outcome(d.(registry := reg, output := d.output[f := res.text]), res.error)
  }

  /** Installing a resource twice in a row records what installing it once
      does. */
  lemma InstallTwice(reg: Registry, p: Platform, v: View, r: string, filtered: bool)
    requires Wf(reg)
    ensures var once := RecordInstall(reg, p, v, r, filtered);
      RecordInstall(once, p, v, r, filtered) == once
  {
    var once := RecordInstall(reg, p, v, r, filtered);
    Extensionality(RecordInstall(once, p, v, r, filtered), once);
  }

  // ---------------------------------------------------------------------
  // Installing

  /** `init`. */
  method Init(d: Deployer, p: Platform) returns (d': Deployer)
    ensures d' == d.(resolver := Initialized(d.resolver, p.host))
  {
    var r := Initialize(d.resolver, p.host);
    d' := d.(resolver := r);
  }

  /** The registry after recording the installs of `entries[..i]`, in
      order, over `reg`, each filtered exactly when it is in `filtered`. */
  ghost function RecordAll(reg: Registry, p: Platform, v: View, entries: seq<string>, filtered: seq<string>, i: nat): Registry
    requires i <= |entries|
  {
    if i == 0 then reg
    else RecordInstall(RecordAll(reg, p, v, entries, filtered, i - 1), p, v, entries[i - 1], entries[i - 1] in filtered)
  }

  /** Recording the installs in order over an empty registry leaves each
      installed resource with what its install records, and nothing for
      the others: a resource listed twice is recorded once, not twice. */
  lemma {:induction false} RecordAllAt(p: Platform, v: View, entries: seq<string>, filtered: seq<string>, i: nat, x: string)
    requires i <= |entries|
    ensures KeysOf(RecordAll(map[], p, v, entries, filtered, i), x) ==
      if x in entries[..i] then RecordedKeys(p, v, x, x in filtered) else {}
  {
    if i > 0 {
      RecordAllAt(p, v, entries, filtered, i - 1, x);
      assert entries[..i] == entries[..i - 1] + [entries[i - 1]];
    }
  }

  /** The entry `entries[i]` is the last of the list to write its file. */
  predicate LastWriter(entries: seq<string>, i: nat)
    requires i < |entries|
  {
    forall k :: i < k < |entries| ==> ResourceToFilename(entries[k]) != ResourceToFilename(entries[i])
  }

  /** The output directory after writing the installs of `entries[..i]`,
      in order, over `out`. */
  ghost function WriteAll(out: map<string, string>, p: Platform, v: View, entries: seq<string>, filtered: seq<string>, i: nat): map<string, string>
    requires i <= |entries|
  {
    if i == 0 then out
    else
      var prev := WriteAll(out, p, v, entries, filtered, i - 1);
      match ResourceToFilename(entries[i - 1])
      case None => prev
      case Some(f) => prev[f := Content(p, v, entries[i - 1], entries[i - 1] in filtered)]
  }

  /** Writing the installs in order leaves a file no entry names as it was. */
  lemma {:induction false} WriteAllFrame(out: map<string, string>, p: Platform, v: View, entries: seq<string>,
                                         filtered: seq<string>, i: nat, f: string)
    requires i <= |entries|
    requires forall j :: 0 <= j < i ==> ResourceToFilename(entries[j]) != Some(f)
    ensures Get(WriteAll(out, p, v, entries, filtered, i), f) == Get(out, f)
  {
    if i > 0 {
      WriteAllFrame(out, p, v, entries, filtered, i - 1, f);
    }
  }

  /** ... and a file some entry names holds the contents of the last one. */
  lemma {:induction false} WriteAllLast(out: map<string, string>, p: Platform, v: View, entries: seq<string>,
                                        filtered: seq<string>, i: nat, j: nat, f: string)
    requires j < i <= |entries|
    requires ResourceToFilename(entries[j]) == Some(f)
    requires forall k :: j < k < i ==> ResourceToFilename(entries[k]) != Some(f)
    ensures Get(WriteAll(out, p, v, entries, filtered, i), f) == Some(Content(p, v, entries[j], entries[j] in filtered))
  {
    if i - 1 != j {
      WriteAllLast(out, p, v, entries, filtered, i - 1, j, f);
    }
  }

  /** The output after writing every entry: files no entry names are kept,
      and each file holds the contents of the last entry that names it. */
  lemma WriteAllSpec(out: map<string, string>, p: Platform, v: View, entries: seq<string>, filtered: seq<string>)
    requires forall i :: 0 <= i < |entries| ==> |entries[i]| >= 20
    ensures forall f :: (forall i :: 0 <= i < |entries| ==> ResourceToFilename(entries[i]) != Some(f)) ==>
      Get(WriteAll(out, p, v, entries, filtered, |entries|), f) == Get(out, f)
    ensures forall i :: 0 <= i < |entries| && LastWriter(entries, i) ==>
      Get(WriteAll(out, p, v, entries, filtered, |entries|), entries[i][20..]) == Some(Content(p, v, entries[i], entries[i] in filtered))
  {
    forall f | forall i :: 0 <= i < |entries| ==> ResourceToFilename(entries[i]) != Some(f)
      ensures Get(WriteAll(out, p, v, entries, filtered, |entries|), f) == Get(out, f)
    {
      WriteAllFrame(out, p, v, entries, filtered, |entries|, f);
    }
    forall i | 0 <= i < |entries| && LastWriter(entries, i)
      ensures Get(WriteAll(out, p, v, entries, filtered, |entries|), entries[i][20..]) == Some(Content(p, v, entries[i], entries[i] in filtered))
    {
      assert ResourceToFilename(entries[i]) == Some(entries[i][20..]);
      WriteAllLast(out, p, v, entries, filtered, |entries|, i, entries[i][20..]);
    }
  }

  /** The one file an install writes, with what it writes. */
  lemma InstallWrites(d: Deployer, p: Platform, v: View, r: string, filtered: bool)
    ensures var o := InstallResourceAs(d, p, v, r, filtered);
      && (o.error.None? ==> r in p.catalog && |r| >= 20)
      && o.deployer.output == if r in p.catalog && |r| >= 20 then d.output[r[20..] := Content(p, v, r, filtered)] else d.output
  {
  }

  /** `installResource(resource, filtered)`, seen only through what it
      records and the one file it writes. */
  method InstallOne(cur: Deployer, p: Platform, v: View, r: string, filtered: bool) returns (step: Outcome)
    ensures step.deployer.resolver == cur.resolver && step.deployer.exclusions == cur.exclusions
    ensures step.deployer.registry == RecordInstall(cur.registry, p, v, r, filtered)
    ensures step.error.None? ==> r in p.catalog && |r| >= 20
    ensures step.deployer.output ==
      if r in p.catalog && |r| >= 20 then cur.output[r[20..] := Content(p, v, r, filtered)] else cur.output
  {
    step := InstallResourceAs(cur, p, v, r, filtered);
    InstallWrites(cur, p, v, r, filtered);
  }

  /** `installRuntimeResources`' loop: every entry installed in order,
      filtered when it is in `filtered`, until one throws. When none does,
      the registry is what recording each install in turn gives. */
  method InstallAll(d: Deployer, p: Platform, v: View, entries: seq<string>, filtered: seq<string>)
    returns (o: Outcome)
    ensures o.deployer.resolver == d.resolver && o.deployer.exclusions == d.exclusions
    ensures Wf(d.registry) ==> Wf(o.deployer.registry)
    ensures o.error.None? ==> o.deployer.registry == RecordAll(d.registry, p, v, entries, filtered, |entries|)
    ensures o.error.None? ==> forall i :: 0 <= i < |entries| ==> entries[i] in p.catalog && |entries[i]| >= 20
    ensures o.error.None? ==> o.deployer.output == WriteAll(d.output, p, v, entries, filtered, |entries|)
  {
    var cur := d;
    var i := 0;
    while i < |entries|
      invariant 0 <= i <= |entries|
      invariant cur.resolver == d.resolver && cur.exclusions == d.exclusions
      invariant Wf(d.registry) ==> Wf(cur.registry)
      invariant cur.registry == RecordAll(d.registry, p, v, entries, filtered, i)
      invariant forall j :: 0 <= j < i ==> entries[j] in p.catalog && |entries[j]| >= 20
      invariant cur.output == WriteAll(d.output, p, v, entries, filtered, i)
      decreases |entries| - i
    {
      var step := InstallOne(cur, p, v, entries[i], entries[i] in filtered);
      if step.error.Some? {
        return step;
      }
      assert ResourceToFilename(entries[i]) == Some(entries[i][20..]);
      cur := step.deployer;
      i := i + 1;
    }
    o := Outcome(cur, None);
  }

  /** `installRuntimeResources`: the resolver is initialised, the whole
      registry cleared, every entry classified, and then every entry
      installed in order; the first exception stops the run. When it
      completes, each entry holds what its install records, seen through
      the initialised resolver, and nothing else holds any key. */
  method InstallRuntimeResources(d: Deployer, p: Platform) returns (o: Outcome)
    ensures o.deployer.exclusions == d.exclusions
    ensures o.deployer.resolver == Initialized(d.resolver, p.host)
    ensures o.error.None? ==>
      && (forall i :: 0 <= i < |p.entries| ==> IsResourceFilterable(p.paths, d.exclusions, p.entries[i]).Some?)
      && forall x :: KeysOf(o.deployer.registry, x) ==
           if x in p.entries
           then RecordedKeys(p, ViewOf(Initialized(d.resolver, p.host), p.host), x, IsResourceFilterable(p.paths, d.exclusions, x) == Some(true))
           else {}
    ensures o.error.None? ==> forall i :: 0 <= i < |p.entries| ==> p.entries[i] in p.catalog && |p.entries[i]| >= 20
    ensures o.error.None? ==> forall f ::
      (forall i :: 0 <= i < |p.entries| ==> ResourceToFilename(p.entries[i]) != Some(f)) ==> Get(o.deployer.output, f) == Get(d.output, f)
    ensures o.error.None? ==> forall i :: 0 <= i < |p.entries| && LastWriter(p.entries, i) ==>
      Get(o.deployer.output, p.entries[i][20..]) ==
        Some(Content(p, ViewOf(Initialized(d.resolver, p.host), p.host), p.entries[i],
                     IsResourceFilterable(p.paths, d.exclusions, p.entries[i]) == Some(true)))
    ensures Wf(o.deployer.registry)
  {
    var init := Init(d, p);
    init := init.(registry := map[]);
    var filtered, error := ClassifyAll(p.paths, init.exclusions, p.entries);
    if error.Some? {
      return Outcome(init, error);
    }
    var v := ViewOf(init.resolver, p.host);
    o := InstallAll(init, p, v, p.entries, filtered);
    if o.error.None? {
      assert p.entries[..|p.entries|] == p.entries;
      forall x
        ensures KeysOf(o.deployer.registry, x) == if x in p.entries then RecordedKeys(p, v, x, x in filtered) else {}
      {
        RecordAllAt(p, v, p.entries, filtered, |p.entries|, x);
      }
      WriteAllSpec(d.output, p, v, p.entries, filtered);
    }
  }

  /** `installResource(resource)` as written: like a full install it
      clears the whole registry, so every other resource loses its
      recorded keys. */
  method InstallResourceAsWritten(d: Deployer, p: Platform, r: string) returns (o: Outcome)
    ensures forall x :: x != r ==> KeysOf(o.deployer.registry, x) == {}
  {
    var d' := Init(d, p);
    d' := d'.(registry := map[]);
    var b := IsResourceFilterable(p.paths, d'.exclusions, r);
    if b.None? {
      return Outcome(d', Some(BadResourceName(r)));
    }
    o := InstallResourceAs(d', p, ViewOf(d'.resolver, p.host), r, b.value);
  }

  /** A resource that recorded a key is forgotten by a single install of
      another resource, so a later change of that key no longer reaches
      it. */
  lemma SingleInstallLosesDependents(d: Deployer, p: Platform, other: string, r: string, k: string,
                                     oldConfig: Config, newConfig: Config, reg': Registry)
    requires other != r && k in KeysOf(d.registry, other) && Differs(oldConfig, newConfig, k)
    requires forall x :: x != r ==> KeysOf(reg', x) == {}
    ensures other in AffectedResources(oldConfig, newConfig, d.registry)
    ensures other !in AffectedResources(oldConfig, newConfig, reg')
  {
    assert KeysOf(reg', other) == {};
  }

  /** `installResource(resource)` as evidently intended: only the entry of
      the resource being installed changes, and it records what an install
      of that resource records. */
  method InstallResource(d: Deployer, p: Platform, r: string) returns (o: Outcome)
    ensures forall x :: x != r ==> KeysOf(o.deployer.registry, x) == KeysOf(d.registry, x)
    ensures o.error.None? ==>
      KeysOf(o.deployer.registry, r) ==
        RecordedKeys(p, ViewOf(Initialized(d.resolver, p.host), p.host), r, IsResourceFilterable(p.paths, d.exclusions, r) == Some(true))
    ensures Wf(d.registry) ==> Wf(o.deployer.registry)
    ensures o.deployer.exclusions == d.exclusions
    ensures o.deployer.resolver == Initialized(d.resolver, p.host)
    ensures o.error.None? ==> r in p.catalog && |r| >= 20
    ensures o.deployer.output ==
      if r in p.catalog && |r| >= 20 && IsResourceFilterable(p.paths, d.exclusions, r).Some?
      then d.output[r[20..] := Content(p, ViewOf(Initialized(d.resolver, p.host), p.host), r,
                                       IsResourceFilterable(p.paths, d.exclusions, r) == Some(true))]
      else d.output
  {
    var d' := Init(d, p);
    var b := IsResourceFilterable(p.paths, d'.exclusions, r);
    if b.None? {
      return Outcome(d', Some(BadResourceName(r)));
    }
    o := InstallResourceAs(d', p, ViewOf(d'.resolver, p.host), r, b.value);
  }

  /** `uninstallResource`: the output file goes if it exists. The name is
      computed first, so a short name throws. */
  function UninstallResource(d: Deployer, r: string): (o: Outcome)
    ensures |r| < 20 ==> o == Outcome(d, Some(BadResourceName(r)))
    ensures |r| >= 20 ==> o.error.None? && r[20..] !in o.deployer.output
    ensures |r| >= 20 ==> forall f :: f != r[20..] && f in d.output ==> f in o.deployer.output && o.deployer.output[f] == d.output[f]
    ensures o.deployer.registry == d.registry
  {
    match ResourceToFilename(r)
    case None => Outcome(d, Some(BadResourceName(r)))
    case Some(f) => Outcome(d.(output := d.output - {f}), None)
  }

  /** Uninstalling twice is uninstalling once. */
  lemma UninstallIdempotent(d: Deployer, r: string)
    requires |r| >= 20
    ensures UninstallResource(UninstallResource(d, r).deployer, r) == UninstallResource(d, r)
  {
  }

  // ---------------------------------------------------------------------
  // Watching the configuration

  /** The tracked sources that exist when the watch starts: the files an
      event must name to trigger a rescan. */
  function WatchedFiles(d: Deployer, p: Platform): (w: set<string>)
    ensures forall f :: f in w <==> f in TrackedSources(d.resolver, p.host) && f in p.host.fs
  {
    set f | f in TrackedSources(d.resolver, p.host) && f in p.host.fs
  }

  /** The watch `run` starts, as written: `new File(f).getParentFile()` is
      null for a name with no directory part, so an existing tracked name
      like that throws before any directory is registered. The catch
      sleeps and the loop starts over with the same tracked sources, so
      the watch never starts and no event is ever handled. */
  function StartWatchAsWritten(d: Deployer, p: Platform): (w: Option<set<string>>)
    ensures w.None? <==> exists f :: f in TrackedSources(d.resolver, p.host) && f in p.host.fs && '/' !in f
    ensures w.Some? ==> w.value == WatchedFiles(d, p)
  {
    if exists f :: f in TrackedSources(d.resolver, p.host) && f in p.host.fs && '/' !in f
    then None
    else Some(WatchedFiles(d, p))
  }

  /** A file resolver listing `app.properties`, which exists: as written
      the watch never starts, while the corrected watch covers the file. */
  lemma BareConfigNameStopsWatch(d: Deployer, p: Platform)
    requires d.resolver.FromFiles? && d.resolver.simple.configFiles == ["app.properties"]
    requires "app.properties" in p.host.fs
    ensures StartWatchAsWritten(d, p).None?
    ensures WatchedFiles(d, p) == {"app.properties"}
  {
    assert "app.properties" in TrackedSources(d.resolver, p.host);
    assert '/' !in "app.properties";
  }

  /** The registry after recording, in order, a filtered install of each
      resource of `done` over `reg`. */
  ghost function RecordEach(reg: Registry, p: Platform, v: View, done: seq<string>): Registry
    decreases |done|
  {
    if done == [] then reg
    else RecordInstall(RecordEach(reg, p, v, done[..|done| - 1]), p, v, done[|done| - 1], true)
  }

  /** The output after writing, in order, a filtered install of each
      resource of `done` over `out`. */
  ghost function WriteEach(out: map<string, string>, p: Platform, v: View, done: seq<string>): map<string, string>
    decreases |done|
  {
    if done == [] then out
    else
      var prev := WriteEach(out, p, v, done[..|done| - 1]);
      match ResourceToFilename(done[|done| - 1])
      case None => prev
      case Some(f) => prev[f := Content(p, v, done[|done| - 1], true)]
  }

  lemma RecordEachSnoc(reg: Registry, p: Platform, v: View, done: seq<string>, r: string)
    ensures RecordEach(reg, p, v, done + [r]) == RecordInstall(RecordEach(reg, p, v, done), p, v, r, true)
  {
    assert (done + [r])[..|done|] == done;
  }

  lemma WriteEachSnoc(out: map<string, string>, p: Platform, v: View, done: seq<string>, r: string)
    requires |r| >= 20
    ensures WriteEach(out, p, v, done + [r]) == WriteEach(out, p, v, done)[r[20..] := Content(p, v, r, true)]
  {
    assert (done + [r])[..|done|] == done;
    assert ResourceToFilename(r) == Some(r[20..]);
  }

  /** Recording the filtered installs leaves each installed resource with
      what its filtered install records, and every other as it was. */
  lemma {:induction false} RecordEachAt(reg: Registry, p: Platform, v: View, done: seq<string>, x: string)
    ensures KeysOf(RecordEach(reg, p, v, done), x) == if x in done then RecordedKeys(p, v, x, true) else KeysOf(reg, x)
    decreases |done|
  {
    if done != [] {
      var prefix := done[..|done| - 1];
      RecordEachAt(reg, p, v, prefix, x);
      assert done == prefix + [done[|done| - 1]];
    }
  }

  /** Writing the filtered installs keeps every file none of them names. */
  lemma {:induction false} WriteEachFrame(out: map<string, string>, p: Platform, v: View, done: seq<string>, f: string)
    requires forall x :: x in done ==> ResourceToFilename(x) != Some(f)
    ensures Get(WriteEach(out, p, v, done), f) == Get(out, f)
    decreases |done|
  {
    if done != [] {
      var prefix := done[..|done| - 1];
      assert forall x :: x in prefix ==> x in done;
      WriteEachFrame(out, p, v, prefix, f);
      assert ResourceToFilename(done[|done| - 1]) != Some(f);
    }
  }

  /** ... and leaves the file of each one with the filtered contents of a
      resource of `done` with that file name: the last one written. */
  lemma {:induction false} WriteEachWitness(out: map<string, string>, p: Platform, v: View, done: seq<string>, x: string)
    requires x in done && |x| >= 20
    ensures exists y :: (y in done && ResourceToFilename(y) == ResourceToFilename(x)
                         && Get(WriteEach(out, p, v, done), x[20..]) == Some(Content(p, v, y, true)))
    decreases |done|
  {
    var prefix := done[..|done| - 1];
    var last := done[|done| - 1];
    assert done == prefix + [last];
    if |last| >= 20 && last[20..] == x[20..] {
      assert ResourceToFilename(last) == Some(last[20..]) && ResourceToFilename(x) == Some(x[20..]);
      assert Get(WriteEach(out, p, v, done), x[20..]) == Some(Content(p, v, last, true));
    } else {
      assert x in prefix;
      WriteEachWitness(out, p, v, prefix, x);
      var y :| y in prefix && ResourceToFilename(y) == ResourceToFilename(x)
               && Get(WriteEach(out, p, v, prefix), x[20..]) == Some(Content(p, v, y, true));
      assert ResourceToFilename(last) != Some(x[20..]);
      assert Get(WriteEach(out, p, v, done), x[20..]) == Get(WriteEach(out, p, v, prefix), x[20..]);
      assert y in done;
    }
  }


  /** Re-installing `done` and then trying `r`, all of them affected, keeps
      every registry entry and every file no affected resource names. */
  lemma ReinstallFrame(d: Deployer, p: Platform, v: View, affected: set<string>, done: seq<string>, r: string, o: Outcome)
    requires forall x :: x in done ==> x in affected
    requires r in affected
    requires o.deployer.registry == RecordInstall(RecordEach(d.registry, p, v, done), p, v, r, true)
    requires o.deployer.output == WriteEach(d.output, p, v, done)
      || (|r| >= 20 && o.deployer.output == WriteEach(d.output, p, v, done)[r[20..] := Content(p, v, r, true)])
    ensures forall x :: x !in affected ==> KeysOf(o.deployer.registry, x) == KeysOf(d.registry, x)
    ensures forall f :: (forall x :: x in affected ==> ResourceToFilename(x) != Some(f)) ==>
      Get(o.deployer.output, f) == Get(d.output, f)
  {
    forall x | x !in affected
      ensures KeysOf(o.deployer.registry, x) == KeysOf(d.registry, x)
    {
      RecordEachAt(d.registry, p, v, done, x);
    }
    forall f | forall x :: x in affected ==> ResourceToFilename(x) != Some(f)
      ensures Get(o.deployer.output, f) == Get(d.output, f)
    {
      WriteEachFrame(d.output, p, v, done, f);
      assert ResourceToFilename(r) != Some(f);
    }
  }

  /** Re-installing every affected resource, in the order `done`, gives
      `Reinstall`'s promises. */
  lemma ReinstallDone(d: Deployer, p: Platform, v: View, affected: set<string>, done: seq<string>, o: Outcome)
    requires forall x :: x in done ==> x in affected
    requires forall x :: x in affected ==> x in done
    requires forall x :: x in done ==> x in p.catalog && |x| >= 20
    requires o.deployer.registry == RecordEach(d.registry, p, v, done)
    requires o.deployer.output == WriteEach(d.output, p, v, done)
    ensures forall x :: KeysOf(o.deployer.registry, x) == if x in affected then RecordedKeys(p, v, x, true) else KeysOf(d.registry, x)
    ensures forall f :: (forall x :: x in affected ==> ResourceToFilename(x) != Some(f)) ==>
      Get(o.deployer.output, f) == Get(d.output, f)
    ensures forall x :: x in affected ==>
      exists y :: (y in affected && ResourceToFilename(y) == ResourceToFilename(x)
                   && Get(o.deployer.output, x[20..]) == Some(Content(p, v, y, true)))
  {
    forall x
      ensures KeysOf(o.deployer.registry, x) == if x in affected then RecordedKeys(p, v, x, true) else KeysOf(d.registry, x)
    {
      RecordEachAt(d.registry, p, v, done, x);
    }
    forall f | forall x :: x in affected ==> ResourceToFilename(x) != Some(f)
      ensures Get(o.deployer.output, f) == Get(d.output, f)
    {
      WriteEachFrame(d.output, p, v, done, f);
    }
    forall x | x in affected
      ensures exists y :: (y in affected && ResourceToFilename(y) == ResourceToFilename(x)
                           && Get(o.deployer.output, x[20..]) == Some(Content(p, v, y, true)))
    {
      WriteEachWitness(d.output, p, v, done, x);
    }
  }

  /** `Reinstall`'s loop, with the ghost order `done` in which the
      resources were re-installed and, when one throws, the ghost `failed`
      that did. */
  method ReinstallLoop(d: Deployer, p: Platform, v: View, affected: set<string>)
    returns (o: Outcome, ghost done: seq<string>, ghost failed: string)
    requires Wf(d.registry)
    ensures Wf(o.deployer.registry)
    ensures o.deployer.resolver == d.resolver && o.deployer.exclusions == d.exclusions
    ensures forall x :: x in done ==> x in affected && x in p.catalog && |x| >= 20
    ensures o.error.None? ==>
      && (forall x :: x in affected ==> x in done)
      && o.deployer.registry == RecordEach(d.registry, p, v, done)
      && o.deployer.output == WriteEach(d.output, p, v, done)
    ensures o.error.Some? ==>
      && failed in affected
      && o.deployer.registry == RecordInstall(RecordEach(d.registry, p, v, done), p, v, failed, true)
      && (o.deployer.output == WriteEach(d.output, p, v, done)
          || (|failed| >= 20 && o.deployer.output == WriteEach(d.output, p, v, done)[failed[20..] := Content(p, v, failed, true)]))
  {
    var cur := d;
    var todo := affected;
    done := [];
    failed := "";
    while todo != {}
      invariant todo <= affected
      invariant forall x :: x in done ==> x in affected && x in p.catalog && |x| >= 20
      invariant forall x :: x in affected ==> x in todo || x in done
      invariant cur.resolver == d.resolver && cur.exclusions == d.exclusions
      invariant Wf(cur.registry)
      invariant cur.registry == RecordEach(d.registry, p, v, done)
      invariant cur.output == WriteEach(d.output, p, v, done)
      decreases todo
    {
      var r :| r in todo;
      var step := InstallOne(cur, p, v, r, true);
      if step.error.Some? {
        return step, done, r;
      }
      RecordEachSnoc(d.registry, p, v, done, r);
      WriteEachSnoc(d.output, p, v, done, r);
      done := done + [r];
      cur := step.deployer;
      todo := todo - {r};
    }
    o := Outcome(cur, None);
  }

  /** Re-installing, filtered, each affected resource in an unspecified
      order, until one throws. Files no affected resource names are kept.
      When none throws, every affected resource has the entry its filtered
      install records, every other entry is kept, and each affected
      resource's file holds the filtered contents of an affected resource
      with that file name: its own, when no other affected resource shares
      the name. */
  method Reinstall(d: Deployer, p: Platform, affected: set<string>) returns (o: Outcome)
    requires Wf(d.registry)
    ensures Wf(o.deployer.registry)
    ensures o.deployer.resolver == d.resolver && o.deployer.exclusions == d.exclusions
    ensures forall x :: x !in affected ==> KeysOf(o.deployer.registry, x) == KeysOf(d.registry, x)
    ensures o.error.None? ==> forall x :: x in affected ==>
      KeysOf(o.deployer.registry, x) == RecordedKeys(p, ViewOf(d.resolver, p.host), x, true)
    ensures forall f :: (forall x :: x in affected ==> ResourceToFilename(x) != Some(f)) ==>
      Get(o.deployer.output, f) == Get(d.output, f)
    ensures o.error.None? ==> forall x :: x in affected ==>
      && x in p.catalog && |x| >= 20
      && exists y :: (y in affected && ResourceToFilename(y) == ResourceToFilename(x)
                      && Get(o.deployer.output, x[20..]) == Some(Content(p, ViewOf(d.resolver, p.host), y, true)))
  {
    var v := ViewOf(d.resolver, p.host);
    ghost var done, failed;
    o, done, failed := ReinstallLoop(d, p, v, affected);
    if o.error.Some? {
      ReinstallFrame(d, p, v, affected, done, failed, o);
    } else {
      ReinstallDone(d, p, v, affected, done, o);
    }
  }

  /** One file event of the watcher. `watched` is the set of files the
      watcher took when it started (`WatchedFiles` at that moment), so a
      file deleted since still counts. An event on a watched file rescans
      the configuration and re-installs what the rescan reports; any other
      event changes nothing. */
  method OnFileEvent(d: Deployer, p: Platform, watched: set<string>, path: string) returns (affected: set<string>, o: Outcome)
    requires Wf(d.registry)
    ensures path !in watched ==> affected == {} && o == Outcome(d, None)
    ensures o.deployer.exclusions == d.exclusions
    ensures affected <= d.registry.Keys
    ensures Wf(o.deployer.registry)
    ensures forall x :: x !in affected ==> KeysOf(o.deployer.registry, x) == KeysOf(d.registry, x)
    ensures forall f :: (forall x :: x in affected ==> ResourceToFilename(x) != Some(f)) ==>
      Get(o.deployer.output, f) == Get(d.output, f)
    ensures o.error.None? ==> forall x :: x in affected ==>
      && x in p.catalog && |x| >= 20
      && exists y :: (y in affected && ResourceToFilename(y) == ResourceToFilename(x)
                      && Get(o.deployer.output, x[20..]) == Some(Content(p, ViewOf(o.deployer.resolver, p.host), y, true)))
    ensures path in watched && d.resolver.FromFiles? ==>
      && affected == AffectedResources(d.resolver.simple.config, ConfigFiles.Merged(p.host.fs, d.resolver.simple.configFiles), d.registry)
      && o.deployer.resolver == Resolvers.FromFiles(d.resolver.simple.(config := ConfigFiles.Merged(p.host.fs, d.resolver.simple.configFiles)))
    ensures path in watched && d.resolver.FromSpring? ==>
      SpringRescanned(d.resolver.spring, o.deployer.resolver, p.host, d.registry, affected)
  {
    if path !in watched {
      return {}, Outcome(d, None);
    }
    var resolver';
    affected, resolver' := ScanPropertyChanges(d.resolver, p.host, d.registry);
    o := Reinstall(d.(resolver := resolver'), p, affected);
  }
}

=== FILE: legacy_deployer.dfy ===
/** The earlier, self-contained `ResourceDeployer` of `com.vmantek.tools.jpos`:
    it reads its own property files, keeps the merged configuration as a
    map, and polls the files' modification times instead of asking a
    resolver. It records every key a marker stage resolved, with no
    mutability filter, and nothing the template reads. */
module LegacyDeployer {
  import opened Common
  import opened DependencyRegistry
  import opened PropertyResolverSpi
  import opened ConfigFiles
  import opened Resources
  import Markers
  import Deployer

  /** The deployer's state: the property files to read, the exclusion
      patterns, the modification time last seen for each file, the merged
      configuration, the dependency registry and the output directory by
      file name. */
  datatype Legacy = Legacy(
    configFiles: seq<string>,
    exclusions: seq<string>,
    timestamps: map<string, int>,
    config: Config,
    registry: Registry,
    output: map<string, string>)

  /** The state after an operation, with the exception that ended it, if any. */
  datatype Outcome = Outcome(legacy: Legacy, error: Option<Error>)

  /** `newInstance(outputBase)`: nothing configured, read or recorded
      yet; `output` is what the output directory already holds, which the
      constructor leaves as it is. */
  function NewLegacy(output: map<string, string>): (l: Legacy)
    ensures l.configFiles == [] && l.exclusions == [] && l.timestamps == map[]
    ensures l.config == map[] && l.registry == map[] && l.output == output
  {
    Legacy([], [], map[], map[], map[], output)
  }

  // ---------------------------------------------------------------------
  // Configuration

  /** The parts of `resourcedeploy-config.default.yml` the deployer reads:
      the `config-files` list (empty when absent) and the `filter` map,
      given by its `exclusions` list (empty when absent); `None` when the
      document has no `filter` map at all. */
  datatype DeployerYaml = DeployerYaml(configFiles: seq<string>, filter: Option<seq<string>>)

  /** The system property naming one more property file. */
  const ConfigFileProperty := "CONFIG_FILE"

  /** `isConfigFileUpdated`: the file exists and is newer than the time
      last seen for it (zero when never seen). */
  predicate IsConfigFileUpdated(fs: FileSystem, timestamps: map<string, int>, f: string) {
    f in fs && fs[f].lastModified > Get(timestamps, f).GetOr(0)
  }

  /** Every key of `props` is put into `c`, replacing the value it had. */
  method PutEvery(c: Config, props: Properties) returns (c': Config)
    ensures c' == c + props
  {
    c' := c;
    var names := props.Keys;
    while names != {}
      invariant names <= props.Keys
      invariant c' == c + (map k | k in props.Keys - names :: props[k])
      decreases names
    {
      var name :| name in names;
      c' := c'[name := props[name]];
      names := names - {name};
    }
    assert props.Keys - names == props.Keys;
  }

  /** `readConfigFiles`: the files in list order, each existing one
      overriding the keys of those before it, and its modification time
      remembered; a missing file is skipped and keeps its old time. Right
      after a read no listed file counts as updated. */
  method ReadConfigFiles(fs: FileSystem, files: seq<string>, timestamps: map<string, int>)
    returns (c: Config, ts: map<string, int>)
    ensures c == Merged(fs, files)
    ensures forall f :: f in files && f in fs ==> f in ts && ts[f] == fs[f].lastModified
    ensures forall f :: !(f in files && f in fs) ==> Get(ts, f) == Get(timestamps, f)
    ensures forall f :: f in files ==> !IsConfigFileUpdated(fs, ts, f)
  {
    c := map[];
    ts := timestamps;
    var i := 0;
    while i < |files|
      invariant 0 <= i <= |files|
      invariant c == Merged(fs, files[..i])
      invariant forall f :: f in files[..i] && f in fs ==> f in ts && ts[f] == fs[f].lastModified
      invariant forall f :: !(f in files[..i] && f in fs) ==> Get(ts, f) == Get(timestamps, f)
      decreases |files| - i
    {
      var f := files[i];
      assert files[..i + 1] == files[..i] + [f];
      assert files[..i + 1][..i] == files[..i];
      if f in fs {
        c := PutEvery(c, fs[f].props);
        ts := ts[f := fs[f].lastModified];
      }
      i := i + 1;
    }
    assert files[..i] == files;
  }

  /** The property files the YAML lists, then the one the `CONFIG_FILE`
      system property names, if it is set. */
  function ListedConfigFiles(yaml: DeployerYaml, sysProps: map<string, string>): (files: seq<string>)
    ensures ConfigFileProperty !in sysProps ==> files == yaml.configFiles
    ensures ConfigFileProperty in sysProps ==>
      |files| == |yaml.configFiles| + 1 && files[..|yaml.configFiles|] == yaml.configFiles
      && files[|yaml.configFiles|] == sysProps[ConfigFileProperty]
  {
    yaml.configFiles + if ConfigFileProperty in sysProps then [sysProps[ConfigFileProperty]] else []
  }

  /** `readDeployerConfig`: the file list is replaced first; a YAML with no
      `filter` map then throws; otherwise the exclusions are replaced and
      the configuration re-read. The registry and the output are never
      touched. */
  method ReadDeployerConfig(l: Legacy, p: Deployer.Platform, yaml: DeployerYaml) returns (o: Outcome)
    ensures o.legacy.configFiles == ListedConfigFiles(yaml, p.host.sysProps)
    ensures o.legacy.registry == l.registry && o.legacy.output == l.output
    ensures yaml.filter.None? ==>
      o.error == Some(NoFilterSection) && o.legacy == l.(configFiles := o.legacy.configFiles)
    ensures yaml.filter.Some? ==>
      && o.error.None?
      && o.legacy.exclusions == yaml.filter.value
      && o.legacy.config == Merged(p.host.fs, o.legacy.configFiles)
      && forall f :: f in o.legacy.configFiles ==> !IsConfigFileUpdated(p.host.fs, o.legacy.timestamps, f)
  {
    var files := ListedConfigFiles(yaml, p.host.sysProps);
    var cur := l.(configFiles := files);
    if yaml.filter.None? {
      return Outcome(cur, Some(NoFilterSection));
    }
    var c, ts := ReadConfigFiles(p.host.fs, files, l.timestamps);
    o := Outcome(cur.(exclusions := yaml.filter.value, config := c, timestamps := ts), None);
  }

  // ---------------------------------------------------------------------
  // Installing

  /** What the legacy deployer looks properties up in: its merged map. */
  function ConfigLookup(config: Config): string -> Option<string> {
    (k: string) => Get(config, k)
  }

  /** The legacy deployer seen as a resolver: lookups go to the merged
      map, and every key counts as mutable. */
  function LegacyView(config: Config): (v: Deployer.View)
    ensures forall k :: v.lookup(k) == Get(config, k) && v.mutable(k)
  {
    Deployer.View(ConfigLookup(config), (k: string) => true)
  }

  /** The keys a filtered install of `r` records: those the two marker
      stages resolved. */
  function StageKeys(p: Deployer.Platform, config: Config, r: string): (keys: set<string>)
    requires r in p.catalog
    ensures forall k :: k in keys ==> k in config
    ensures forall k :: k in keys <==>
      && k in config
      && (|| Markers.Ref(k) in Markers.Tokenize(Markers.Brace, p.catalog[r], 0)
          || Markers.Ref(k) in Markers.Tokenize(Markers.AtSign, Markers.Filter(Markers.Brace, p.catalog[r], ConfigLookup(config)).text, 0))
  {
    var st := Stages(p.catalog[r], ConfigLookup(config));
    assert forall k :: k in st.0.keys + st.1.keys ==> k in config by {
      forall k | k in st.0.keys + st.1.keys ensures k in config {
        if k in st.0.keys {
          StageKeysResolve(Markers.Brace, p.catalog[r], ConfigLookup(config), k);
        } else {
          StageKeysResolve(Markers.AtSign, st.0.text, ConfigLookup(config), k);
        }
      }
    }
    forall k ensures k in st.0.keys + st.1.keys <==>
      && k in config
      && (|| Markers.Ref(k) in Markers.Tokenize(Markers.Brace, p.catalog[r], 0)
          || Markers.Ref(k) in Markers.Tokenize(Markers.AtSign, st.0.text, 0))
    {
      Markers.FilterKeysIff(Markers.Brace, p.catalog[r], ConfigLookup(config), k);
      Markers.FilterKeysIff(Markers.AtSign, st.0.text, ConfigLookup(config), k);
    }
    st.0.keys + st.1.keys
  }

  /** What `installResource(resource, filtered)` does to the registry: only
      a filtered resource that exists and has a file name has its entry
      cleared, after which it holds the keys its stages resolved. Any other
      install leaves the whole registry as it was. */
  function RecordInstall(reg: Registry, p: Deployer.Platform, config: Config, r: string, filtered: bool): (reg': Registry)
    ensures forall x :: x != r ==> KeysOf(reg', x) == KeysOf(reg, x)
    ensures r in p.catalog && |r| >= 20 && filtered ==> KeysOf(reg', r) == StageKeys(p, config, r)
    ensures !(r in p.catalog && |r| >= 20 && filtered) ==> reg' == reg
    ensures Wf(reg) ==> Wf(reg')
  {
    if r in p.catalog && |r| >= 20 && filtered
    then PutAll(RemoveAll(reg, r), r, StageKeys(p, config, r))
    else reg
  }

  /** `installResource(resource, filtered)`: a missing resource or a name
      too short for a file name throws before anything changes; a
      non-filtered resource is copied as it is; a filtered one goes through
      the two marker stages and the template, which sees the merged map. */
  function InstallResourceAs(l: Legacy, p: Deployer.Platform, r: string, filtered: bool): (o: Outcome)
    ensures o.legacy == l.(registry := RecordInstall(l.registry, p, l.config, r, filtered), output := o.legacy.output)
    ensures r !in p.catalog ==> o == Outcome(l, Some(MissingResource(r)))
    ensures r in p.catalog && |r| < 20 ==> o == Outcome(l, Some(BadResourceName(r)))
    ensures r in p.catalog && |r| >= 20 && !filtered ==>
      o == Outcome(l.(output := l.output[r[20..] := p.catalog[r]]), None)
    ensures r in p.catalog && |r| >= 20 && filtered ==>
      var res := Deployer.RenderFiltered(p, LegacyView(l.config), r);
      o.error == res.error && o.legacy.output == l.output[r[20..] := res.text]
  {
    if r !in p.catalog then Outcome(l, Some(MissingResource(r)))
    else match ResourceToFilename(r)
      case None => Outcome(l, Some(BadResourceName(r)))
      case Some(f) =>
        assert f == r[20..];
        if !filtered then Outcome(l.(output := l.output[f := p.catalog[r]]), None)
        else
          var res := Deployer.RenderFiltered(p, LegacyView(l.config), r);
          var reg := RecordInstall(l.registry, p, l.config, r, true);
          Outcome(l.(registry := reg, output := l.output[f := res.text]), res.error)
  }

  /** A filtered install records exactly what the resolver-based deployer
      records when every key is mutable, lookups go to the same map and
      the template reads no key the stages did not resolve. */
  lemma AgreesWithCore(reg: Registry, p: Deployer.Platform, config: Config, r: string)
    requires r in p.catalog && |r| >= 20
    requires var v := LegacyView(config);
      var t := p.engine(r, Stages(p.catalog[r], v.lookup).1.text, v.lookup);
      t.Rendered? ==> t.keys <= StageKeys(p, config, r)
    ensures Deployer.RecordInstall(reg, p, LegacyView(config), r, true) == RecordInstall(reg, p, config, r, true)
  {
    var v := LegacyView(config);
    var consumed := Deployer.RenderFiltered(p, v, r).consumed;
    assert consumed == StageKeys(p, config, r);
    assert Deployer.MutableOnly(v, consumed) == consumed;
  }

  /** A non-filtered install keeps whatever the resource recorded before,
      where the resolver-based deployer clears it: once a resource stops
      being filtered, the legacy deployer still re-renders it when one of
      its old keys changes. */
  lemma CopyKeepsStaleEntry(reg: Registry, p: Deployer.Platform, config: Config, r: string, k: string,
                            oldConfig: Config, newConfig: Config)
    requires r in p.catalog && |r| >= 20
    requires k in KeysOf(reg, r) && Differs(oldConfig, newConfig, k)
    ensures r in AffectedResources(oldConfig, newConfig, RecordInstall(reg, p, config, r, false))
    ensures r !in AffectedResources(oldConfig, newConfig, Deployer.RecordInstall(reg, p, LegacyView(config), r, false))
  {
  }

  /** Reference definition of the keys a resource installed with
      classification `filtered` holds, over an entry that held nothing. */
  function RecordedKeys(p: Deployer.Platform, config: Config, r: string, filtered: bool): set<string> {
    if r in p.catalog && |r| >= 20 && filtered then StageKeys(p, config, r) else {}
  }

  /** The registry after recording the installs of `entries[..i]`, in
      order, over `reg`, each filtered exactly when it is in `filtered`. */
  ghost function RecordAll(reg: Registry, p: Deployer.Platform, config: Config, entries: seq<string>,
                           filtered: seq<string>, i: nat): Registry
    requires i <= |entries|
  {
    if i == 0 then reg
    else RecordInstall(RecordAll(reg, p, config, entries, filtered, i - 1), p, config, entries[i - 1], entries[i - 1] in filtered)
  }

  /** Recording the installs in order over an empty registry leaves each
      installed resource with what its install records, and nothing for
      the others. */
  lemma {:induction false} RecordAllAt(p: Deployer.Platform, config: Config, entries: seq<string>,
                                       filtered: seq<string>, i: nat, x: string)
    requires i <= |entries|
    ensures KeysOf(RecordAll(map[], p, config, entries, filtered, i), x) ==
      if x in entries[..i] then RecordedKeys(p, config, x, x in filtered) else {}
  {
    if i > 0 {
      RecordAllAt(p, config, entries, filtered, i - 1, x);
      assert entries[..i] == entries[..i - 1] + [entries[i - 1]];
    }
  }

  /** `installResource(resource, filtered)`, seen only through what it
      records and the one file it writes: the same contents the
      resolver-based deployer writes when it looks keys up in the merged
      map. */
  method InstallOne(l: Legacy, p: Deployer.Platform, r: string, filtered: bool) returns (o: Outcome)
    ensures o.legacy == l.(registry := RecordInstall(l.registry, p, l.config, r, filtered), output := o.legacy.output)
    ensures o.error.None? ==> r in p.catalog && |r| >= 20
    ensures o.legacy.output ==
      if r in p.catalog && |r| >= 20 then l.output[r[20..] := Deployer.Content(p, LegacyView(l.config), r, filtered)] else l.output
  {
    o := InstallResourceAs(l, p, r, filtered);
  }

  /** `installRuntimeResources`' loop: every entry installed in order,
      filtered when it is in `filtered`, until one throws. When none does,
      the registry is what recording each install in turn gives, and the
      output what writing each in turn gives. */
  method InstallAll(l: Legacy, p: Deployer.Platform, entries: seq<string>, filtered: seq<string>) returns (o: Outcome)
    ensures o.legacy.config == l.config && o.legacy.exclusions == l.exclusions && o.legacy.configFiles == l.configFiles
    ensures Wf(l.registry) ==> Wf(o.legacy.registry)
    ensures o.error.None? ==> o.legacy.registry == RecordAll(l.registry, p, l.config, entries, filtered, |entries|)
    ensures o.error.None? ==> forall i :: 0 <= i < |entries| ==> entries[i] in p.catalog && |entries[i]| >= 20
    ensures o.error.None? ==> o.legacy.output == Deployer.WriteAll(l.output, p, LegacyView(l.config), entries, filtered, |entries|)
  {
    var v := LegacyView(l.config);
    var cur := l;
    var i := 0;
    while i < |entries|
      invariant 0 <= i <= |entries|
      invariant cur.config == l.config && cur.exclusions == l.exclusions && cur.configFiles == l.configFiles
      invariant Wf(l.registry) ==> Wf(cur.registry)
      invariant cur.registry == RecordAll(l.registry, p, l.config, entries, filtered, i)
      invariant forall j :: 0 <= j < i ==> entries[j] in p.catalog && |entries[j]| >= 20
      invariant cur.output == Deployer.WriteAll(l.output, p, v, entries, filtered, i)
      decreases |entries| - i
    {
      var step := InstallOne(cur, p, entries[i], entries[i] in filtered);
      if step.error.Some? {
        return step;
      }
      assert ResourceToFilename(entries[i]) == Some(entries[i][20..]);
      assert step.legacy.output == Deployer.WriteAll(l.output, p, v, entries, filtered, i + 1);
      cur := step.legacy;
      i := i + 1;
    }
    o := Outcome(cur, None);
  }

  /** The registry of a full install, in terms of each entry's
      classification under `exclusions`. */
  lemma FullInstallKeys(p: Deployer.Platform, config: Config, exclusions: seq<string>, filtered: seq<string>)
    requires forall x :: x in filtered <==> x in p.entries && IsResourceFilterable(p.paths, exclusions, x) == Some(true)
    ensures forall x ::
      KeysOf(RecordAll(map[], p, config, p.entries, filtered, |p.entries|), x) ==
        if x in p.entries then RecordedKeys(p, config, x, IsResourceFilterable(p.paths, exclusions, x) == Some(true)) else {}
  {
    assert p.entries[..|p.entries|] == p.entries;
    forall x
      ensures KeysOf(RecordAll(map[], p, config, p.entries, filtered, |p.entries|), x) ==
        if x in p.entries then RecordedKeys(p, config, x, x in filtered) else {}
    {
      RecordAllAt(p, config, p.entries, filtered, |p.entries|, x);
    }
  }

  /** The output of a full install, in terms of each entry's
      classification under `exclusions`. */
  lemma FullInstallOutput(out: map<string, string>, p: Deployer.Platform, config: Config, exclusions: seq<string>,
                          filtered: seq<string>)
    requires forall i :: 0 <= i < |p.entries| ==> |p.entries[i]| >= 20
    requires forall x :: x in filtered <==> x in p.entries && IsResourceFilterable(p.paths, exclusions, x) == Some(true)
    ensures forall f :: (forall i :: 0 <= i < |p.entries| ==> ResourceToFilename(p.entries[i]) != Some(f)) ==>
      Get(Deployer.WriteAll(out, p, LegacyView(config), p.entries, filtered, |p.entries|), f) == Get(out, f)
    ensures forall i :: 0 <= i < |p.entries| && Deployer.LastWriter(p.entries, i) ==>
      Get(Deployer.WriteAll(out, p, LegacyView(config), p.entries, filtered, |p.entries|), p.entries[i][20..]) ==
        Some(Deployer.Content(p, LegacyView(config), p.entries[i], IsResourceFilterable(p.paths, exclusions, p.entries[i]) == Some(true)))
  {
    Deployer.WriteAllSpec(out, p, LegacyView(config), p.entries, filtered);
    assert forall i :: 0 <= i < |p.entries| ==> (p.entries[i] in filtered <==> IsResourceFilterable(p.paths, exclusions, p.entries[i]) == Some(true));
  }

  /** `installRuntimeResources`: the deployer configuration is re-read, the
      whole registry cleared, every entry classified and then installed in
      order; the first exception stops the run. When it completes, each
      filtered entry holds the keys its stages resolved and nothing else
      holds any; files no entry names are kept, and each other file holds
      what the last entry naming it writes. */
  method InstallRuntimeResources(l: Legacy, p: Deployer.Platform, yaml: DeployerYaml) returns (o: Outcome)
    ensures Wf(l.registry) ==> Wf(o.legacy.registry)
    ensures o.error.None? ==> yaml.filter.Some?
    ensures yaml.filter.Some? ==>
      && o.legacy.exclusions == yaml.filter.value
      && o.legacy.config == Merged(p.host.fs, ListedConfigFiles(yaml, p.host.sysProps))
    ensures o.error.None? ==>
      forall x :: KeysOf(o.legacy.registry, x) ==
        if x in p.entries
        then RecordedKeys(p, o.legacy.config, x, IsResourceFilterable(p.paths, o.legacy.exclusions, x) == Some(true))
        else {}
    ensures o.error.None? ==> forall i :: 0 <= i < |p.entries| ==> p.entries[i] in p.catalog && |p.entries[i]| >= 20
    ensures o.error.None? ==> forall f ::
      (forall i :: 0 <= i < |p.entries| ==> ResourceToFilename(p.entries[i]) != Some(f)) ==> Get(o.legacy.output, f) == Get(l.output, f)
    ensures o.error.None? ==> forall i :: 0 <= i < |p.entries| && Deployer.LastWriter(p.entries, i) ==>
      Get(o.legacy.output, p.entries[i][20..]) ==
        Some(Deployer.Content(p, LegacyView(o.legacy.config), p.entries[i],
                              IsResourceFilterable(p.paths, o.legacy.exclusions, p.entries[i]) == Some(true)))
  {
    o := ReadDeployerConfig(l, p, yaml);
    if o.error.Some? {
      return;
    }
    var cur := o.legacy.(registry := map[]);
    var filtered, error := ClassifyAll(p.paths, cur.exclusions, p.entries);
    if error.Some? {
      return Outcome(cur, error);
    }
    o := InstallAll(cur, p, p.entries, filtered);
    if o.error.None? {
      FullInstallKeys(p, cur.config, cur.exclusions, filtered);
      FullInstallOutput(cur.output, p, cur.config, cur.exclusions, filtered);
    }
  }

  /** `installResource(resource)`: the deployer configuration is re-read
      and the resource installed with its classification; unlike a full
      install, the rest of the registry is kept. */
  method InstallResource(l: Legacy, p: Deployer.Platform, yaml: DeployerYaml, r: string) returns (o: Outcome)
    ensures forall x :: x != r ==> KeysOf(o.legacy.registry, x) == KeysOf(l.registry, x)
    ensures o.error.None? ==> o.legacy.config == Merged(p.host.fs, ListedConfigFiles(yaml, p.host.sysProps))
    ensures o.error.None? ==> yaml.filter.Some? && r in p.catalog && |r| >= 20
    ensures o.error.None? && yaml.filter.Some? && r in p.catalog ==>
      var config := Merged(p.host.fs, ListedConfigFiles(yaml, p.host.sysProps));
      var filtered := IsResourceFilterable(p.paths, yaml.filter.value, r) == Some(true);
      && KeysOf(o.legacy.registry, r) == (if filtered then StageKeys(p, config, r) else KeysOf(l.registry, r))
      && o.legacy.output == l.output[r[20..] := if filtered then Deployer.RenderFiltered(p, LegacyView(config), r).text else p.catalog[r]]
    ensures Wf(l.registry) ==> Wf(o.legacy.registry)
  {
    o := ReadDeployerConfig(l, p, yaml);
    if o.error.Some? {
      return;
    }
    var b := IsResourceFilterable(p.paths, o.legacy.exclusions, r);
    if b.None? {
      return Outcome(o.legacy, Some(BadResourceName(r)));
    }
    o := InstallResourceAs(o.legacy, p, r, b.value);
  }

  // ---------------------------------------------------------------------
  // Polling the configuration

  /** After re-installing `affected - todo`, filtered, on top of `l`: those
      resources hold the keys their stages resolve under `config`, every
      other keeps its own entry. */
  ghost predicate Reinstalled(l: Legacy, p: Deployer.Platform, config: Config, affected: set<string>,
                              todo: set<string>, reg: Registry) {
    forall x :: KeysOf(reg, x) ==
      if x in affected - todo then RecordedKeys(p, config, x, true) else KeysOf(l.registry, x)
  }

  lemma ReinstallStep(l: Legacy, p: Deployer.Platform, config: Config, affected: set<string>, todo: set<string>,
                      reg: Registry, r: string)
    requires r in todo && r in affected && r in p.catalog && |r| >= 20
    requires Reinstalled(l, p, config, affected, todo, reg)
    ensures Reinstalled(l, p, config, affected, todo - {r}, RecordInstall(reg, p, config, r, true))
  {
    var next := RecordInstall(reg, p, config, r, true);
    forall x
      ensures KeysOf(next, x) ==
        if x in affected - (todo - {r}) then RecordedKeys(p, config, x, true) else KeysOf(l.registry, x)
    {
      if x != r {
        assert x in affected - (todo - {r}) <==> x in affected - todo;
      }
    }
  }

  /** The filtered contents an install of `r` writes under `config`. */
  function Rendered(p: Deployer.Platform, config: Config, r: string): string
    requires r in p.catalog
  {
    Deployer.RenderFiltered(p, LegacyView(config), r).text
  }

  /** The filtered contents of each resource under `config`. */
  function RenderOf(p: Deployer.Platform, config: Config): string -> string {
    (y: string) => if y in p.catalog then Rendered(p, config, y) else ""
  }

  /** After re-installing `affected - todo` over `out0`, each writing
      `content` of itself: every file none of `affected` names is kept,
      every re-installed resource's file has an owner, and each owned file
      holds the contents of its owner, a re-installed resource with that
      file name. */
  ghost predicate Rewritten(out0: map<string, string>, catalog: map<string, string>, content: string -> string,
                            affected: set<string>, todo: set<string>, out: map<string, string>,
                            owner: map<string, string>) {
    && (forall f :: (forall x :: x in affected ==> ResourceToFilename(x) != Some(f)) ==> Get(out, f) == Get(out0, f))
    && (forall x :: x in affected - todo ==> x in catalog && |x| >= 20 && x[20..] in owner)
    && forall f :: f in owner ==>
      && owner[f] in affected - todo && owner[f] in catalog && |owner[f]| >= 20 && owner[f][20..] == f
      && Get(out, f) == Some(content(owner[f]))
  }

  lemma RewriteStep(out0: map<string, string>, catalog: map<string, string>, content: string -> string,
                    affected: set<string>, todo: set<string>, out: map<string, string>,
                    owner: map<string, string>, r: string)
    requires r in todo && r in affected && r in catalog && |r| >= 20
    requires Rewritten(out0, catalog, content, affected, todo, out, owner)
    ensures Rewritten(out0, catalog, content, affected, todo - {r}, out[r[20..] := content(r)], owner[r[20..] := r])
  {
    forall f | forall x :: x in affected ==> ResourceToFilename(x) != Some(f)
      ensures Get(out[r[20..] := content(r)], f) == Get(out0, f)
    {
      assert ResourceToFilename(r) == Some(r[20..]);
    }
  }

  /** Every re-installed resource's file holds the contents of one with
      the same file name. */
  lemma RewrittenWitness(out0: map<string, string>, catalog: map<string, string>, content: string -> string,
                         affected: set<string>, out: map<string, string>, owner: map<string, string>, x: string)
    requires Rewritten(out0, catalog, content, affected, {}, out, owner)
    requires x in affected
    ensures x in catalog && |x| >= 20
    ensures exists y :: (y in affected && y in catalog && |y| >= 20 && y[20..] == x[20..]
                         && Get(out, x[20..]) == Some(content(y)))
  {
    var y := owner[x[20..]];
    assert y in affected - {};
  }

  /** A filtered install of `r`, as a reinstall sees it: the registry as
      `RecordInstall` says, and the file written when `r` has one. */
  method ReinstallOne(l: Legacy, p: Deployer.Platform, r: string, content: string -> string) returns (o: Outcome)
    requires content == RenderOf(p, l.config)
    ensures o.legacy == l.(registry := RecordInstall(l.registry, p, l.config, r, true), output := o.legacy.output)
    ensures o.error.None? ==> r in p.catalog && |r| >= 20
    ensures r in p.catalog && |r| >= 20 ==> o.legacy.output == l.output[r[20..] := content(r)]
    ensures !(r in p.catalog && |r| >= 20) ==> o.legacy.output == l.output
  {
    o := InstallResourceAs(l, p, r, true);
  }

  /** What holds of any state a reinstall of `affected` over `l` reaches,
      even one an exception ended: the configuration and the time stamps
      kept, the registry well formed, and every entry and file no
      affected resource names kept. */
  ghost predicate ReinstallFrame(l: Legacy, affected: set<string>, cur: Legacy) {
    && cur.config == l.config && cur.configFiles == l.configFiles && cur.timestamps == l.timestamps
    && Wf(cur.registry)
    && (forall x :: x !in affected ==> KeysOf(cur.registry, x) == KeysOf(l.registry, x))
    && forall f :: (forall x :: x in affected ==> ResourceToFilename(x) != Some(f)) ==>
      Get(cur.output, f) == Get(l.output, f)
  }

  /** The reinstall loop's invariant, with `todo` still to do. */
  ghost predicate ReinstallInv(l: Legacy, p: Deployer.Platform, affected: set<string>, todo: set<string>,
                               cur: Legacy, owner: map<string, string>) {
    && todo <= affected
    && cur.config == l.config && cur.configFiles == l.configFiles && cur.timestamps == l.timestamps
    && Wf(cur.registry)
    && Reinstalled(l, p, l.config, affected, todo, cur.registry)
    && Rewritten(l.output, p.catalog, RenderOf(p, l.config), affected, todo, cur.output, owner)
  }

  lemma InvFrame(l: Legacy, p: Deployer.Platform, affected: set<string>, todo: set<string>,
                 cur: Legacy, owner: map<string, string>)
    requires ReinstallInv(l, p, affected, todo, cur, owner)
    ensures ReinstallFrame(l, affected, cur)
  {
  }

  /** One iteration: the next state keeps the frame, and keeps the
      invariant when it did not throw. */
  lemma ReinstallInvStep(l: Legacy, p: Deployer.Platform, affected: set<string>, todo: set<string>,
                         cur: Legacy, owner: map<string, string>, r: string, step: Outcome)
    requires ReinstallInv(l, p, affected, todo, cur, owner)
    requires r in todo
    requires step.legacy == cur.(registry := RecordInstall(cur.registry, p, cur.config, r, true), output := step.legacy.output)
    requires step.error.None? ==> r in p.catalog && |r| >= 20
    requires r in p.catalog && |r| >= 20 ==> step.legacy.output == cur.output[r[20..] := RenderOf(p, l.config)(r)]
    requires !(r in p.catalog && |r| >= 20) ==> step.legacy.output == cur.output
    ensures ReinstallFrame(l, affected, step.legacy)
    ensures step.error.None? ==> ReinstallInv(l, p, affected, todo - {r}, step.legacy, owner[r[20..] := r])
  {
    var render := RenderOf(p, l.config);
    if r in p.catalog && |r| >= 20 {
      RewriteStep(l.output, p.catalog, render, affected, todo, cur.output, owner, r);
      ReinstallStep(l, p, l.config, affected, todo, cur.registry, r);
      InvFrame(l, p, affected, todo - {r}, step.legacy, owner[r[20..] := r]);
    } else {
      InvFrame(l, p, affected, todo, step.legacy, owner);
    }
  }

  /** `Reinstall`'s loop, with the ghost `owner` of each file written. */
  method ReinstallLoop(l: Legacy, p: Deployer.Platform, affected: set<string>)
    returns (o: Outcome, ghost owner: map<string, string>)
    requires Wf(l.registry)
    ensures ReinstallFrame(l, affected, o.legacy)
    ensures o.error.None? ==> ReinstallInv(l, p, affected, {}, o.legacy, owner)
  {
    var render := RenderOf(p, l.config);
    owner := map[];
    var cur := l;
    var todo := affected;
    while todo != {}
      invariant ReinstallInv(l, p, affected, todo, cur, owner)
      decreases todo
    {
      var r :| r in todo;
      var step := ReinstallOne(cur, p, r, render);
      ReinstallInvStep(l, p, affected, todo, cur, owner, r, step);
      if step.error.Some? {
        return step, owner;
      }
      cur := step.legacy;
      todo := todo - {r};
      owner := owner[r[20..] := r];
    }
    o := Outcome(cur, None);
    InvFrame(l, p, affected, todo, cur, owner);
  }

  /** Re-installing, filtered, each affected resource in an unspecified
      order, until one throws. Files no affected resource names are kept;
      when none throws, each affected resource's file holds the render of
      an affected resource with that file name: its own, when no other
      shares the name. */
  method Reinstall(l: Legacy, p: Deployer.Platform, affected: set<string>) returns (o: Outcome)
    requires Wf(l.registry)
    ensures Wf(o.legacy.registry)
    ensures o.legacy.config == l.config && o.legacy.configFiles == l.configFiles && o.legacy.timestamps == l.timestamps
    ensures forall x :: x !in affected ==> KeysOf(o.legacy.registry, x) == KeysOf(l.registry, x)
    ensures o.error.None? ==> forall x :: x in affected ==> KeysOf(o.legacy.registry, x) == RecordedKeys(p, l.config, x, true)
    ensures forall f :: (forall x :: x in affected ==> ResourceToFilename(x) != Some(f)) ==>
      Get(o.legacy.output, f) == Get(l.output, f)
    ensures o.error.None? ==> forall x :: x in affected ==>
      && x in p.catalog && |x| >= 20
      && exists y :: (y in affected && y in p.catalog && |y| >= 20 && y[20..] == x[20..]
                      && Get(o.legacy.output, x[20..]) == Some(Rendered(p, l.config, y)))
  {
    ghost var owner;
    o, owner := ReinstallLoop(l, p, affected);
    if o.error.None? {
      assert Rewritten(l.output, p.catalog, RenderOf(p, l.config), affected, {}, o.legacy.output, owner);
      forall x | x in affected
        ensures KeysOf(o.legacy.registry, x) == RecordedKeys(p, l.config, x, true)
      {
        assert x in affected - {};
      }
      forall x | x in affected
        ensures x in p.catalog && |x| >= 20
        ensures exists y :: (y in affected && y in p.catalog && |y| >= 20 && y[20..] == x[20..]
                             && Get(o.legacy.output, x[20..]) == Some(Rendered(p, l.config, y)))
      {
        RewrittenWitness(l.output, p.catalog, RenderOf(p, l.config), affected, o.legacy.output, owner, x);
      }
    }
  }

  /** One round of the polling loop in `run`: when some listed file is
      newer than the time last seen, the files are re-read, the new map
      replaces the old one, and every resource that recorded a key whose
      value changed is re-installed filtered, under the new map. A round
      in which no file changed does nothing. */
  method Poll(l: Legacy, p: Deployer.Platform) returns (affected: set<string>, o: Outcome)
    requires Wf(l.registry)
    ensures (forall f :: f in l.configFiles ==> !IsConfigFileUpdated(p.host.fs, l.timestamps, f)) ==>
      affected == {} && o == Outcome(l, None)
    ensures (exists f :: f in l.configFiles && IsConfigFileUpdated(p.host.fs, l.timestamps, f)) ==>
      && affected == AffectedResources(l.config, Merged(p.host.fs, l.configFiles), l.registry)
      && o.legacy.config == Merged(p.host.fs, l.configFiles)
    ensures Wf(o.legacy.registry)
    ensures o.legacy.configFiles == l.configFiles
    ensures (exists f :: f in l.configFiles && IsConfigFileUpdated(p.host.fs, l.timestamps, f)) ==>
      forall f :: f in l.configFiles && f in p.host.fs ==>
        f in o.legacy.timestamps && o.legacy.timestamps[f] == p.host.fs[f].lastModified
    ensures forall f :: f in l.configFiles ==> !IsConfigFileUpdated(p.host.fs, o.legacy.timestamps, f)
    ensures forall x :: x !in affected ==> KeysOf(o.legacy.registry, x) == KeysOf(l.registry, x)
    ensures o.error.None? ==> forall x :: x in affected ==>
      KeysOf(o.legacy.registry, x) == RecordedKeys(p, o.legacy.config, x, true)
    ensures forall f :: (forall x :: x in affected ==> ResourceToFilename(x) != Some(f)) ==>
      Get(o.legacy.output, f) == Get(l.output, f)
    ensures o.error.None? ==> forall x :: x in affected ==>
      && x in p.catalog && |x| >= 20
      && exists y :: (y in affected && y in p.catalog && |y| >= 20 && y[20..] == x[20..]
                      && Get(o.legacy.output, x[20..]) == Some(Rendered(p, o.legacy.config, y)))
  {
    if forall f :: f in l.configFiles ==> !IsConfigFileUpdated(p.host.fs, l.timestamps, f) {
      return {}, Outcome(l, None);
    }
    var newConfig, ts := ReadConfigFiles(p.host.fs, l.configFiles, l.timestamps);
    affected := CalculateAffectedResources(l.config, newConfig, l.registry);
    o := Reinstall(l.(config := newConfig, timestamps := ts), p, affected);
  }

  /** Polling twice over the same files: the first poll stamps every file
      it re-read, so the second finds none updated, reports nothing and
      changes nothing, whether or not the first one threw. */
  method PollTwice(l: Legacy, p: Deployer.Platform) returns (first: set<string>, o: Outcome, second: set<string>, o': Outcome)
    requires Wf(l.registry)
    ensures second == {} && o' == Outcome(o.legacy, None)
    ensures o.legacy.configFiles == l.configFiles
  {
    first, o := Poll(l, p);
    second, o' := Poll(o.legacy, p);
  }
}

=== FILE: markers.dfy ===
/** Placeholder markers and their substitution (`ResourceDeployer.filterResource`
    in both deployers, and the source-name pattern of the Spring resolver).

    Every pattern the source uses has the shape `OPEN(.*?)CLOSE` with
    literal delimiters: `\$\{(.*?)\}`, `@@(.*?)@@` and
    `applicationConfig: \[(.*?)\]`. A match therefore starts at the leftmost
    position where `OPEN` occurs and takes the shortest body, free of line
    terminators (no DOTALL flag is set), that is followed by `CLOSE`.
    `Matcher.find` restarts after the end of the previous match, so matches
    never overlap. */
module Markers {
  import opened Common

  datatype Delimiters = Delimiters(open: string, close: string)

  /** Both delimiters are non-empty, as in every pattern of the source. */
  type Marker = d: Delimiters | |d.open| > 0 && |d.close| > 0 witness Delimiters("@", "@")

  /** `\$\{(.*?)\}`. */
  const Brace: Marker := Delimiters("${", "}")
  /** `@@(.*?)@@`. */
  const AtSign: Marker := Delimiters("@@", "@@")

  /** The text `OPEN key CLOSE` of a marker for `key`. */
  function MarkerText(m: Marker, key: string): string {
    m.open + key + m.close
  }

  /** `w` occurs in `s` at position `i`. */
  predicate OccursAt(s: string, i: int, w: string) {
    0 <= i && i + |w| <= |s| && AgreeFrom(s, i, w, 0)
  }

  /** `s` from `i` agrees with `w` at positions `k` and beyond. */
  predicate AgreeFrom(s: string, i: nat, w: string, k: nat)
    requires i + |w| <= |s| && k <= |w|
    decreases |w| - k
  {
    k == |w| || (s[i + k] == w[k] && AgreeFrom(s, i, w, k + 1))
  }

  lemma {:induction false} AgreeFromSlice(s: string, i: nat, w: string, k: nat)
    requires i + |w| <= |s| && k <= |w|
    ensures AgreeFrom(s, i, w, k) <==> s[i + k..i + |w|] == w[k..]
    decreases |w| - k
  {
    if k < |w| {
      AgreeFromSlice(s, i, w, k + 1);
      assert s[i + k..i + |w|] == [s[i + k]] + s[i + k + 1..i + |w|];
      assert w[k..] == [w[k]] + w[k + 1..];
    }
  }

  /** `OccursAt` is the slice comparison it abbreviates. */
  lemma OccursAtSlice(s: string, i: int, w: string)
    ensures OccursAt(s, i, w) <==> 0 <= i && i + |w| <= |s| && s[i..i + |w|] == w
  {
    if 0 <= i && i + |w| <= |s| {
      AgreeFromSlice(s, i, w, 0);
    }
  }

  lemma {:induction false} AgreeFromPointwise(s: string, i: nat, w: string, k: nat)
    requires i + |w| <= |s| && k <= |w|
    ensures AgreeFrom(s, i, w, k) <==> forall x :: k <= x < |w| ==> s[i + x] == w[x]
    decreases |w| - k
  {
    if k < |w| {
      AgreeFromPointwise(s, i, w, k + 1);
    }
  }

  /** `OccursAt` compares character by character. */
  lemma OccursAtPointwise(s: string, i: int, w: string)
    ensures OccursAt(s, i, w) <==> 0 <= i && i + |w| <= |s| && forall x :: 0 <= x < |w| ==> s[i + x] == w[x]
  {
    if 0 <= i && i + |w| <= |s| {
      AgreeFromPointwise(s, i, w, 0);
    }
  }

  /** No line terminator among `s[a..b]`. */
  predicate LineFree(s: string, a: int, b: int)
    requires 0 <= a <= b <= |s|
  {
    forall j :: a <= j < b ==> !IsLineTerminator(s[j])
  }

  /** The lazy group followed by `CLOSE`, for a body that starts at `a`: the
      regex engine tries `CLOSE` at `j`, and otherwise extends the group by
      one character, which must not be a line terminator. */
  function CloseFrom(m: Marker, s: string, a: nat, j: nat): (e: Option<nat>)
    requires a <= j <= |s|
    ensures e.Some? ==> j <= e.value && e.value + |m.close| <= |s|
    decreases |s| - j
  {
    if OccursAt(s, j, m.close) then Some(j)
    else if j < |s| && !IsLineTerminator(s[j]) then CloseFrom(m, s, a, j + 1)
    else None
  }

  /** `CloseFrom` finds the smallest end of body, without line terminators,
      after which `CLOSE` follows, and fails only when there is none. */
  lemma {:induction false} CloseFromSpec(m: Marker, s: string, a: nat, j: nat)
    requires a <= j <= |s|
    requires LineFree(s, a, j)
    requires forall x :: a <= x < j ==> !OccursAt(s, x, m.close)
    ensures var e := CloseFrom(m, s, a, j);
      e.Some? ==>
        && OccursAt(s, e.value, m.close)
        && LineFree(s, a, e.value)
        && forall x :: a <= x < e.value ==> !OccursAt(s, x, m.close)
    ensures var e := CloseFrom(m, s, a, j);
      e.None? ==>
        forall x :: a <= x <= |s| && LineFree(s, a, x) ==> !OccursAt(s, x, m.close)
    decreases |s| - j
  {
    if OccursAt(s, j, m.close) {
    } else if j < |s| && !IsLineTerminator(s[j]) {
      CloseFromSpec(m, s, a, j + 1);
    } else {
      forall x | j < x <= |s|
        ensures !LineFree(s, a, x)
      {
        assert IsLineTerminator(s[j]);
      }
    }
  }

  /** The match of the pattern that starts at position `i`, if any, given by
      the position where its captured key ends. */
  function MatchAt(m: Marker, s: string, i: nat): (r: Option<nat>)
    requires i <= |s|
    ensures r.Some? ==> i + |m.open| <= r.value && r.value + |m.close| <= |s|
  {
    if OccursAt(s, i, m.open) then CloseFrom(m, s, i + |m.open|, i + |m.open|) else None
  }

  /** A match at `i` is `OPEN`, then the shortest run without line
      terminators that is followed by `CLOSE`, then `CLOSE`; there is no
      match at `i` exactly when no such run exists. */
  lemma MatchAtSpec(m: Marker, s: string, i: nat)
    requires i <= |s|
    ensures var r := MatchAt(m, s, i);
      r.Some? ==>
        && OccursAt(s, i, m.open)
        && OccursAt(s, r.value, m.close)
        && LineFree(s, i + |m.open|, r.value)
        && forall x :: i + |m.open| <= x < r.value ==> !OccursAt(s, x, m.close)
    ensures var r := MatchAt(m, s, i);
      r.None? ==>
        forall x :: OccursAt(s, i, m.open) && i + |m.open| <= x <= |s| && LineFree(s, i + |m.open|, x)
          ==> !OccursAt(s, x, m.close)
  {
    if OccursAt(s, i, m.open) {
      CloseFromSpec(m, s, i + |m.open|, i + |m.open|);
    }
  }

  /** The key captured by the match ending its body at `e`. */
  function KeyOf(m: Marker, s: string, i: nat, e: nat): string
    requires i + |m.open| <= e <= |s|
  {
    s[i + |m.open|..e]
  }

  /** The text of a match is exactly its marker text. */
  lemma MatchText(m: Marker, s: string, i: nat)
    requires i <= |s| && MatchAt(m, s, i).Some?
    ensures var e := MatchAt(m, s, i).value;
            e + |m.close| <= |s| &&
            s[i..e + |m.close|] == MarkerText(m, KeyOf(m, s, i, e))
  {
    var e := MatchAt(m, s, i).value;
    MatchAtSpec(m, s, i);
    OccursAtSlice(s, i, m.open);
    OccursAtSlice(s, e, m.close);
    SliceConcat(s, i, i + |m.open|, e + |m.close|);
    SliceConcat(s, i + |m.open|, e, e + |m.close|);
  }

  /** One step of a left-to-right scan: a single character that is not the
      start of a match, or a whole match given by its key. */
  datatype Piece = Text(c: char) | Ref(key: string)

  /** The successive pieces `Matcher.find` sees from position `i` on: at
      each position either a match starts there, and the scan resumes after
      it, or the position is skipped. */
  function Tokenize(m: Marker, s: string, i: nat): seq<Piece>
    requires i <= |s|
    decreases |s| - i
  {
    if i == |s| then []
    else match MatchAt(m, s, i)
      case Some(e) => [Ref(KeyOf(m, s, i, e))] + Tokenize(m, s, e + |m.close|)
      case None => [Text(s[i])] + Tokenize(m, s, i + 1)
  }

  /** The text a piece was read from. */
  function Raw(m: Marker, p: Piece): string {
    match p
    case Text(c) => [c]
    case Ref(k) => MarkerText(m, k)
  }

  function Join(m: Marker, ps: seq<Piece>): string {
    if |ps| == 0 then [] else Raw(m, ps[0]) + Join(m, ps[1..])
  }

  /** One step of the scan from a position below the end. */
  lemma TokenizeStep(m: Marker, s: string, i: nat)
    requires i < |s|
    ensures MatchAt(m, s, i).None? ==> Tokenize(m, s, i) == [Text(s[i])] + Tokenize(m, s, i + 1)
    ensures MatchAt(m, s, i).Some? ==>
      var e := MatchAt(m, s, i).value;
      Tokenize(m, s, i) == [Ref(KeyOf(m, s, i, e))] + Tokenize(m, s, e + |m.close|)
  {
  }

  /** The step of `Tokenize` at a match that ends its body at `e`. */
  lemma TokenizeMatch(m: Marker, s: string, i: nat, e: nat)
    requires i < |s| && MatchAt(m, s, i) == Some(e)
    ensures Tokenize(m, s, i) == [Ref(KeyOf(m, s, i, e))] + Tokenize(m, s, e + |m.close|)
  {
  }

  lemma JoinCons(m: Marker, p: Piece, ps: seq<Piece>)
    ensures Join(m, [p] + ps) == Raw(m, p) + Join(m, ps)
  {
    assert ([p] + ps)[1..] == ps;
  }

  lemma SuffixConcat(s: string, a: nat, b: nat)
    requires a <= b <= |s|
    ensures s[a..] == s[a..b] + s[b..]
  {
  }

  lemma JoinStepMatch(m: Marker, s: string, i: nat, e: nat, n: nat)
    requires i < |s| && MatchAt(m, s, i) == Some(e)
    requires n == e + |m.close| && n <= |s|
    requires Join(m, Tokenize(m, s, n)) == s[n..]
    ensures Join(m, Tokenize(m, s, i)) == s[i..]
  {
    var a := MarkerText(m, KeyOf(m, s, i, e));
    var b := Join(m, Tokenize(m, s, n));
    JoinAtMatch(m, s, i, e);
    assert Join(m, Tokenize(m, s, i)) == a + b;
    MatchText(m, s, i);
    assert a == s[i..n];
    SuffixConcat(s, i, n);
  }

  lemma JoinAtMatch(m: Marker, s: string, i: nat, e: nat)
    requires i < |s| && MatchAt(m, s, i) == Some(e)
    ensures Join(m, Tokenize(m, s, i)) == MarkerText(m, KeyOf(m, s, i, e)) + Join(m, Tokenize(m, s, e + |m.close|))
  {
    var rest := Tokenize(m, s, e + |m.close|);
    TokenizeMatch(m, s, i, e);
    JoinCons(m, Ref(KeyOf(m, s, i, e)), rest);
  }

  lemma JoinStepText(m: Marker, s: string, i: nat)
    requires i < |s| && MatchAt(m, s, i).None?
    requires Join(m, Tokenize(m, s, i + 1)) == s[i + 1..]
    ensures Join(m, Tokenize(m, s, i)) == s[i..]
  {
    TokenizeStep(m, s, i);
    JoinCons(m, Text(s[i]), Tokenize(m, s, i + 1));
    SuffixConcat(s, i, i + 1);
    assert s[i..i + 1] == [s[i]];
  }

  /** Scanning loses nothing: joining the pieces gives the input back. */
  lemma {:induction false} JoinTokenize(m: Marker, s: string, i: nat)
    requires i <= |s|
    ensures Join(m, Tokenize(m, s, i)) == s[i..]
    decreases |s| - i
  {
    if i < |s| {
      var r := MatchAt(m, s, i);
      if r.Some? {
        var e := r.value;
        var n: nat := e + |m.close|;
        JoinTokenize(m, s, n);
        JoinStepMatch(m, s, i, e, n);
      } else {
        var n: nat := i + 1;
        JoinTokenize(m, s, n);
        JoinStepText(m, s, i);
      }
    }
  }

  /** The key of a match has no line terminator and `CLOSE` does not start
      inside it. */
  lemma MatchKeyIsShortest(m: Marker, s: string, i: nat)
    requires i <= |s| && MatchAt(m, s, i).Some?
    ensures var k := KeyOf(m, s, i, MatchAt(m, s, i).value);
            && NoLineTerminator(k)
            && forall j :: 0 <= j < |k| ==> !OccursAt(k + m.close, j, m.close)
  {
    var e := MatchAt(m, s, i).value;
    MatchAtSpec(m, s, i);
    var a := i + |m.open|;
    var k := KeyOf(m, s, i, e);
    var w := k + m.close;
    OccursAtPointwise(s, e, m.close);
    forall x | 0 <= x < |w|
      ensures s[a + x] == w[x]
    {
      if x >= |k| {
        assert w[x] == m.close[x - |k|];
      }
    }
    forall j | 0 <= j < |k|
      ensures !OccursAt(w, j, m.close)
    {
      if OccursAt(w, j, m.close) {
        OccursShift(w, s, a, j, m.close);
      }
    }
  }

  lemma OccursShift(w: string, s: string, a: nat, j: nat, c: string)
    requires a + |w| <= |s| && forall x :: 0 <= x < |w| ==> s[a + x] == w[x]
    requires OccursAt(w, j, c)
    ensures OccursAt(s, a + j, c)
  {
    OccursAtPointwise(w, j, c);
    OccursAtPointwise(s, a + j, c);
    forall x | 0 <= x < |c|
      ensures s[a + j + x] == c[x]
    {
      assert s[a + (j + x)] == w[j + x];
    }
  }

  /** Every key the scan captures is the shortest possible body. */
  lemma {:induction false} TokenizeKeysAreShortest(m: Marker, s: string, i: nat, n: nat)
    requires i <= |s| && n < |Tokenize(m, s, i)| && Tokenize(m, s, i)[n].Ref?
    ensures NoLineTerminator(Tokenize(m, s, i)[n].key)
    ensures forall j :: 0 <= j < |Tokenize(m, s, i)[n].key| ==>
      !OccursAt(Tokenize(m, s, i)[n].key + m.close, j, m.close)
    decreases |s| - i
  {
    match MatchAt(m, s, i)
    case Some(e) =>
      if n == 0 {
        MatchKeyIsShortest(m, s, i);
      } else {
        TokenizeKeysAreShortest(m, s, e + |m.close|, n - 1);
      }
    case None =>
      TokenizeKeysAreShortest(m, s, i + 1, n - 1);
  }

  /** What a piece becomes once its key is looked up: a resolved match is
      replaced by the value, an unresolved one is kept as it was read. */
  function Substituted(m: Marker, p: Piece, lookup: string -> Option<string>): string {
    match p
    case Text(c) => [c]
    case Ref(k) =>
      match lookup(k)
      case Some(v) => v
      case None => MarkerText(m, k)
  }

  function Render(m: Marker, ps: seq<Piece>, lookup: string -> Option<string>): string {
    if |ps| == 0 then [] else Substituted(m, ps[0], lookup) + Render(m, ps[1..], lookup)
  }

  /** The keys of the matches that were replaced. */
  function Resolved(ps: seq<Piece>, lookup: string -> Option<string>): set<string> {
    if |ps| == 0 then {}
    else if ps[0].Ref? && lookup(ps[0].key).Some? then {ps[0].key} + Resolved(ps[1..], lookup)
    else Resolved(ps[1..], lookup)
  }

  /** A key was substituted exactly when some match captured it and it
      resolves. */
  lemma {:induction false} ResolvedIff(ps: seq<Piece>, lookup: string -> Option<string>, k: string)
    ensures k in Resolved(ps, lookup) <==> Ref(k) in ps && lookup(k).Some?
  {
    if |ps| > 0 {
      ResolvedIff(ps[1..], lookup, k);
      assert ps == [ps[0]] + ps[1..];
    }
  }

  /** Output text and substituted keys of one substitution stage. */
  datatype Stage = Stage(text: string, keys: set<string>)

  /** One substitution stage over `s`. */
  function Filter(m: Marker, s: string, lookup: string -> Option<string>): Stage
  {
    var ps := Tokenize(m, s, 0);
    Stage(Render(m, ps, lookup), Resolved(ps, lookup))
  }

  /** The keys a stage reports are exactly the captured keys that resolve. */
  lemma FilterKeysIff(m: Marker, s: string, lookup: string -> Option<string>, k: string)
    ensures k in Filter(m, s, lookup).keys <==> Ref(k) in Tokenize(m, s, 0) && lookup(k).Some?
  {
    ResolvedIff(Tokenize(m, s, 0), lookup, k);
  }

  lemma {:induction false} RenderUnresolvedIsJoin(m: Marker, ps: seq<Piece>, lookup: string -> Option<string>)
    requires forall i :: 0 <= i < |ps| && ps[i].Ref? ==> lookup(ps[i].key).None?
    ensures Render(m, ps, lookup) == Join(m, ps)
    ensures Resolved(ps, lookup) == {}
  {
    if |ps| > 0 {
      RenderUnresolvedIsJoin(m, ps[1..], lookup);
    }
  }

  /** Markers whose keys do not resolve are kept verbatim, and so is all
      other text: with nothing resolvable a stage changes nothing. */
  lemma {:induction false} UnresolvedKeptVerbatim(m: Marker, s: string, lookup: string -> Option<string>)
    requires forall k :: Ref(k) in Tokenize(m, s, 0) ==> lookup(k).None?
    ensures Filter(m, s, lookup) == Stage(s, {})
  {
    var ps := Tokenize(m, s, 0);
    forall i | 0 <= i < |ps| && ps[i].Ref?
      ensures lookup(ps[i].key).None?
    {
      assert Ref(ps[i].key) in ps;
    }
    RenderUnresolvedIsJoin(m, ps, lookup);
    JoinTokenize(m, s, 0);
  }

  /** `Matcher.find` from position `i`: the start and body end of the first
      match at or after `i`. */
  function Find(m: Marker, s: string, i: nat): (r: Option<(nat, nat)>)
    requires i <= |s|
    ensures r.Some? ==> i <= r.value.0 <= |s| && MatchAt(m, s, r.value.0) == Some(r.value.1)
    ensures r.Some? ==> forall j :: i <= j < r.value.0 ==> MatchAt(m, s, j).None?
    ensures r.None? ==> forall j :: i <= j <= |s| ==> MatchAt(m, s, j).None?
    decreases |s| - i
  {
    match MatchAt(m, s, i)
    case Some(e) => Some((i, e))
    case None => if i == |s| then None else Find(m, s, i + 1)
  }

  /** The rendered text of the scan from position `i` on. */
  function RenderFrom(m: Marker, s: string, i: nat, lookup: string -> Option<string>): string
    requires i <= |s|
    decreases |s| - i
  {
    if i == |s| then []
    else match MatchAt(m, s, i)
      case Some(e) => Substituted(m, Ref(KeyOf(m, s, i, e)), lookup) + RenderFrom(m, s, e + |m.close|, lookup)
      case None => [s[i]] + RenderFrom(m, s, i + 1, lookup)
  }

  /** The keys substituted by the scan from position `i` on. */
  function ResolvedFrom(m: Marker, s: string, i: nat, lookup: string -> Option<string>): set<string>
    requires i <= |s|
    decreases |s| - i
  {
    if i == |s| then {}
    else match MatchAt(m, s, i)
      case Some(e) =>
        var k := KeyOf(m, s, i, e);
        (if lookup(k).Some? then {k} else {}) + ResolvedFrom(m, s, e + |m.close|, lookup)
      case None => ResolvedFrom(m, s, i + 1, lookup)
  }

  /** The scan from a position below the end takes one piece: the
      character there, or the whole match starting there. */
  lemma ScanStep(m: Marker, s: string, i: nat, lookup: string -> Option<string>)
    requires i < |s|
    ensures MatchAt(m, s, i).None? ==>
      && RenderFrom(m, s, i, lookup) == [s[i]] + RenderFrom(m, s, i + 1, lookup)
      && ResolvedFrom(m, s, i, lookup) == ResolvedFrom(m, s, i + 1, lookup)
    ensures MatchAt(m, s, i).Some? ==>
      var e := MatchAt(m, s, i).value;
      var k := KeyOf(m, s, i, e);
      && RenderFrom(m, s, i, lookup) == Substituted(m, Ref(k), lookup) + RenderFrom(m, s, e + |m.close|, lookup)
      && ResolvedFrom(m, s, i, lookup) == (if lookup(k).Some? then {k} else {}) + ResolvedFrom(m, s, e + |m.close|, lookup)
  {
  }

  /** Extending the pending (not yet copied) text by a piece of the input. */
  lemma ExtendPending(sb: string, pending: string, piece: string, rest: string, target: string)
    requires sb + pending + (piece + rest) == target
    ensures sb + (pending + piece) + rest == target
  {
  }

  /** Replacing: the pending text and the value are copied to `sb`. */
  lemma FlushPending(sb: string, pending: string, v: string, rest: string, target: string)
    requires sb + pending + (v + rest) == target
    ensures (sb + pending + v) + [] + rest == target
  {
  }

  lemma SliceConcat(s: string, a: nat, b: nat, c: nat)
    requires a <= b <= c <= |s|
    ensures s[a..c] == s[a..b] + s[b..c]
  {
  }

  /** The variables of the `filterResource` loop: the `StringBuffer`, the
      matcher's append position, the position `find` resumes from, and
      the keys collected so far. */
  datatype Cursor = Cursor(sb: string, appendPos: nat, from: nat, keys: set<string>)

  predicate Inside(s: string, c: Cursor) {
    c.appendPos <= c.from <= |s|
  }

  /** One iteration: `find` from `from`; on a match whose key resolves,
      `appendReplacement` copies the text since the last replacement and
      then the value, literally, and the key is collected; a match that
      does not resolve is left in place to be copied later. */
  function Next(m: Marker, s: string, lookup: string -> Option<string>, c: Cursor): (c': Cursor)
    requires Inside(s, c) && c.from < |s|
    ensures Inside(s, c') && c.from < c'.from
  {
    match MatchAt(m, s, c.from)
    case None => c.(from := c.from + 1)
    case Some(e) =>
      var key := KeyOf(m, s, c.from, e);
      match lookup(key)
      case Some(v) => Cursor(c.sb + s[c.appendPos..c.from] + v, e + |m.close|, e + |m.close|, c.keys + {key})
      case None => c.(from := e + |m.close|)
  }

  /** The loop run to the end, followed by `appendTail`. */
  function Scan(m: Marker, s: string, lookup: string -> Option<string>, c: Cursor): Stage
    requires Inside(s, c)
    decreases |s| - c.from
  {
    if c.from == |s| then Stage(c.sb + s[c.appendPos..], c.keys)
    else Scan(m, s, lookup, Next(m, s, lookup, c))
  }

  /** The loop state agrees with the stage: what was appended, the text
      scanned but not yet copied, and what the scan from `from` still
      produces make up the stage's text; likewise for the keys. */
  predicate Emitted(m: Marker, s: string, lookup: string -> Option<string>, c: Cursor, target: Stage) {
    && Inside(s, c)
    && c.sb + s[c.appendPos..c.from] + RenderFrom(m, s, c.from, lookup) == target.text
    && c.keys + ResolvedFrom(m, s, c.from, lookup) == target.keys
  }

  lemma StepText(m: Marker, s: string, lookup: string -> Option<string>, c: Cursor, target: Stage)
    requires Inside(s, c) && c.from < |s| && MatchAt(m, s, c.from).None?
    requires Emitted(m, s, lookup, c, target)
    ensures Emitted(m, s, lookup, Next(m, s, lookup, c), target)
  {
    var from := c.from;
    var rest := RenderFrom(m, s, from + 1, lookup);
    assert Next(m, s, lookup, c) == c.(from := from + 1);
    assert RenderFrom(m, s, from, lookup) == [s[from]] + rest;
    assert ResolvedFrom(m, s, from, lookup) == ResolvedFrom(m, s, from + 1, lookup);
    SliceConcat(s, c.appendPos, from, from + 1);
    assert s[from..from + 1] == [s[from]];
    ExtendPending(c.sb, s[c.appendPos..from], [s[from]], rest, target.text);
  }

  lemma StepUnresolved(m: Marker, s: string, lookup: string -> Option<string>, c: Cursor, target: Stage, e: nat)
    requires Inside(s, c) && c.from < |s| && MatchAt(m, s, c.from) == Some(e)
    requires lookup(KeyOf(m, s, c.from, e)).None?
    requires Emitted(m, s, lookup, c, target)
    ensures Emitted(m, s, lookup, c.(from := e + |m.close|), target)
  {
    var from := c.from;
    var end := e + |m.close|;
    var key := KeyOf(m, s, from, e);
    var rest := RenderFrom(m, s, end, lookup);
    assert RenderFrom(m, s, from, lookup) == MarkerText(m, key) + rest;
    MatchText(m, s, from);
    SliceConcat(s, c.appendPos, from, end);
    ExtendPending(c.sb, s[c.appendPos..from], MarkerText(m, key), rest, target.text);
  }

  lemma StepResolved(m: Marker, s: string, lookup: string -> Option<string>, c: Cursor, target: Stage, e: nat)
    requires Inside(s, c) && c.from < |s| && MatchAt(m, s, c.from) == Some(e)
    requires lookup(KeyOf(m, s, c.from, e)).Some?
    requires Emitted(m, s, lookup, c, target)
    ensures var key := KeyOf(m, s, c.from, e);
            Emitted(m, s, lookup, Cursor(c.sb + s[c.appendPos..c.from] + lookup(key).value,
                                         e + |m.close|, e + |m.close|, c.keys + {key}), target)
  {
    var from := c.from;
    var end := e + |m.close|;
    var key := KeyOf(m, s, from, e);
    var v := lookup(key).value;
    var rest := RenderFrom(m, s, end, lookup);
    assert RenderFrom(m, s, from, lookup) == v + rest;
    assert s[end..end] == [];
    FlushPending(c.sb, s[c.appendPos..from], v, rest, target.text);
  }

  /** Every iteration keeps the loop state in agreement with the stage. */
  lemma NextKeepsEmitted(m: Marker, s: string, lookup: string -> Option<string>, c: Cursor, target: Stage)
    requires Inside(s, c) && c.from < |s|
    requires Emitted(m, s, lookup, c, target)
    ensures Emitted(m, s, lookup, Next(m, s, lookup, c), target)
  {
    match MatchAt(m, s, c.from)
    case None => StepText(m, s, lookup, c, target);
    case Some(e) =>
      if lookup(KeyOf(m, s, c.from, e)).Some? {
        StepResolved(m, s, lookup, c, target, e);
      } else {
        StepUnresolved(m, s, lookup, c, target, e);
      }
  }

  /** From any state that agrees with the stage, the loop completes it. */
  lemma {:induction false} ScanCompletes(m: Marker, s: string, lookup: string -> Option<string>, c: Cursor, target: Stage)
    requires Inside(s, c)
    requires Emitted(m, s, lookup, c, target)
    ensures Scan(m, s, lookup, c) == target
    decreases |s| - c.from
  {
    if c.from == |s| {
      assert s[c.appendPos..] == s[c.appendPos..c.from];
    } else {
      NextKeepsEmitted(m, s, lookup, c, target);
      ScanCompletes(m, s, lookup, Next(m, s, lookup, c), target);
    }
  }

  /** Run from the start, the loop produces the stage. */
  lemma ScanIsFilter(m: Marker, s: string, lookup: string -> Option<string>)
    ensures Scan(m, s, lookup, Cursor([], 0, 0, {})) == Filter(m, s, lookup)
  {
    RenderFromIsRender(m, s, 0, lookup);
    ScanCompletes(m, s, lookup, Cursor([], 0, 0, {}), Filter(m, s, lookup));
  }

  /** The body of the `filterResource` loop: one `find` and, when the key
      resolves, one `appendReplacement`. */
  method FindAndReplace(m: Marker, s: string, lookup: string -> Option<string>,
                        sb: string, appendPos: nat, from: nat, keys: set<string>)
    returns (sb': string, appendPos': nat, from': nat, keys': set<string>)
    requires appendPos <= from < |s|
    ensures Cursor(sb', appendPos', from', keys') == Next(m, s, lookup, Cursor(sb, appendPos, from, keys))
  {
    sb', appendPos', keys' := sb, appendPos, keys;
    var found := MatchAt(m, s, from);
    if found.Some? {
      var e := found.value;
      var key := KeyOf(m, s, from, e);
      var val := lookup(key);
      if val.Some? {
        sb' := sb + s[appendPos..from] + val.value;
        appendPos' := e + |m.close|;
        keys' := keys + {key};
      }
      from' := e + |m.close|;
    } else {
      from' := from + 1;
    }
  }

  /** The loop of `filterResource`, then `appendTail`: the text and keys it
      returns are those of the stage. */
  method FilterResource(m: Marker, s: string, lookup: string -> Option<string>)
    returns (out: string, keys: set<string>)
    ensures Stage(out, keys) == Filter(m, s, lookup)
  {
    ScanIsFilter(m, s, lookup);
    var sb: string := [];
    var appendPos: nat := 0;
    var from: nat := 0;
    keys := {};
    while from < |s|
      invariant Inside(s, Cursor(sb, appendPos, from, keys))
      invariant Scan(m, s, lookup, Cursor(sb, appendPos, from, keys)) == Filter(m, s, lookup)
      decreases |s| - from
    {
      sb, appendPos, from, keys := FindAndReplace(m, s, lookup, sb, appendPos, from, keys);
    }
    out := sb + s[appendPos..];
  }

  lemma RenderCons(m: Marker, p: Piece, ps: seq<Piece>, lookup: string -> Option<string>)
    ensures Render(m, [p] + ps, lookup) == Substituted(m, p, lookup) + Render(m, ps, lookup)
    ensures Resolved([p] + ps, lookup) ==
      (if p.Ref? && lookup(p.key).Some? then {p.key} else {}) + Resolved(ps, lookup)
  {
    assert ([p] + ps)[1..] == ps;
  }

  /** The position-wise scan renders the same text and keys as the pieces. */
  lemma {:induction false} RenderFromIsRender(m: Marker, s: string, i: nat, lookup: string -> Option<string>)
    requires i <= |s|
    ensures RenderFrom(m, s, i, lookup) == Render(m, Tokenize(m, s, i), lookup)
    ensures ResolvedFrom(m, s, i, lookup) == Resolved(Tokenize(m, s, i), lookup)
    decreases |s| - i
  {
    if i < |s| {
      TokenizeStep(m, s, i);
      ScanStep(m, s, i, lookup);
      match MatchAt(m, s, i)
      case Some(e) =>
        RenderFromIsRender(m, s, e + |m.close|, lookup);
        RenderCons(m, Ref(KeyOf(m, s, i, e)), Tokenize(m, s, e + |m.close|), lookup);
      case None =>
        RenderFromIsRender(m, s, i + 1, lookup);
        RenderCons(m, Text(s[i]), Tokenize(m, s, i + 1), lookup);
    }
  }
}

=== FILE: registry.dfy ===
/** The dependency registry: for every rendered resource, the configuration
    keys its last render consumed. The source keeps it in a Guava
    `TreeMultimap<String, String>`; a set-valued multimap never stores a
    resource with no keys, which `Wf` states. */
module DependencyRegistry {

  type Registry = map<string, set<string>>

  /** A multimap holds no resource whose key collection is empty. */
  predicate Wf(reg: Registry) {
    forall r :: r in reg ==> reg[r] != {}
  }

  /** `Multimap.get(r)` viewed as a set: empty when `r` has no entry. */
  function KeysOf(reg: Registry, r: string): set<string> {
    if r in reg then reg[r] else {}
  }

  /** Two well-formed registries are equal exactly when they agree on the
      keys of every resource. */
  lemma {:induction false} Extensionality(a: Registry, b: Registry)
    requires Wf(a) && Wf(b)
    requires forall r :: KeysOf(a, r) == KeysOf(b, r)
    ensures a == b
  {
    forall r | r in a
      ensures r in b && a[r] == b[r]
    {
      assert KeysOf(a, r) == a[r];
    }
    forall r | r in b
      ensures r in a
    {
      assert KeysOf(b, r) == b[r];
    }
  }

  /** `Multimap.removeAll(r)`: forget everything recorded for `r`. */
  function RemoveAll(reg: Registry, r: string): (reg': Registry)
    ensures Wf(reg) ==> Wf(reg')
    ensures KeysOf(reg', r) == {}
    ensures forall o :: o != r ==> KeysOf(reg', o) == KeysOf(reg, o)
    ensures reg'.Keys == reg.Keys - {r}
  {
    reg - {r}
  }

  /** `Multimap.putAll(r, keys)`: add `keys` to what is recorded for `r`;
      adding nothing leaves the multimap as it was. */
  function PutAll(reg: Registry, r: string, keys: set<string>): (reg': Registry)
    ensures Wf(reg) ==> Wf(reg')
    ensures KeysOf(reg', r) == KeysOf(reg, r) + keys
    ensures forall o :: o != r ==> KeysOf(reg', o) == KeysOf(reg, o)
    ensures reg'.Keys == reg.Keys + (if keys == {} then {} else {r})
  {
    if keys == {} then reg else reg[r := KeysOf(reg, r) + keys]
  }

  /** Clearing an entry and then adding a key set leaves exactly that key set
      for the resource, whatever was recorded before: an entry is replaced,
      never merged with a stale one. */
  lemma ReplaceForgetsStaleKeys(reg: Registry, r: string, keys: set<string>)
    ensures KeysOf(PutAll(RemoveAll(reg, r), r, keys), r) == keys
  {
  }

  /** Replacing an entry twice with the same keys is the same as doing it once. */
  lemma {:induction false} ReplaceIdempotent(reg: Registry, r: string, keys: set<string>)
    requires Wf(reg)
    ensures var once := PutAll(RemoveAll(reg, r), r, keys);
            PutAll(RemoveAll(once, r), r, keys) == once
  {
    var once := PutAll(RemoveAll(reg, r), r, keys);
    var twice := PutAll(RemoveAll(once, r), r, keys);
    forall o
      ensures KeysOf(twice, o) == KeysOf(once, o)
    {
    }
    Extensionality(twice, once);
  }

  /** The resources that depend on `key` (reverse lookup). */
  function Dependents(reg: Registry, key: string): (rs: set<string>)
    ensures forall r :: r in rs <==> key in KeysOf(reg, r)
  {
    set r | r in reg.Keys && key in reg[r]
  }
}

=== FILE: resolver.dfy ===
/** The `PropertyResolver` interface as the deployer uses it, dispatched
    over its two implementations. Everything a resolver reads from outside
    the program is bundled in a `Host`. */
module Resolvers {
  import opened Common
  import opened ConfigFiles
  import opened DependencyRegistry
  import opened PropertyResolverSpi
  import SimpleResolver
  import SpringResolver

  /** The world outside the program: property files on disk, the JVM's
      system properties, Spring's loader for a source URI, and the
      resolution of a `file:` URI to an absolute path. */
  datatype Host = Host(
    fs: FileSystem,
    sysProps: map<string, string>,
    load: string -> SpringResolver.LoadOutcome,
    absPath: string -> string)

  datatype Resolver =
    | FromFiles(simple: SimpleResolver.Simple)
    | FromSpring(spring: SpringResolver.Spring)

  /** `getProperty`: the simple resolver's built-in value or snapshot
      value; the Spring environment's first non-null value. */
  function GetProperty(r: Resolver, h: Host, key: string): (v: Option<string>)
    ensures r.FromFiles? ==>
      var b := SimpleResolver.GetBuiltin(r.simple, h.sysProps, key);
      v == if b.Some? then b else Get(r.simple.config, key)
    ensures r.FromSpring? ==>
      (v.Some? <==> exists j :: 0 <= j < |r.spring.sources| && SpringResolver.Supplies(r.spring.sources[j], key))
    ensures r.FromSpring? && v.Some? ==>
      exists j :: (0 <= j < |r.spring.sources| && SpringResolver.Supplies(r.spring.sources[j], key)
        && v == r.spring.sources[j].props[key]
        && forall x :: 0 <= x < j ==> !SpringResolver.Supplies(r.spring.sources[x], key))
  {
    match r
    case FromFiles(s) => SimpleResolver.GetProperty(s, h.sysProps, key)
    case FromSpring(s) => SpringResolver.GetProperty(s, key)
  }

  /** `isMutable`. */
  predicate IsMutable(r: Resolver, h: Host, key: string) {
    match r
    case FromFiles(s) => SimpleResolver.IsMutable(s, h.sysProps, key)
    case FromSpring(s) => SpringResolver.IsMutable(s, key)
  }

  /** `getTrackedSources`, computed afresh from the current state. */
  function TrackedSources(r: Resolver, h: Host): (t: set<string>)
    ensures r.FromFiles? ==> forall f :: f in t <==> f in r.simple.configFiles
    ensures r.FromSpring? ==> forall p :: p in t <==>
      exists i :: 0 <= i < |r.spring.sources| && SpringResolver.TrackedSource(r.spring.sources[i], h.absPath) == Some(p)
  {
    match r
    case FromFiles(s) => SimpleResolver.TrackedSources(s)
    case FromSpring(s) => SpringResolver.TrackedSources(s.sources, h.absPath)
  }

  /** What `initialize` leaves: the simple resolver with a fresh merge of
      its files and nothing else changed; the Spring resolver with its
      tracked sources recorded and its sources kept. */
  function Initialized(r: Resolver, h: Host): (r': Resolver)
    ensures r'.FromFiles? <==> r.FromFiles?
    ensures r.FromFiles? ==>
      && r'.simple.config == Merged(h.fs, r.simple.configFiles)
      && r'.simple.configFiles == r.simple.configFiles && r'.simple.outputBase == r.simple.outputBase
    ensures r.FromSpring? ==>
      r'.spring.sources == r.spring.sources && r'.spring.trackedSources == TrackedSources(r, h)
  {
    match r
    case FromFiles(s) => FromFiles(s.(config := Merged(h.fs, s.configFiles)))
    case FromSpring(s) => FromSpring(SpringResolver.Initialize(s, h.absPath))
  }

  /** `initialize`, dispatched: the implementations compute `Initialized`. */
  method Initialize(r: Resolver, h: Host) returns (r': Resolver)
    ensures r' == Initialized(r, h)
  {
    match r
    case FromFiles(s) =>
      var s' := SimpleResolver.Initialize(s, h.fs);
      r' := FromFiles(s');
    case FromSpring(s) =>
      r' := FromSpring(SpringResolver.Initialize(s, h.absPath));
  }

  /** What a rescan by the Spring resolver `before` leaves: a Spring
      resolver with the same tracked files and as many sources; when no
      load crashes, every source reloaded and `affected` the resources the
      change of the flattened view invalidates; after a crash, nothing
      affected and the walk stopped at the source that crashed. */
  predicate SpringRescanned(before: SpringResolver.Spring, after: Resolver, h: Host, reg: Registry, affected: set<string>) {
    && after.FromSpring?
    && after.spring.trackedSources == before.trackedSources
    && |after.spring.sources| == |before.sources|
    && var clean := forall i :: 0 <= i < |before.sources| ==> SpringResolver.ReloadOne(before.sources[i], h.load).Some?;
       && (clean ==>
             && (forall i :: 0 <= i < |before.sources| ==>
                   after.spring.sources[i] == SpringResolver.ReloadOne(before.sources[i], h.load).value)
             && affected == AffectedResources(SpringResolver.Flattened(before.sources), SpringResolver.Flattened(after.spring.sources), reg))
       && (!clean ==>
             && affected == {}
             && exists c :: 0 <= c < |before.sources| && SpringResolver.StoppedAt(before.sources, after.spring.sources, h.load, c))
  }

  /** `scanPropertyChanges`, dispatched. The simple resolver reports the
      resources invalidated between its snapshot and a fresh merge, which
      becomes the snapshot. The Spring resolver reports those invalidated
      between the flattened views before and after a completed reload, and
      nothing when the reload crashed. Either way only registered
      resources are reported. */
  method ScanPropertyChanges(r: Resolver, h: Host, reg: Registry)
    returns (affected: set<string>, r': Resolver)
    ensures affected <= reg.Keys
    ensures r'.FromFiles? <==> r.FromFiles?
    ensures r.FromFiles? ==>
      && affected == AffectedResources(r.simple.config, Merged(h.fs, r.simple.configFiles), reg)
      && r'.simple == r.simple.(config := Merged(h.fs, r.simple.configFiles))
    ensures r.FromSpring? ==> SpringRescanned(r.spring, r', h, reg, affected)
  {
    match r
    case FromFiles(s) =>
      var s';
      affected, s' := SimpleResolver.ScanPropertyChanges(s, h.fs, reg);
      AffectedAreRegistered(s.config, Merged(h.fs, s.configFiles), reg);
      r' := FromFiles(s');
    case FromSpring(s) =>
      var s';
      affected, s' := SpringResolver.ScanPropertyChanges(s, reg, h.load);
      r' := FromSpring(s');
  }
}

=== FILE: resources.dfy ===
/** What both deployers share about the resources they install: where a
    resource is written, whether it is filtered, and what the template
    engine can do with it. Both `ResourceDeployer` classes hold identical
    code for these. */
module Resources {
  import opened Common
  import opened Markers

  /** The exceptions that escape the deployers' operations. */
  datatype Error =
    | MissingResource(resource: string)    // `Resources.getResource` finds nothing
    | BadResourceName(resource: string)    // `resourceToFilename` on a short name
    | UnreadableTemplate(resource: string) // the template fails to parse
    | InvalidPattern(pattern: string)      // `addFilterExclusion` on a non-pattern
    | NoFilterSection                      // the deployer YAML has no `filter` map

  /** `RESOURCE_PREFIX`: the class-path folder whose entries are deployed. */
  const ResourcePrefix := "META-INF/q2-runtime"

  /** `RESOURCE_PREFIX.length() + 1`: the prefix and the separator after it. */
  const PrefixLength := |ResourcePrefix| + 1

  /** `resourceToFilename`: `substring(20)`, which throws for a shorter
      name (`None`). The first 20 characters are dropped whatever they are:
      the prefix is never checked. */
  function ResourceToFilename(r: string): (f: Option<string>)
    ensures f.Some? <==> |r| >= 20
    ensures f.Some? ==> |f.value| == |r| - 20 && forall i :: 0 <= i < |f.value| ==> f.value[i] == r[i + 20]
  {
    if |r| < PrefixLength then None else Some(r[PrefixLength..])
  }

  /** The resource name a file is deployed from. */
  function ResourceFor(filename: string): string {
    ResourcePrefix + "/" + filename
  }

  /** Every file name comes back from the resource it is deployed from, and
      every resource under the prefix folder comes back from its file name. */
  lemma FilenameRoundTrip(filename: string, r: string)
    ensures ResourceToFilename(ResourceFor(filename)) == Some(filename)
    ensures StartsWith(r, ResourcePrefix + "/") ==>
      ResourceToFilename(r).Some? && ResourceFor(ResourceToFilename(r).value) == r
  {
    var p := ResourcePrefix + "/";
    assert |p| == 20;
    assert (p + filename)[20..] == filename;
    if StartsWith(r, p) {
      assert r == r[..20] + r[20..];
    }
  }

  /** Two names that differ only in their first 20 characters land on the
      same file, so the prefix check the name suggests is not made. */
  lemma PrefixIsNotChecked()
    ensures ResourceToFilename("META-INF/q2-runtimeXa.xml") == ResourceToFilename(ResourceFor("a.xml"))
  {
    assert "META-INF/q2-runtimeXa.xml"[20..] == "a.xml";
    FilenameRoundTrip("a.xml", "");
  }

  /** `AntPathMatcher`, whose code is not part of this model: which strings
      it accepts as patterns, and which paths a pattern matches. */
  datatype PathMatcher = PathMatcher(isPattern: string -> bool, matches: (string, string) -> bool)

  /** Some pattern of `exclusions`, from `i` on, matches `filename`. */
  predicate AnyMatch(pm: PathMatcher, exclusions: seq<string>, filename: string, i: nat)
    requires i <= |exclusions|
    decreases |exclusions| - i
  {
    i < |exclusions| && (pm.matches(exclusions[i], filename) || AnyMatch(pm, exclusions, filename, i + 1))
  }

  lemma {:induction false} AnyMatchIff(pm: PathMatcher, exclusions: seq<string>, filename: string, i: nat)
    requires i <= |exclusions|
    ensures AnyMatch(pm, exclusions, filename, i) <==>
      exists j :: i <= j < |exclusions| && pm.matches(exclusions[j], filename)
    decreases |exclusions| - i
  {
    if i < |exclusions| {
      AnyMatchIff(pm, exclusions, filename, i + 1);
      if AnyMatch(pm, exclusions, filename, i + 1) {
        var j :| i + 1 <= j < |exclusions| && pm.matches(exclusions[j], filename);
      }
    }
  }

  /** `isResourceFilterable`: no exclusion pattern matches the file name.
      The file name is computed inside the match, so a name too short for
      it throws (`None`), except that nothing is computed when there are no
      exclusions. */
  function IsResourceFilterable(pm: PathMatcher, exclusions: seq<string>, r: string): (b: Option<bool>)
    ensures b.None? <==> |exclusions| > 0 && |r| < 20
    ensures b == Some(true) <==>
      |exclusions| == 0 || (|r| >= 20 && forall j :: 0 <= j < |exclusions| ==> !pm.matches(exclusions[j], r[20..]))
  {
    if |exclusions| == 0 then Some(true)
    else match ResourceToFilename(r)
      case None => None
      case Some(f) =>
        AnyMatchIff(pm, exclusions, f, 0);
        Some(!AnyMatch(pm, exclusions, f, 0))
  }

  /** What FreeMarker does with a document: renders it, reporting the
      property keys the template read; fails while processing
      (`TemplateException`, which the deployers catch); or fails to parse
      (an `IOException` from `getTemplate`, which they do not). */
  datatype TemplateOutcome =
    | Rendered(text: string, keys: set<string>)
    | ProcessingFailed
    | ParseFailed

  /** The template engine, given the resource name, the document and the
      property lookup the template sees. */
  type TemplateEngine = (string, string, string -> Option<string>) -> TemplateOutcome

  /** The two marker stages: `${K}` on the document, then `@@K@@` on the
      result. */
  function Stages(doc: string, lookup: string -> Option<string>): (st: (Stage, Stage))
    ensures st.0 == Filter(Brace, doc, lookup) && st.1 == Filter(AtSign, st.0.text, lookup)
  {
    var s1 := Filter(Brace, doc, lookup);
    (s1, Filter(AtSign, s1.text, lookup))
  }

  /** Every key a marker stage reports was resolved. */
  lemma StageKeysResolve(m: Marker, s: string, lookup: string -> Option<string>, k: string)
    requires k in Filter(m, s, lookup).keys
    ensures lookup(k).Some?
  {
    FilterKeysIff(m, s, lookup, k);
  }

  /** A document in which no marker of either kind resolves comes through
      the two stages unchanged, with no keys. */
  lemma {:induction false} UnresolvedDocumentUnchanged(doc: string, lookup: string -> Option<string>)
    requires forall k :: Ref(k) in Tokenize(Brace, doc, 0) ==> lookup(k).None?
    requires forall k :: Ref(k) in Tokenize(AtSign, doc, 0) ==> lookup(k).None?
    ensures Stages(doc, lookup) == (Stage(doc, {}), Stage(doc, {}))
  {
    UnresolvedKeptVerbatim(Brace, doc, lookup);
    UnresolvedKeptVerbatim(AtSign, doc, lookup);
  }

  /** The entries that are filterable, in order, as both
      `installRuntimeResources` collect them before installing anything;
      the first entry that cannot be classified throws. */
  method ClassifyAll(pm: PathMatcher, exclusions: seq<string>, entries: seq<string>)
    returns (filtered: seq<string>, error: Option<Error>)
    ensures error.None? <==> forall i :: 0 <= i < |entries| ==> IsResourceFilterable(pm, exclusions, entries[i]).Some?
    ensures error.None? ==>
      forall x :: x in filtered <==> x in entries && IsResourceFilterable(pm, exclusions, x) == Some(true)
    ensures error.Some? ==> exists i :: 0 <= i < |entries| && error == Some(BadResourceName(entries[i]))
  {
    filtered := [];
    var i := 0;
    while i < |entries|
      invariant 0 <= i <= |entries|
      invariant forall j :: 0 <= j < i ==> IsResourceFilterable(pm, exclusions, entries[j]).Some?
      invariant forall x :: x in filtered <==> x in entries[..i] && IsResourceFilterable(pm, exclusions, x) == Some(true)
      decreases |entries| - i
    {
      var b := IsResourceFilterable(pm, exclusions, entries[i]);
      if b.None? {
        return filtered, Some(BadResourceName(entries[i]));
      }
      assert entries[..i + 1] == entries[..i] + [entries[i]];
      if b.value {
        filtered := filtered + [entries[i]];
      }
      i := i + 1;
    }
    assert entries[..i] == entries;
    error := None;
  }
}

=== FILE: simple_resolver.dfy ===
/** `SimplePropertyResolver`: configuration from an ordered list of
    property files, plus two built-in keys that are answered without the
    files — `env:NAME`, a system property, and `basedir`, the output
    directory. Built-in keys are immutable: a resource that used one is
    never re-rendered because of it. */
module SimpleResolver {
  import opened Common
  import opened ConfigFiles
  import opened DependencyRegistry
  import opened PropertyResolverSpi

  /** The file every new resolver starts with. */
  const DefaultConfigFile := "cfg/config.properties"
  const EnvPrefix := "env:"

  /** `outputBase` is held as its absolute path; `config` is the snapshot
      taken by the last `initialize` or rescan. */
  datatype Simple = Simple(outputBase: string, config: Properties, configFiles: seq<string>)

  /** The constructor with `setupDefaults`. */
  function NewSimple(outputBase: string): (r: Simple)
    ensures r.configFiles == [DefaultConfigFile]
    ensures r.config == map[] && r.outputBase == outputBase
  {
    Simple(outputBase, map[], [DefaultConfigFile])
  }

  /** `key.startsWith("env:") && key.trim().length() > 4`. */
  predicate IsEnvKey(key: string) {
    StartsWith(key, EnvPrefix) && |Trim(key)| > |EnvPrefix|
  }

  /** Since an `env:` key starts with a non-blank character, trimming only
      shortens its end: the key names a variable exactly when something
      other than blanks follows the prefix. */
  lemma {:induction false} EnvKeyIff(key: string)
    requires StartsWith(key, EnvPrefix)
    ensures IsEnvKey(key) <==> exists i :: 4 <= i < |key| && !IsBlank(key[i])
  {
    assert key[0] == 'e';
    var l := TrimLeading(key);
    assert !IsBlank(key[0]);
    assert |l| == |key|;
    assert l == key;
    var t := Trim(key);
    assert t == key[..|t|];
    if |t| > 4 {
      assert !IsBlank(t[|t| - 1]);
      assert key[|t| - 1] == t[|t| - 1];
    }
    if exists i :: 4 <= i < |key| && !IsBlank(key[i]) {
      var i :| 4 <= i < |key| && !IsBlank(key[i]);
      assert i < |t|;
    }
  }

  /** `getBuiltin`: the system property named after the prefix for an
      `env:` key (absent when that property is not set), the output base for
      `basedir`, and nothing for any other key. */
  function GetBuiltin(r: Simple, sysProps: map<string, string>, key: string): (v: Option<string>)
    ensures IsEnvKey(key) ==> v == Get(sysProps, key[4..])
    ensures !IsEnvKey(key) && key == "basedir" ==> v == Some(r.outputBase)
    ensures !IsEnvKey(key) && key != "basedir" ==> v.None?
  {
    if IsEnvKey(key) then Get(sysProps, key[|EnvPrefix|..])
    else if key == "basedir" then Some(r.outputBase)
    else None
  }

  /** `getProperty`: a built-in value takes precedence over the files. */
  function GetProperty(r: Simple, sysProps: map<string, string>, key: string): (v: Option<string>)
    ensures GetBuiltin(r, sysProps, key).Some? ==> v == GetBuiltin(r, sysProps, key)
    ensures GetBuiltin(r, sysProps, key).None? ==> v == Get(r.config, key)
  {
    match GetBuiltin(r, sysProps, key)
    case Some(b) => Some(b)
    case None => Get(r.config, key)
  }

  /** `isMutable`: a key is mutable unless it has a built-in value. An
      `env:` key whose system property is unset therefore counts as
      mutable, and `basedir` never does. */
  predicate IsMutable(r: Simple, sysProps: map<string, string>, key: string) {
    GetBuiltin(r, sysProps, key).None?
  }

  lemma MutableIff(r: Simple, sysProps: map<string, string>, key: string)
    ensures IsMutable(r, sysProps, key) <==>
      if IsEnvKey(key) then key[4..] !in sysProps else key != "basedir"
  {
  }

  /** `addConfigFile`: appended, so it overrides every file before it. */
  function AddConfigFile(r: Simple, fname: string): (r': Simple)
    ensures r'.configFiles == r.configFiles + [fname]
    ensures r'.config == r.config && r'.outputBase == r.outputBase
  {
    r.(configFiles := r.configFiles + [fname])
  }

  /** `removeConfigFile`: `List.remove`, so only the first occurrence goes. */
  function RemoveConfigFile(r: Simple, fname: string): (r': Simple)
    ensures fname !in r.configFiles ==> r' == r
    ensures |r'.configFiles| == if fname in r.configFiles then |r.configFiles| - 1 else |r.configFiles|
    ensures r'.config == r.config && r'.outputBase == r.outputBase
  {
    r.(configFiles := RemoveFirst(r.configFiles, fname))
  }

  /** Removing a name that occurs twice leaves the later occurrence. */
  lemma RemoveKeepsLaterCopy(r: Simple, fname: string, i: nat, j: nat)
    requires i < j < |r.configFiles| && r.configFiles[i] == fname && r.configFiles[j] == fname
    requires fname !in r.configFiles[..i]
    ensures RemoveConfigFile(r, fname).configFiles[j - 1] == fname
  {
    RemoveFirstSplits(r.configFiles, fname, i);
  }

  /** `getTrackedSources`: the configured names, whether or not the files
      exist. */
  function TrackedSources(r: Simple): (t: set<string>)
    ensures forall f :: f in t <==> f in r.configFiles
  {
    set f | f in r.configFiles
  }

  /** Every key of `props` that `c` lacks is added; the keys `c` has keep
      their values. */
  method PutAbsent(c: Properties, props: Properties) returns (c': Properties)
    ensures c' == props + c
  {
    c' := c;
    var names := props.Keys;
    while names != {}
      invariant names <= props.Keys
      invariant c' == (map k | k in props.Keys - names :: props[k]) + c
      decreases names
    {
      var name :| name in names;
      if name !in c' {
        c' := c'[name := props[name]];
      }
      names := names - {name};
    }
    assert props.Keys - names == props.Keys;
  }

  /** `readConfigFiles`: the list is walked in reverse and a key is taken
      from the first file, in that order, that defines it. */
  method ReadConfigFiles(fs: FileSystem, files: seq<string>) returns (c: Properties)
    ensures c == Merged(fs, files)
  {
    c := map[];
    var i := |files|;
    while i > 0
      invariant 0 <= i <= |files|
      invariant c == Merged(fs, files[i..])
      decreases i
    {
      i := i - 1;
      var f := files[i];
      assert files[i..] == [f] + files[i + 1..];
      MergedCons(fs, f, files[i + 1..]);
      if f in fs {
        c := PutAbsent(c, fs[f].props);
      }
    }
    assert files[0..] == files;
  }

  /** `initialize`: the snapshot is replaced by a fresh merge. */
  method Initialize(r: Simple, fs: FileSystem) returns (r': Simple)
    ensures r'.config == Merged(fs, r.configFiles)
    ensures r'.configFiles == r.configFiles && r'.outputBase == r.outputBase
  {
    var c := ReadConfigFiles(fs, r.configFiles);
    r' := r.(config := c);
  }

  /** `scanPropertyChanges`: the resources invalidated between the held
      snapshot and a fresh merge; the fresh merge becomes the snapshot. */
  method ScanPropertyChanges(r: Simple, fs: FileSystem, reg: Registry)
    returns (affected: set<string>, r': Simple)
    ensures affected == AffectedResources(r.config, Merged(fs, r.configFiles), reg)
    ensures r'.config == Merged(fs, r.configFiles)
    ensures r'.configFiles == r.configFiles && r'.outputBase == r.outputBase
  {
    var newConfig := ReadConfigFiles(fs, r.configFiles);
    affected := CalculateAffectedResources(r.config, newConfig, reg);
    r' := r.(config := newConfig);
  }

  /** A second scan over unchanged files reports nothing. */
  lemma {:induction false} RescanIsQuiet(r: Simple, fs: FileSystem, reg: Registry)
    ensures var r' := r.(config := Merged(fs, r.configFiles));
            AffectedResources(r'.config, Merged(fs, r'.configFiles), reg) == {}
  {
    EqualConfigsAffectNothing(Merged(fs, r.configFiles), reg);
  }
}

=== FILE: spring_resolver.dfy ===
/** `SpringPropertyResolver`: configuration taken from a Spring environment,
    an ordered list of property sources searched first to last. A source
    loaded from a file has a name of the form `applicationConfig: [URI]`;
    only sources whose URI starts with `file:` are mutable, tracked and
    reloaded. */
module SpringResolver {
  import opened Common
  import opened Markers
  import opened DependencyRegistry
  import opened PropertyResolverSpi

  /** A property source: its name, whether it can list its property names
      (`EnumerablePropertySource`), and its properties, where `None` is a
      name the source holds with a null value. */
  datatype PropertySource = PropertySource(name: string, enumerable: bool, props: map<string, Option<string>>)

  /** The Spring resolver: the environment's sources and the file paths
      recorded by `initialize`. */
  datatype Spring = Spring(sources: seq<PropertySource>, trackedSources: set<string>)

  /** The pattern `applicationConfig: \[(.*?)\]`. */
  const AppConfig: Marker := Delimiters("applicationConfig: [", "]")
  const FileScheme := "file:"

  /** The URI in a source name: the group of the first match of the
      pattern, if there is one. */
  function SourceUri(src: PropertySource): (u: Option<string>)
    ensures u.Some? ==> NoLineTerminator(u.value)
  {
    match Find(AppConfig, src.name, 0)
    case Some((i, e)) =>
      MatchTextFree(src.name, i, e);
      Some(KeyOf(AppConfig, src.name, i, e))
    case None => None
  }

  lemma MatchTextFree(s: string, i: nat, e: nat)
    requires i <= |s| && MatchAt(AppConfig, s, i) == Some(e)
    ensures NoLineTerminator(KeyOf(AppConfig, s, i, e))
  {
    MatchKeyIsShortest(AppConfig, s, i);
  }

  /** A name built from a URI without line terminators or `]` gives that
      URI back. */
  lemma {:induction false} SourceUriOfName(u: string, enumerable: bool, props: map<string, Option<string>>)
    requires NoLineTerminator(u) && ']' !in u
    ensures SourceUri(PropertySource(AppConfig.open + u + AppConfig.close, enumerable, props)) == Some(u)
  {
    var m := AppConfig;
    var s := m.open + u + m.close;
    var b := |m.open| + |u|;
    OccursAtSlice(s, 0, m.open);
    assert s[0..|m.open|] == m.open;
    OccursAtSlice(s, b, m.close);
    assert s[b..b + |m.close|] == m.close;
    assert LineFree(s, |m.open|, b) by {
      forall j | |m.open| <= j < b
        ensures !IsLineTerminator(s[j])
      {
        assert s[j] == u[j - |m.open|];
      }
    }
    forall x | |m.open| <= x < b
      ensures !OccursAt(s, x, m.close)
    {
      assert s[x] == u[x - |m.open|];
      OccursAtPointwise(s, x, m.close);
    }
    MatchAtSpec(m, s, 0);
    var r := MatchAt(m, s, 0);
    assert r.Some?;
    assert r.value == b;
    assert s[|m.open|..b] == u;
  }

  /** `isMutableSource`: the source came from a `file:` URI. */
  predicate IsMutableSource(src: PropertySource) {
    SourceUri(src).Some? && StartsWith(SourceUri(src).value, FileScheme)
  }

  /** `getTrackedSource`: the absolute path of a `file:` source, where
      `absPath` stands for resolving the URI to a file on disk. */
  function TrackedSource(src: PropertySource, absPath: string -> string): (p: Option<string>)
    ensures p.Some? <==> SourceUri(src).Some? && StartsWith(SourceUri(src).value, FileScheme)
    ensures p.Some? ==> p.value == absPath(SourceUri(src).value)
  {
    match SourceUri(src)
    case Some(uri) => if StartsWith(uri, FileScheme) then Some(absPath(uri)) else None
    case None => None
  }

  /** A source is tracked exactly when it is mutable. */
  lemma TrackedIffMutable(src: PropertySource, absPath: string -> string)
    ensures TrackedSource(src, absPath).Some? <==> IsMutableSource(src)
  {
  }

  /** `getTrackedSources`: the paths of every mutable source. */
  function TrackedSources(sources: seq<PropertySource>, absPath: string -> string): (t: set<string>)
    ensures forall p :: p in t <==>
      exists i :: 0 <= i < |sources| && TrackedSource(sources[i], absPath) == Some(p)
  {
    set i | 0 <= i < |sources| && TrackedSource(sources[i], absPath).Some? :: TrackedSource(sources[i], absPath).value
  }

  /** `initialize`: records the tracked sources. */
  function Initialize(r: Spring, absPath: string -> string): (r': Spring)
    ensures r'.sources == r.sources
    ensures forall p :: p in r'.trackedSources <==>
      exists i :: 0 <= i < |r.sources| && IsMutableSource(r.sources[i]) && absPath(SourceUri(r.sources[i]).value) == p
  {
    var r' := r.(trackedSources := TrackedSources(r.sources, absPath));
    forall p
      ensures p in r'.trackedSources <==>
        exists i :: 0 <= i < |r.sources| && IsMutableSource(r.sources[i]) && absPath(SourceUri(r.sources[i]).value) == p
    {
      if p in r'.trackedSources {
        var i :| 0 <= i < |r.sources| && TrackedSource(r.sources[i], absPath) == Some(p);
        TrackedIffMutable(r.sources[i], absPath);
      }
      if exists i :: 0 <= i < |r.sources| && IsMutableSource(r.sources[i]) && absPath(SourceUri(r.sources[i]).value) == p {
        var i :| 0 <= i < |r.sources| && IsMutableSource(r.sources[i]) && absPath(SourceUri(r.sources[i]).value) == p;
        TrackedIffMutable(r.sources[i], absPath);
      }
    }
    r'
  }

  /** `containsProperty`: an enumerable source answers from its property
      names, so a name held with a null value counts; any other source
      answers `getProperty(key) != null`. */
  predicate Contains(src: PropertySource, key: string) {
    key in src.props && (src.enumerable || src.props[key].Some?)
  }

  /** The first source, from `i` on, that contains `key`. */
  function Holder(sources: seq<PropertySource>, key: string, i: nat): (h: Option<nat>)
    requires i <= |sources|
    ensures h.Some? ==> i <= h.value < |sources| && Contains(sources[h.value], key)
    ensures h.Some? ==> forall j :: i <= j < h.value ==> !Contains(sources[j], key)
    ensures h.None? ==> forall j :: i <= j < |sources| ==> !Contains(sources[j], key)
    decreases |sources| - i
  {
    if i == |sources| then None
    else if Contains(sources[i], key) then Some(i)
    else Holder(sources, key, i + 1)
  }

  /** `isMutable`: decided by the first source that contains the key; a key
      no source contains is immutable. */
  predicate IsMutable(r: Spring, key: string) {
    match Holder(r.sources, key, 0)
    case Some(i) => IsMutableSource(r.sources[i])
    case None => false
  }

  /** A mutable key is contained in some `file:` source with no source
      before it containing the key, and conversely. */
  lemma {:induction false} MutableIff(r: Spring, key: string)
    ensures IsMutable(r, key) <==>
      exists i :: 0 <= i < |r.sources| && Contains(r.sources[i], key) && IsMutableSource(r.sources[i])
        && forall j :: 0 <= j < i ==> !Contains(r.sources[j], key)
  {
    var h := Holder(r.sources, key, 0);
    if exists i :: 0 <= i < |r.sources| && Contains(r.sources[i], key) && IsMutableSource(r.sources[i])
        && forall j :: 0 <= j < i ==> !Contains(r.sources[j], key) {
      var i :| 0 <= i < |r.sources| && Contains(r.sources[i], key) && IsMutableSource(r.sources[i])
        && forall j :: 0 <= j < i ==> !Contains(r.sources[j], key);
      assert h.Some?;
      if h.value < i {
      } else if i < h.value {
      }
    }
  }

  /** The value `src` supplies for `key`: present and not null. */
  predicate Supplies(src: PropertySource, key: string) {
    key in src.props && src.props[key].Some?
  }

  /** `environment.getProperty`: the value of the first source, from `i` on,
      that holds a non-null value. Placeholder resolution is left out. */
  function FirstValue(sources: seq<PropertySource>, key: string, i: nat): (v: Option<string>)
    requires i <= |sources|
    ensures v.Some? <==> exists j :: i <= j < |sources| && Supplies(sources[j], key)
    ensures v.Some? ==>
      exists j :: (i <= j < |sources| && Supplies(sources[j], key) && v == sources[j].props[key]
        && forall x :: i <= x < j ==> !Supplies(sources[x], key))
    decreases |sources| - i
  {
    if i == |sources| then None
    else if Supplies(sources[i], key) then sources[i].props[key]
    else FirstValue(sources, key, i + 1)
  }

  function GetProperty(r: Spring, key: string): (v: Option<string>)
    ensures v.Some? <==> exists j :: 0 <= j < |r.sources| && Supplies(r.sources[j], key)
    ensures v.Some? ==>
      exists j :: (0 <= j < |r.sources| && Supplies(r.sources[j], key) && v == r.sources[j].props[key]
        && forall x :: 0 <= x < j ==> !Supplies(r.sources[x], key))
  {
    FirstValue(r.sources, key, 0)
  }

  /** What an enumerable source puts into the flattened view. */
  function Contribution(src: PropertySource): (c: Config)
    ensures forall k :: k in c <==> src.enumerable && Supplies(src, k)
  {
    if src.enumerable then map k | k in src.props && src.props[k].Some? :: src.props[k].value
    else map[]
  }

  /** Reference definition of `getProperties` over the sources in order:
      each earlier source overrides the later ones. */
  function Flattened(sources: seq<PropertySource>): Config
    decreases |sources|
  {
    if |sources| == 0 then map[]
    else Contribution(sources[|sources| - 1]) + Flattened(sources[..|sources| - 1])
  }

  /** The first enumerable source, from `i` on, that supplies `key`. */
  function FirstSupplier(sources: seq<PropertySource>, key: string, i: nat): (j: Option<nat>)
    requires i <= |sources|
    ensures j.Some? ==> i <= j.value < |sources| && sources[j.value].enumerable && Supplies(sources[j.value], key)
    ensures j.Some? ==> forall x :: i <= x < j.value ==> !(sources[x].enumerable && Supplies(sources[x], key))
    ensures j.None? ==> forall x :: i <= x < |sources| ==> !(sources[x].enumerable && Supplies(sources[x], key))
    decreases |sources| - i
  {
    if i == |sources| then None
    else if sources[i].enumerable && Supplies(sources[i], key) then Some(i)
    else FirstSupplier(sources, key, i + 1)
  }

  /** The flattened view of the sources from `i` on holds a key exactly
      when an enumerable source supplies it, with the value of the first
      such source. */
  lemma {:induction false} FlattenedSpec(sources: seq<PropertySource>, key: string, i: nat)
    requires i <= |sources|
    ensures Get(Flattened(sources[i..]), key) ==
      match FirstSupplier(sources, key, i)
      case Some(j) => sources[j].props[key]
      case None => None
    decreases |sources| - i
  {
    if i < |sources| {
      FlattenedSpec(sources, key, i + 1);
      assert sources[i..] == [sources[i]] + sources[i + 1..];
      FlattenedCons(sources[i], sources[i + 1..]);
    }
  }

  /** Putting a source in front gives it precedence over the rest. */
  lemma {:induction false} FlattenedCons(src: PropertySource, rest: seq<PropertySource>)
    ensures Flattened([src] + rest) == Flattened(rest) + Contribution(src)
    decreases |rest|
  {
    if |rest| == 0 {
      assert [src] + rest == [src];
      assert [src][..0] == [];
    } else {
      var sources := [src] + rest;
      var init := rest[..|rest| - 1];
      var last := Contribution(rest[|rest| - 1]);
      assert sources[..|sources| - 1] == [src] + init;
      assert sources[|sources| - 1] == rest[|rest| - 1];
      FlattenedCons(src, init);
      assert Flattened(sources) == last + (Flattened(init) + Contribution(src));
      MapUnionAssoc(last, Flattened(init), Contribution(src));
    }
  }

  /** When every source is enumerable, `getProperty` and `getProperties`
      agree on every key. A non-enumerable source in front can make them
      disagree: the environment then reports a value the scan never
      compares. */
  lemma {:induction false} EnumerableViewsAgree(sources: seq<PropertySource>, key: string, i: nat)
    requires i <= |sources|
    requires forall j :: i <= j < |sources| ==> sources[j].enumerable
    ensures FirstValue(sources, key, i) == Get(Flattened(sources[i..]), key)
    decreases |sources| - i
  {
    if i < |sources| {
      EnumerableViewsAgree(sources, key, i + 1);
      assert sources[i..] == [sources[i]] + sources[i + 1..];
      FlattenedCons(sources[i], sources[i + 1..]);
    }
  }

  /** The inner loop of `getProperties` for one source: a name already
      taken is skipped, a null value is skipped, anything else is put. */
  method PutSupplied(props: Config, src: PropertySource) returns (props': Config)
    ensures props' == Contribution(src) + props
  {
    props' := props;
    if src.enumerable {
      var names := src.props.Keys;
      while names != {}
        invariant names <= src.props.Keys
        invariant props' == (map k | k in src.props.Keys - names && src.props[k].Some? :: src.props[k].value) + props
        decreases names
      {
        var name :| name in names;
        if name !in props' {
          var property := src.props[name];
          if property.Some? {
            props' := props'[name := property.value];
          }
        }
        names := names - {name};
      }
      assert src.props.Keys - names == src.props.Keys;
    }
  }

  /** `getProperties`: every source in order, keeping the first value seen
      for each name. */
  method GetProperties(sources: seq<PropertySource>) returns (props: Config)
    ensures props == Flattened(sources)
  {
    props := map[];
    var i := 0;
    while i < |sources|
      invariant 0 <= i <= |sources|
      invariant props == Flattened(sources[..i])
      decreases |sources| - i
    {
      assert sources[..i + 1][..i] == sources[..i];
      props := PutSupplied(props, sources[i]);
      i := i + 1;
    }
    assert sources[..|sources|] == sources;
  }

  /** What loading a source's file again can give: the new source, an
      `IOException`, which is logged and leaves the old source in place, or
      any other exception, which ends the whole scan. */
  datatype LoadOutcome = Loaded(enumerable: bool, props: map<string, Option<string>>) | IoError | Crash

  /** One source of `reloadPropertySources`, given the host's loader: a
      `file:` source is replaced under the same name. */
  function ReloadOne(src: PropertySource, load: string -> LoadOutcome): (o: Option<PropertySource>)
    ensures o.Some? ==> o.value.name == src.name
    ensures !IsMutableSource(src) ==> o == Some(src)
    ensures o.None? <==> IsMutableSource(src) && load(SourceUri(src).value).Crash?
    ensures IsMutableSource(src) && load(SourceUri(src).value).IoError? ==> o == Some(src)
    ensures IsMutableSource(src) && load(SourceUri(src).value).Loaded? ==>
      o.Some? && o.value.enumerable == load(SourceUri(src).value).enumerable
      && o.value.props == load(SourceUri(src).value).props
  {
    if !IsMutableSource(src) then Some(src)
    else match load(SourceUri(src).value)
      case Loaded(enumerable, props) => Some(PropertySource(src.name, enumerable, props))
      case IoError => Some(src)
      case Crash => None
  }

  /** A walk over the sources that stopped at source `c`, whose load
      crashed: every source before it reloaded, every source from it on
      untouched. */
  predicate StoppedAt(sources: seq<PropertySource>, sources': seq<PropertySource>, load: string -> LoadOutcome, c: nat) {
    && c < |sources| == |sources'|
    && ReloadOne(sources[c], load).None?
    && (forall j :: 0 <= j < c ==> ReloadOne(sources[j], load).Some? && sources'[j] == ReloadOne(sources[j], load).value)
    && forall j :: c <= j < |sources| ==> sources'[j] == sources[j]
  }

  /** `reloadPropertySources`: the sources in order; on a crash the sources
      reloaded so far stay replaced and the rest are untouched. The result
      says whether the walk finished and, if not, at which source the
      exception was thrown. */
  method ReloadPropertySources(sources: seq<PropertySource>, load: string -> LoadOutcome)
    returns (sources': seq<PropertySource>, finished: bool, stoppedAt: nat)
    ensures |sources'| == |sources|
    ensures forall i :: 0 <= i < |sources| ==> sources'[i].name == sources[i].name
    ensures forall i :: 0 <= i < |sources| && !IsMutableSource(sources[i]) ==> sources'[i] == sources[i]
    ensures finished <==> forall i :: 0 <= i < |sources| ==> ReloadOne(sources[i], load).Some?
    ensures finished ==> forall i :: 0 <= i < |sources| ==> sources'[i] == ReloadOne(sources[i], load).value
    ensures !finished ==> stoppedAt < |sources| && ReloadOne(sources[stoppedAt], load).None?
    ensures !finished ==> forall j :: 0 <= j < stoppedAt ==>
      ReloadOne(sources[j], load).Some? && sources'[j] == ReloadOne(sources[j], load).value
    ensures !finished ==> forall j :: stoppedAt <= j < |sources| ==> sources'[j] == sources[j]
  {
    sources' := sources;
    var i := 0;
    finished, stoppedAt := true, 0;
    while i < |sources|
      invariant 0 <= i <= |sources| && |sources'| == |sources|
      invariant forall j :: 0 <= j < |sources| ==> sources'[j].name == sources[j].name
      invariant forall j :: 0 <= j < |sources| && !IsMutableSource(sources[j]) ==> sources'[j] == sources[j]
      invariant forall j :: 0 <= j < i ==> ReloadOne(sources[j], load).Some?
      invariant forall j :: 0 <= j < i ==> sources'[j] == ReloadOne(sources[j], load).value
      invariant forall j :: i <= j < |sources| ==> sources'[j] == sources[j]
      decreases |sources| - i
    {
      var o := ReloadOne(sources[i], load);
      if o.None? {
        finished, stoppedAt := false, i;
        return;
      }
      sources' := sources'[i := o.value];
      i := i + 1;
    }
  }

  /** `scanPropertyChanges`: flatten, reload, flatten again, and report
      what the difference affects. A crash during the reload is caught:
      nothing is reported, but the sources reloaded before it stay
      reloaded. */
  method ScanPropertyChanges(r: Spring, reg: Registry, load: string -> LoadOutcome)
    returns (affected: set<string>, r': Spring)
    ensures r'.trackedSources == r.trackedSources && |r'.sources| == |r.sources|
    ensures (forall i :: 0 <= i < |r.sources| ==> ReloadOne(r.sources[i], load).Some?) ==>
      && (forall i :: 0 <= i < |r.sources| ==> r'.sources[i] == ReloadOne(r.sources[i], load).value)
      && affected == AffectedResources(Flattened(r.sources), Flattened(r'.sources), reg)
    ensures !(forall i :: 0 <= i < |r.sources| ==> ReloadOne(r.sources[i], load).Some?) ==>
      affected == {} && exists c :: StoppedAt(r.sources, r'.sources, load, c)
    ensures affected <= reg.Keys
  {
    var oldConfig := GetProperties(r.sources);
    var sources', finished, stoppedAt := ReloadPropertySources(r.sources, load);
    r' := r.(sources := sources');
    if finished {
      var newConfig := GetProperties(sources');
      affected := CalculateAffectedResources(oldConfig, newConfig, reg);
      AffectedAreRegistered(oldConfig, newConfig, reg);
    } else {
      affected := {};
      assert StoppedAt(r.sources, sources', load, stoppedAt);
    }
  }

  /** A reload that finds every file as it was reports nothing: when each
      source reloads as itself, the sources a finished reload leaves give
      the flattened view they gave before. */
  lemma {:induction false} UnchangedFilesAffectNothing(sources: seq<PropertySource>, reloaded: seq<PropertySource>,
                                                      reg: Registry, load: string -> LoadOutcome)
    requires forall i :: 0 <= i < |sources| ==> ReloadOne(sources[i], load) == Some(sources[i])
    requires |reloaded| == |sources|
    requires forall i :: 0 <= i < |sources| ==> reloaded[i] == ReloadOne(sources[i], load).value
    ensures AffectedResources(Flattened(sources), Flattened(reloaded), reg) == {}
  {
    assert reloaded == sources;
    EqualConfigsAffectNothing(Flattened(sources), reg);
  }
}
